=== FILE: README.md ===
# zatsu snapshot store — a Dafny model of its core

zatsu keeps whole-tree snapshots of a working directory in a hidden store
`.zatsu`. Every regular file is zlib-compressed and stored once under its
hash in `objects/<hash[0..2]>/<hash>`. A commit records a *revision*:
its time, and one entry (path, hash, permission) per file in the order the
tree walker yields them. The revision goes to
`revisions/<n & 0xFF as two hex digits>/<n>.json`, and its number `n` is
appended to the *repository index*. The index also holds the hash-scheme
version: 1 names objects by SHA-1, anything else by SHA-256.

On top of that the tool offers these commands:

- `log` prints, newest first, what changed in each revision against the one
  before it. Entries are bucketed by the first character of their path.
- `get` copies one file of one revision out of the store, under a name
  that carries the revision number.
- `forget` keeps only the newest revisions in the index.
- `upgrade` migrates a version-1 store to SHA-256 names. It moves the old
  store aside, re-hashes every object, records each object's new name
  next to it, and rewrites every revision's entries through those records.

The model is functional. The store is a value `Fs`: three areas (`objects`,
`objects-v1` and `revisions`), each mapping a shard directory to its files.
It also holds the index file, the files `get` writes, and a set of *faulty*
locations. Any access to a faulty location fails, so every error branch of
the source can be reached deterministically. Every command is a function
from a store to a `Step`: the resulting store, plus `Ok` or the error code
the source returns. A step keeps the partial writes made before a
failure, as the source does. A Rust panic (slicing a hash shorter than
two characters, draining past the end of a vector) is the error `Panic`.

SHA-1, SHA-256, hex encoding and zlib are opaque functions bundled in a
`Codec`. The one assumption made about them is `WellFormedCodec`:
inflating what was deflated gives it back, and digests are hex strings of
40 and 64 characters. Two orders are parameters, and every theorem about
them holds for all of them: the iteration order of a `HashMap`'s keys and
the order in which a directory lists its entries.

Files: `types.dfy` (records and error codes) and `text.dfy` (hex, decimal,
split and join). `disk.dfy` holds the store and its primitive operations,
`commons.dfy` the object store, and `repository.dfy` the index and
revision files. `producer.dfy` is the tree walker. `commit.dfy`, `log.dfy`,
`forget.dfy`, `get.dfy` and `upgrade.dfy` hold one command each.

## Model

| member | source | states |
|---|---|---|
| Disk.ShardProbe | src/commons.rs:39-43 | probing a shard directory fails exactly at a faulty location, and otherwise tells whether the directory exists |
| Disk.FileProbe | src/commons.rs:52-56 | probing an object file fails exactly at a faulty location, and otherwise tells whether the file exists |
| Disk.CreateShard | src/commons.rs:44-49 | creating a shard directory succeeds exactly when the location is sound; it then exists empty and nothing else changes |
| Disk.WriteFile | src/commons.rs:68-71 | a write succeeds exactly when the location is sound and the directory exists; the file then holds the content and no other file changes |
| Disk.ReadFile | src/get_command.rs:74-77 | a read succeeds exactly when the file exists at a sound location, and gives its content |
| Commons.SaveObject | src/commons.rs:36-75 | every failure is SavingFileFailed; on success the object exists; an object absent before now holds the compressed bytes; an object present at sound locations makes the call change nothing; no other file changes |
| Commons.SaveObjectIdempotent | src/commons.rs:36-75 | a second put of the same object after a successful one returns the same store and result |
| Commons.SaveIntoFreshRepository | src/commons.rs:107-130 | a put into a freshly initialised store of either scheme version succeeds |
| Commons.ObjectHash | src/commons.rs:77-96 | with a well-formed codec the object name is a hex string, 40 digits long for versions up to 1 and 64 digits otherwise; `Commons.ObjectHashScheme` says which digest it is |
| Commons.ObjectHashScheme | src/commons.rs:77-96 | versions up to 1, including 0 and negatives, give the 40-hex-digit SHA-1; every other version gives the 64-hex-digit SHA-256 |
| RepositoryIndex.LatestRevision | src/repository.rs:50-57 | the latest revision is 0 for an empty index and the last recorded number otherwise |
| RepositoryIndex.LatestIsMaximum | src/repository.rs:50-57 | on a strictly increasing non-empty index the latest revision is recorded and is the largest number |
| RepositoryIndex.LoadRepository | src/repository.rs:59-67 | a missing or unreadable index is LoadingFileFailed; a file that holds no index is DeserializationFailed; otherwise the stored index is returned |
| RepositoryIndex.LoadOrEmpty | src/commit_command.rs:47-52 | the commands fall back to an empty index when loading fails; the model gives that index version 1 |
| RepositoryIndex.SaveRepository | src/repository.rs:37-47 | a failed save is SavingFileFailed and changes nothing; a save touches only the index |
| RepositoryIndex.RepositoryRoundTrip | src/repository.rs:37-67 | loading after a successful save gives back the saved index; the save succeeds exactly when the index location is sound |
| RepositoryIndex.RevisionShard | src/commit_command.rs:91 | the revision shard is a two-hex-digit name; `RepositoryIndex.RevisionShardValue` states which digits |
| RepositoryIndex.RevisionShardValue | src/commit_command.rs:91 | the two digits of the shard, read back as hex with the most significant digit first, give the revision number modulo 256, which is `n & 0xFF` |
| RepositoryIndex.RevisionLocationInjective | src/commit_command.rs:91-103 | distinct revision numbers never share a revision file |
| RepositoryIndex.LoadRevision | src/revision.rs:44-55 | an unreadable revision file is RevisionLoadingFailed; one holding no revision is RevisionDeserializationFailed; otherwise its revision is returned |
| RepositoryIndex.SaveRevision | src/revision.rs:57-69 | a failed save is RevisionSavingFailed and changes nothing; a successful one changes only that file, and loading it gives the revision back |
| PathProducer.New | src/file_path_producer.rs:37-44 | a new walker has no pending files, the root as its one pending directory, and a prefix one longer than the root |
| PathProducer.Scan | src/file_path_producer.rs:80-98 | scanning a directory keeps the prefix, grows the work by at most the directory's subtree, and fails only with ReadingMetaDataFailed or a panic |
| PathProducer.Next | src/file_path_producer.rs:46-103 | every call other than the final one strictly shrinks the remaining work; ProducingFinished leaves both stacks empty |
| PathProducer.ScanValid | src/file_path_producer.rs:90-93 | removing the prefix from a child's path never panics, and a scan stops early only at an entry whose metadata cannot be read |
| PathProducer.ScanKeepsExpected | src/file_path_producer.rs:80-98 | a complete scan moves exactly the yield of the directory's entries onto the stacks; an interrupted one moves part of it |
| PathProducer.PushChild | src/file_path_producer.rs:90-96 | a regular file goes on the file stack with the prefix removed; anything else goes on the directory stack with its full path |
| PathProducer.FinishedWhenEmpty | src/file_path_producer.rs:58-60 | with both stacks empty, `next` reports ProducingFinished and changes nothing |
| PathProducer.NextValid | src/file_path_producer.rs:46-103 | `next` from a valid state leaves a valid state and never panics |
| PathProducer.NextKeepsExpected | src/file_path_producer.rs:46-103 | a yielded path is taken from what the walker still owes; an error only loses owed paths; ProducingFinished means nothing was owed |
| PathProducer.PopFile | src/file_path_producer.rs:49-56 | a pending file is yielded, last pushed first, before any directory is expanded |
| PathProducer.NextIntact | src/file_path_producer.rs:76-89 | over a tree with no unreadable metadata the only errors are ProducingFinished and ReadingDirectoryFailed, and they lose nothing that is owed |
| PathProducer.DrainYieldsExpected | src/file_path_producer.rs:46-103 | draining the walker yields a sub-multiset of what it owes, and all of it when no metadata is unreadable |
| PathProducer.WalkYieldsTree | src/file_path_producer.rs:46-103 | a walk from the root yields the root-relative paths of the tree's regular files outside skipped directories; never more, and all of them when no metadata is unreadable |
| PathProducer.ChildSkipped | src/file_path_producer.rs:64-73 | a directory named `.zatsu`, `.jj` or `.git` is never scanned |
| PathProducer.YieldIsRelative | src/file_path_producer.rs:90-93 | removing the root and its separator from a child path leaves the path below the root |
| Commit.ProcessFile | src/commit_command.rs:123-187 | unreadable metadata is ReadingMetaDataFailed; an unreadable file is LoadingFileFailed; a regular file yields its SHA-1, whatever the scheme version, and its compressed object is stored under it; anything else yields the empty hash and writes nothing; no existing file changes |
| Commit.ProcessFileDeduplicates | src/commit_command.rs:160-181 | committing a file whose object is already stored writes nothing |
| Commit.Collect | src/commit_command.rs:56-89 | the drain loop changes neither the index, the outputs nor the faults; `Commit.CollectFollowsWalk` and `Commit.CollectKeepsFiles` state what it collects and what it keeps |
| Commit.CollectFollowsWalk | src/commit_command.rs:63-89 | on success the entries are the walk's paths in yield order, each with its file's hash and permission 0o644, and every object is stored; a failure is one of `process_file`'s errors |
| Commit.CollectKeepsFiles | src/commit_command.rs:63-89 | the commit loop only adds files to the store |
| Commit.CollectKeepsRevisions | src/commit_command.rs:63-89 | the drain loop writes only objects: every other area, the revisions included, is as it was, whether the loop succeeds or fails |
| Commit.FailedCommitSavesNoRevision | src/commit_command.rs:69-72 | a commit whose walk fails through a `process_file` error returns before saving: the index and every area other than the objects are as they were, so no revision file is written |
| Commit.NextNumber | src/commit_command.rs:47-54 | the next number is one more than the latest, so 1 on an empty or unloadable index |
| Commit.SaveCommit | src/commit_command.rs:91-111 | every failure is SavingFileFailed and leaves the index alone; on success the revision loads under its number and the number is appended to the index |
| Commit.CommitAppends | src/commit_command.rs:103-111 | a failed commit leaves the index as it was; a successful one appends the new number and keeps the version |
| Commit.CommitRecordsRevision | src/commit_command.rs:56-106 | after a successful commit the new revision loads, with the given time and the walk's entries in yield order, and every object is stored |
| Commit.CommitExecute | src/commit_command.rs:46-114 | a commit never touches the outputs or the faults, keeps every stored object, and leaves the index alone when it fails; `Commit.CommitAppends` and `Commit.CommitRecordsRevision` state what a successful one records |
| Commit.CommitHashesFiles | src/commit_command.rs:128-140 | when the walk and `process_file` see the same working directory, every entry of a successful commit names a regular file by the 40-hex-digit SHA-1 of its bytes, and that object is stored |
| Commit.CommitKeepsIncreasing | src/commit_command.rs:53-54 | appending the next number keeps a strictly increasing index strictly increasing |
| Commit.CommitsCountFromOne | src/commit_command.rs:47-54 | an index holding 1..k becomes 1..k+1 |
| Log.FindHash | src/log_command.rs:137-145 | the lookup `update_changes` uses; `Log.FindHashFirst` states that nothing is found exactly when no entry has the path, and otherwise the hash of the first entry that has it |
| Log.FindHashFirst | src/log_command.rs:137-145 | the lookup finds nothing exactly when no entry has the path, and otherwise the hash of the first entry that has it |
| Log.Divide | src/log_command.rs:147-166 | the buckets are keyed by the first characters present, NUL for an empty path, and each holds the entries with that key in list order |
| Log.DivideIsPartition | src/log_command.rs:147-166 | concatenating the buckets in any key order is a permutation of the list, so every entry lands in exactly one bucket |
| Log.UpdateChanges | src/log_command.rs:168-199 | the change list has at most one line per entry of either list; `Log.AddedIff`, `Log.ModifiedIff` and `Log.DeletedIff` state which lines it holds |
| Log.AddedIff | src/log_command.rs:168-185 | `A p` is reported exactly when the newer list has `p` and the older one does not |
| Log.ModifiedIff | src/log_command.rs:169-181 | `M p` is reported exactly when a newer entry for `p` has a hash that differs from the older list's first hash for `p` |
| Log.DeletedIff | src/log_command.rs:186-198 | `D p` is reported exactly when the older list has `p` and the newer one does not |
| Log.DiffAgainstEmpty | src/log_command.rs:61-77 | against an empty predecessor every entry is reported as added, in order |
| Log.DiffAgainstSelf | src/log_command.rs:168-199 | a list with unique paths compared with itself reports nothing |
| Log.FindHashInBucket | src/log_command.rs:150-156 | a path is found in its own bucket exactly as in the whole list, because equal paths share a first character |
| Log.BucketContribution | src/log_command.rs:96-109 | each bucket of the newer revision contributes the newer-side lines of its entries and the older-side lines of the matching older bucket |
| Log.OldBucketContribution | src/log_command.rs:110-119 | a bucket only the older revision has contributes its older-side lines, all deletions |
| Log.BucketedChanges | src/log_command.rs:93-119 | the bucketed change list; `Log.BucketingIsNeutral` states that in every key order it is a permutation of `Log.UpdateChanges` on the whole lists |
| Log.BucketingIsNeutral | src/log_command.rs:93-119 | in every key order, the bucketed change list is a permutation of the diff of the two whole lists |
| Log.PreviousEntries | src/log_command.rs:61-77 | the first revision is compared with the empty list; any other one is compared with the revision before it, whose failed load is LoadingFileFailed |
| Log.RevisionBlockMeaning | src/log_command.rs:46-119 | a block exists exactly when the revision and its predecessor load; it has the revision's number and time, and its changes are a permutation of the whole-list diff |
| Log.RevisionBlockOk | src/log_command.rs:48-77 | a revision's block fails, with LoadingFileFailed, exactly when it or its predecessor does not load |
| Log.WalkNewestFirst | src/log_command.rs:45-77 | blocks are printed from the newest position down; the walk stops at the newest failing position and reports its error |
| Log.LogCommand | src/log_command.rs:37-128 | the index walked from the newest revision to the oldest; `Log.LogOutcome` and `Log.WalkNewestFirst` state its outcome and order |
| Log.LogOutcome | src/log_command.rs:38-77 | `log` fails, with LoadingFileFailed, exactly when some revision of the index does not load, and otherwise prints one block per revision |
| Log.OutcomesOk | src/log_command.rs:48-77 | every position has a block exactly when every revision loads |
| Log.OldestAllAdded | src/log_command.rs:61-62 | the oldest revision's block lists every entry as added |
| Forget.Retained | src/forget_command.rs:41-47 | keeping `n` gives the last min(n, count) numbers in order; a negative `n` panics |
| Forget.ForgetExecute | src/forget_command.rs:33-48 | nothing is saved when nothing is removed; otherwise the saved index is the old one with only the last `n` numbers; a failure is a panic or SavingFileFailed and changes nothing |
| Forget.RetainedKeepsIncreasing | src/forget_command.rs:46-47 | what is kept of a strictly increasing index stays strictly increasing |
| Forget.RetainedIdempotent | src/forget_command.rs:41-47 | forgetting twice with the same count equals forgetting once |
| Forget.ForgetKeepsLatest | src/forget_command.rs:41-47 | keeping at least one revision keeps the latest, so the next number exceeds every forgotten one |
| Forget.ForgetAll | src/forget_command.rs:41-47 | keeping no revisions empties the index |
| Get.FindLast | src/get_command.rs:61-71 | the last entry with the path wins; `Get.FindLastIsLast` states it |
| Get.FindLastIsLast | src/get_command.rs:61-68 | nothing is found exactly when no entry has the path; otherwise the hash is that of an entry with the path that no later entry shares |
| Get.ReadObject | src/get_command.rs:73-86 | a hash shorter than two characters panics; otherwise failure is LoadingFileFailed; success means the stored object inflates to the bytes returned |
| Get.ObjectRoundTrip | src/get_command.rs:73-86 | reading an object stored by `save_object` gives back the saved bytes |
| Get.OutputName | src/get_command.rs:87-95 | the output name; `Get.OutputNameOfDotted`, `Get.OutputNameOfMultiDotted` and `Get.OutputNameWithoutDot` state it for every shape of name |
| Get.OutputNameOfDotted | src/get_command.rs:87-95 | `dir/stem.ext` is written as `stem-r<n>.ext` |
| Get.OutputNameOfMultiDotted | src/get_command.rs:91-93 | only the first two dot-separated pieces count: `a.tar.gz` becomes `a-r<n>.tar` |
| Get.OutputNameWithoutDot | src/get_command.rs:88-94 | a last component without a dot is written as `out.dat` |
| Get.GetExecute | src/get_command.rs:47-55 | a revision missing from the index is RevisionNotFound, before anything is read; `get` changes only the output files |
| Get.GetOutcome | src/get_command.rs:57-99 | an unloadable revision is LoadingRevisionFailed; FileNotFound happens exactly when the revision loads and no entry has the path; the object's read errors pass through; SavingFileFailed happens only at a faulty output location; success writes the inflated object of the path's last entry |
| Upgrade.MoveStore | src/upgrade_command.rs:52-56 | the rename succeeds exactly when `objects` is sound and present and `objects-v1` is absent or empty; `objects-v1` then holds the old store, and `objects` is gone |
| Upgrade.CreateStore | src/upgrade_command.rs:58-62 | creating `objects` succeeds exactly when it is sound and absent; it is then empty and nothing else changes |
| Upgrade.Prepare | src/upgrade_command.rs:40-62 | an unloadable index is LoadingRepositoryFailed; a version other than 1 is General and leaves the store untouched; on success the old objects sit in `objects-v1` and `objects` is empty |
| Upgrade.Inflated | src/upgrade_command.rs:114-126 | an old object reads successfully exactly when it exists at a sound location, holds raw bytes and inflates |
| Upgrade.StoreAndRecord | src/upgrade_command.rs:128-142 | on success the SHA-256 of the bytes names a stored object and is written to the record beside the old object; failures are a panic or SavingFileFailed; old objects and revisions stay |
| Upgrade.CopyObject | src/upgrade_command.rs:114-142 | LoadingFileFailed exactly when the old object does not read and inflate; on success it is recorded; nothing but the new store and its own record changes |
| Upgrade.CopyFiles | src/upgrade_command.rs:104-143 | copying a shard leaves old objects, revisions and other shards' files alone |
| Upgrade.CopyShards | src/upgrade_command.rs:93-145 | failures are ReadingDirectoryFailed or an object's error; old objects and revisions stay |
| Upgrade.CopyObjects | src/upgrade_command.rs:80-84 | an unreadable `objects-v1` is ReadingDirectoryFailed and changes nothing |
| Upgrade.CopyFilesRecords | src/upgrade_command.rs:104-143 | after a shard is copied, every listed old object is recorded |
| Upgrade.CopyShardsRecords | src/upgrade_command.rs:93-145 | after the listed shards are copied, every old object in them is recorded |
| Upgrade.CopyObjectsRecords | src/upgrade_command.rs:80-148 | after a successful copy, every old object has a record naming the SHA-256 of its bytes, and the new store holds that object |
| Upgrade.CopyObjectAddressed | src/upgrade_command.rs:128-129 | copying one object keeps every object of the new store named by the SHA-256 of its content |
| Upgrade.MigrateAddressed | src/upgrade_command.rs:52-65 | after moving and copying, every object in `objects` is named by the SHA-256 of its content |
| Upgrade.MigrateRecords | src/upgrade_command.rs:114-142 | after moving and copying, every old object has its record |
| Upgrade.RecordedName | src/upgrade_command.rs:177-182 | a hash shorter than two characters panics; the record is read from `<area>/<hash[0..2]>/<hash>.new`; a missing or non-text record is LoadingFileFailed |
| Upgrade.RemapEntries | src/upgrade_command.rs:175-190 | all entries remap exactly when every record is found; each entry keeps its path and permission and takes its record's name, in the same order and number; the first failing record decides the error |
| Upgrade.RemappedRevision | src/upgrade_command.rs:174-192 | a revision's load error passes through; a remapped revision keeps its time and description and carries the remapped entries |
| Upgrade.UpdateRevision | src/upgrade_command.rs:173-193 | a failed remap saves nothing; otherwise the remapped revision is saved in place and nothing else changes |
| Upgrade.UpdateEntries | src/upgrade_command.rs:172-194 | only revision files change; the first revision's failure stops the loop at once |
| Upgrade.UpdateEntriesMeaning | src/upgrade_command.rs:172-194 | after success, each listed revision loads as its old self with every entry remapped |
| Upgrade.UpdateEntriesStops | src/upgrade_command.rs:179-193 | a failure stops at one revision: the earlier ones stay rewritten, it and the later ones stay as they were, and the error is its own |
| Upgrade.UpdateEntriesSucceeds | src/upgrade_command.rs:172-196 | the rewrite succeeds when every revision loads and every record is found |
| Upgrade.Migrate | src/upgrade_command.rs:40-65 | after moving and copying, the index, the revisions and the faults are as before, and the version was 1 |
| Upgrade.UpgradeWith | src/upgrade_command.rs:39-71 | an unloadable index is LoadingRepositoryFailed; a version other than 1 is General with the store untouched; the index is never written |
| Upgrade.UpgradeAsWritten | src/upgrade_command.rs:39-71 | the command as written, reading records from `objects`: an unloadable index is LoadingRepositoryFailed, a version other than 1 is General with the store untouched, and the index and outputs never change; `Upgrade.AsWrittenFindsNoRecord` shows it fails |
| Upgrade.UpgradeExecute | src/upgrade_command.rs:39-71 | the command with records read from `objects-v1`, where they are written: the same load and version gates and the same frame; `Upgrade.UpgradeRemapsEntries` and `Upgrade.UpgradeSucceeds` state what it achieves |
| Upgrade.NoRecordInStore | src/upgrade_command.rs:177-182 | a new store holding only content-addressed objects holds no record file |
| Upgrade.AsWrittenFindsNoRecord | src/upgrade_command.rs:177-178 | as written, the rewrite fails with LoadingFileFailed on every repository whose first revision has an entry |
| Upgrade.UpgradeRemapsEntries | src/upgrade_command.rs:39-71 | with records read where they were written, a successful upgrade leaves every revision with its time, description, paths and permissions, and every entry that named an old object names the SHA-256 object of the same bytes |
| Upgrade.UpgradeSucceeds | src/upgrade_command.rs:172-196 | with records read where they were written, the rewrite succeeds after a successful copy whenever every revision loads and every entry names an old object |

## Left out

- Disk: `try_exists`, `create_dir`, `rename`, `read_dir`, `read` and `write` are modelled on a structured store. Failures come from a fixed set of faulty locations rather than from the real filesystem.
- Codec: SHA-1, SHA-256, hex encoding and zlib (RFC 1950/1951) are opaque functions. `WellFormedCodec` assumes what the model needs of them: inflate undoes deflate, and digests are 40 and 64 hex digits.
- JSON serialization of the index and the revisions is not modelled. The records are stored as values, so SerializationFailed never happens. A file holding something else stands for a parse error.
- RepositoryIndex.LoadRepository: an index file holding raw bytes is always DeserializationFailed. `Repository::load` reads with `fs::read_to_string` (src/repository.rs:60-63), which fails with LoadingFileFailed on bytes that are not UTF-8; the model folds that case into the parse error.
- RepositoryIndex.LoadOrEmpty: the fallback index carries scheme version 1. The source's fallback literal (src/commit_command.rs:47-51) sets no version, so the value is the model's choice; 1 is the version a store created by `init` carries.
- `Entry` (src/entry.rs), `Repository` (src/repository.rs) and `Revision` (src/revision.rs) lag their callers. The model uses the fields the callers use: an entry's permission, the index's version, and a revision's time and description. The model keeps the version in the index only; the `version.txt` marker that `init` writes (src/init_command.rs:47) is not modelled, and nothing in the core reads it.
- Integer widths are not modelled. Revision numbers are unbounded, so i32 overflow of `latest + 1` and of `len() as i32` does not arise. `n & 0xFF` is the remainder modulo 256, which equals the low byte of a two's-complement number.
- Strings are sequences of characters. Byte offsets in slices (`hash[0..2]`, `path[prefix_length..]`) are taken as character offsets, which agree on ASCII. A panic on a slice that splits a multi-byte character is not modelled.
- Dates and output: timestamps are a parameter (`now`). Date formatting and every `println!` are left out. `log` returns its blocks instead of printing them.
- Windows: the walker's backslash replacement on Windows (src/file_path_producer.rs:51-53) is left out.
- The walker and `process_file` see fixed snapshots of the working tree. Changes made by other processes during the walk are not modelled.
- A directory's entries come in the order the tree lists them. Per-entry `read_dir` errors, which the source skips, are not modelled.
- `Path::join` is modelled as `dir + "/" + name`. A root ending in a separator is not modelled.
- Commit.ProcessFile: hashes with SHA-1 whatever the repository's version. `object_hash` (src/commons.rs:77-96) picks SHA-1 or SHA-256 by version, but `process_file` calls `Sha1` directly (src/commit_command.rs:136-138); the model follows `process_file`.
- Forget: the garbage collection that `forget` calls after saving is not part of this model.
- Upgrade: `execute` (src/upgrade_command.rs:40) passes the store root to `Repository::load`, as `init` passes it to `save` (src/init_command.rs:63). The model loads the index in every command alike.
- Upgrade: `execute` (src/upgrade_command.rs:39-71) never saves the index and never removes `objects-v1`, so the model leaves the scheme version at 1 and keeps the old objects too.
- Upgrade.CopyShards: a shard's file names are listed once, before its objects are copied. The source's lazy `read_dir` may or may not also list the `.new` records written meanwhile.
- Upgrade.CopyObjects: a top-level entry of `objects-v1` that is a plain file, which the source would fail to list, cannot occur in the model.
- Upgrade.Prepare: the second CreatingDirectoryFailed path (creating `objects` after a successful rename) cannot arise. Faults are per location, so a fault there already fails the rename.
- Upgrade.RecordedName: only text records are read. A record holding raw bytes that happen to be valid UTF-8 would be read by the source.
- Upgrade.UpgradeRemapsEntries: SHA-256 collisions are not ruled out. The theorem states that each entry names the SHA-256 of its old object's bytes and that the object stored under that name has that hash. It does not state that the stored object holds the very same bytes.
- Log.LogCommand: the newest-first order is proved for the walk over any sequence of per-position outcomes (`Log.WalkNewestFirst`), and `Log.Outcomes` gives those outcomes. No single lemma restates the command's whole block list.
- The order of lines within a `log` block depends on the key order of the source's `HashMap`. That order is a parameter, and `Log.BucketingIsNeutral` holds for every order.
- Concurrency is not modelled. The source assumes a single writer and takes no locks.

## Findings

| source | as written | input that shows it | evidently intended | confidence | as-written member | corrected member |
|---|---|---|---|---|---|---|
| src/upgrade_command.rs:177-178 | `update_entries` reads the record of old hash `h` from `objects/<h[0..2]>/<h>.new`. But `copy_objects` writes it beside the old object in `objects-v1` (lines 132-139), and the new `objects` holds only hex-named objects. | A version-1 store whose first revision has an entry, for example after one commit of one file. | Read the record from `objects-v1/<h[0..2]>/<h>.new`. | high; not executed | Upgrade.AsWrittenFindsNoRecord | Upgrade.UpgradeRemapsEntries |

=== FILE: commit.dfy ===
/** `commit`: walk the working tree, store every regular file as an object,
    and record the entries as a new revision whose number is appended to the
    index. */
module Commit {

  import opened Types
  import opened Disk
  import Text
  import Commons
  import RepositoryIndex
  import PathProducer

  /** What `fs::metadata` and `fs::read` find at a path of the working
      directory, relative to it: a regular file with its bytes, a regular
      file that cannot be read, or something that is not a regular file.
      A path absent from the map has unreadable metadata. */
  datatype WorkItem = Regular(bytes: seq<byte>) | Unreadable | NotRegular

  type WorkTree = map<string, WorkItem>

  /** `process_file`: a regular file is hashed with SHA-1, whatever the
      repository's scheme version, and stored at `objects/<hash[0..2]>/<hash>`
      by the same probe-create-probe-write sequence as `save_object`;
      anything else gets the empty hash. */
  function ProcessFile(fs: Fs, codec: Codec, work: WorkTree, path: string): (r: Step<string>)
    ensures (path !in work) <==> r.result == Err(ReadingMetaDataFailed)
    ensures path in work && work[path].Unreadable? <==> r.result == Err(LoadingFileFailed)
    ensures r.result.Err? ==> r.result.error in {ReadingMetaDataFailed, LoadingFileFailed, SavingFileFailed, Panic}
    ensures r.result.Ok? ==> path in work && !work[path].Unreadable?
    ensures r.result.Ok? && work[path].NotRegular? ==> r.result.value == "" && r.fs == fs
    ensures r.result.Ok? && work[path].Regular? ==>
              && r.result.value == codec.sha1(work[path].bytes)
              && |r.result.value| >= 2
              && FileExists(r.fs, Objects, Commons.ObjectShard(r.result.value), r.result.value)
    ensures r.result.Ok? && work[path].Regular? &&
            !FileExists(fs, Objects, Commons.ObjectShard(r.result.value), r.result.value) ==>
              r.fs.areas[Objects][Commons.ObjectShard(r.result.value)][r.result.value]
                == Raw(codec.compress(work[path].bytes))
    ensures r.fs.index == fs.index && r.fs.outputs == fs.outputs && r.fs.faults == fs.faults
    ensures forall a, s, n | FileExists(fs, a, s, n) :: FileExists(r.fs, a, s, n) && r.fs.areas[a][s][n] == fs.areas[a][s][n]
    ensures r.fs.areas.Keys == fs.areas.Keys && forall a | a in fs.areas && a != Objects :: r.fs.areas[a] == fs.areas[a]
  {
    if path !in work then Step(fs, Err(ReadingMetaDataFailed))
    else
      match work[path]
      case NotRegular => Step(fs, Ok(""))
      case Unreadable => Step(fs, Err(LoadingFileFailed))
      case Regular(values) =>
        var hash := codec.sha1(values);
        if |hash| < 2 then Step(fs, Err(Panic))
        else
          var saved := Commons.SaveObject(fs, codec, values, hash);
          Step(saved.fs, if saved.result.Ok? then Ok(hash) else Err(saved.result.error))
  }

  /** Committing a file whose object is already stored writes nothing. */
  lemma ProcessFileDeduplicates(fs: Fs, codec: Codec, work: WorkTree, path: string)
    requires path in work && work[path].Regular?
    requires var h := codec.sha1(work[path].bytes);
             && |h| >= 2
             && FileExists(fs, Objects, Commons.ObjectShard(h), h)
             && ShardLoc(Objects, Commons.ObjectShard(h)) !in fs.faults
             && FileLoc(Objects, Commons.ObjectShard(h), h) !in fs.faults
    ensures ProcessFile(fs, codec, work, path) == Step(fs, Ok(codec.sha1(work[path].bytes)))
  {
  }

  /** The drain loop of `CommitCommand::execute`: call `next` until it
      reports the end of the walk, pass over its other errors, and turn
      every yielded path into an entry with permission 0o644; the first
      `process_file` error aborts the loop. */
  function Collect(fs: Fs, codec: Codec, work: WorkTree, p: PathProducer.Producer): (r: Step<seq<Entry>>)
    ensures r.fs.index == fs.index && r.fs.outputs == fs.outputs && r.fs.faults == fs.faults
    decreases PathProducer.Measure(p)
  {
    var (q, yielded) := PathProducer.Next(p);
    if yielded == Err(ProducingFinished) then Step(fs, Ok([]))
    else if yielded.Err? then Collect(fs, codec, work, q)
    else
      var path := yielded.value;
      var processed := ProcessFile(fs, codec, work, path);
      match processed.result
      case Err(e) => Step(processed.fs, Err(e))
      case Ok(hash) =>
        var rest := Collect(processed.fs, codec, work, q);
        match rest.result
        case Err(e) => Step(rest.fs, Err(e))
        case Ok(es) => Step(rest.fs, Ok([Entry(path, hash, DefaultPermission)] + es))
  }

  function Paths(es: seq<Entry>): (ps: seq<string>)
    ensures |ps| == |es| && forall i | 0 <= i < |es| :: ps[i] == es[i].path
  {
    if |es| == 0 then [] else [es[0].path] + Paths(es[1..])
  }

  /** What an entry records about its path in the working directory: the
      SHA-1 of a regular file's bytes, the empty hash for anything else,
      and permission 0o644. */
  ghost predicate Describes(e: Entry, codec: Codec, work: WorkTree) {
    && e.path in work
    && !work[e.path].Unreadable?
    && (work[e.path].Regular? ==> e.hash == codec.sha1(work[e.path].bytes))
    && (work[e.path].NotRegular? ==> e.hash == "")
    && e.permission == DefaultPermission
  }

  /** The object of every regular file's entry is in the store. */
  ghost predicate Stored(fs: Fs, es: seq<Entry>) {
    forall i | 0 <= i < |es| && |es[i].hash| >= 2 ::
      FileExists(fs, Objects, Commons.ObjectShard(es[i].hash), es[i].hash)
  }

  /** On success the entries are the walk's paths in yield order, each
      describing its file, and every regular file's object is stored; a
      failure is one of `process_file`'s errors. */
  lemma {:induction false} CollectFollowsWalk(fs: Fs, codec: Codec, work: WorkTree, p: PathProducer.Producer)
    ensures var r := Collect(fs, codec, work, p);
            && (r.result.Ok? ==> Paths(r.result.value) == PathProducer.Drain(p))
            && (r.result.Ok? ==> forall i | 0 <= i < |r.result.value| :: Describes(r.result.value[i], codec, work))
            && (r.result.Ok? ==> Stored(r.fs, r.result.value))
            && (r.result.Err? ==> r.result.error in {ReadingMetaDataFailed, LoadingFileFailed, SavingFileFailed, Panic})
    decreases PathProducer.Measure(p)
  {
    var (q, yielded) := PathProducer.Next(p);
    if yielded != Err(ProducingFinished) {
      if yielded.Err? {
        CollectFollowsWalk(fs, codec, work, q);
      } else {
        var path := yielded.value;
        var processed := ProcessFile(fs, codec, work, path);
        if processed.result.Ok? {
          var hash := processed.result.value;
          var rest := Collect(processed.fs, codec, work, q);
          CollectFollowsWalk(processed.fs, codec, work, q);
          if rest.result.Ok? {
            var e := Entry(path, hash, DefaultPermission);
            var es := [e] + rest.result.value;
            CollectKeepsFiles(processed.fs, codec, work, q);
            assert Collect(fs, codec, work, p).result == Ok(es);
            assert Paths(es) == [path] + Paths(rest.result.value);
            assert PathProducer.Drain(p) == [path] + PathProducer.Drain(q);
            forall i | 0 <= i < |es|
              ensures Describes(es[i], codec, work)
            {
              if i > 0 { assert es[i] == rest.result.value[i - 1]; }
            }
            forall i | 0 <= i < |es| && |es[i].hash| >= 2
              ensures FileExists(rest.fs, Objects, Commons.ObjectShard(es[i].hash), es[i].hash)
            {
              if i > 0 { assert es[i] == rest.result.value[i - 1]; }
            }
          }
        }
      }
    }
  }

  /** The loop only ever adds objects: a file present before it is present
      afterwards with the same content. */
  lemma {:induction false} CollectKeepsFiles(fs: Fs, codec: Codec, work: WorkTree, p: PathProducer.Producer)
    ensures var r := Collect(fs, codec, work, p);
            forall a, s, n | FileExists(fs, a, s, n) :: FileExists(r.fs, a, s, n) && r.fs.areas[a][s][n] == fs.areas[a][s][n]
    decreases PathProducer.Measure(p)
  {
    var (q, yielded) := PathProducer.Next(p);
    if yielded != Err(ProducingFinished) {
      if yielded.Err? {
        CollectKeepsFiles(fs, codec, work, q);
      } else {
        var processed := ProcessFile(fs, codec, work, yielded.value);
        if processed.result.Ok? {
          CollectKeepsFiles(processed.fs, codec, work, q);
        }
      }
    }
  }

  /** The loop writes only objects: every other area, the revisions
      included, is as it was, whether the loop succeeds or fails. */
  lemma {:induction false} CollectKeepsRevisions(fs: Fs, codec: Codec, work: WorkTree, p: PathProducer.Producer)
    ensures var r := Collect(fs, codec, work, p);
            r.fs.areas.Keys == fs.areas.Keys && forall a | a in fs.areas && a != Objects :: r.fs.areas[a] == fs.areas[a]
    decreases PathProducer.Measure(p)
  {
    var (q, yielded) := PathProducer.Next(p);
    if yielded != Err(ProducingFinished) {
      if yielded.Err? {
        CollectKeepsRevisions(fs, codec, work, q);
      } else {
        var processed := ProcessFile(fs, codec, work, yielded.value);
        if processed.result.Ok? {
          CollectKeepsRevisions(processed.fs, codec, work, q);
        }
      }
    }
  }

  /** The number the next commit receives: one more than the latest, so 1
      when the index is empty or cannot be loaded. */
  function NextNumber(fs: Fs): (n: int)
    ensures RepositoryIndex.LoadRepository(fs).Err? ==> n == 1
    ensures var nums := RepositoryIndex.LoadOrEmpty(fs).revisionNumbers;
            (|nums| == 0 ==> n == 1) && (|nums| > 0 ==> n == Text.Last(nums) + 1)
  {
    RepositoryIndex.LatestRevision(RepositoryIndex.LoadOrEmpty(fs)) + 1
  }

  /** The end of `CommitCommand::execute`: make sure the revision's shard
      directory exists, save the revision, then append its number to the
      index and save the index. Every failure is SavingFileFailed and
      leaves the index as it was; success leaves the revision loadable
      under its number and the number appended; stored objects stay. */
  function SaveCommit(fs: Fs, repo: Repository, n: int, rev: Revision): (r: Step<Unit>)
    ensures r.result.Err? ==> r.result.error == SavingFileFailed && r.fs.index == fs.index
    ensures r.result.Ok? ==> RepositoryIndex.LoadRevision(r.fs, n) == Ok(rev)
    ensures r.result.Ok? ==> RepositoryIndex.LoadRepository(r.fs)
                               == Ok(repo.(revisionNumbers := repo.revisionNumbers + [n]))
    ensures forall s, h | FileExists(fs, Objects, s, h) :: FileExists(r.fs, Objects, s, h)
  {
    var shard := RepositoryIndex.RevisionShard(n);
    match ShardProbe(fs, Revisions, shard)
    case None => Step(fs, Err(SavingFileFailed))
    case Some(present) =>
      var created := if present then Some(fs) else CreateShard(fs, Revisions, shard);
      if created.None? then Step(fs, Err(SavingFileFailed))
      else
        var fs1 := created.value;
        var saved := RepositoryIndex.SaveRevision(fs1, n, rev);
        if saved.result.Err? then Step(saved.fs, Err(SavingFileFailed))
        else
          var next := repo.(revisionNumbers := repo.revisionNumbers + [n]);
          var indexed := RepositoryIndex.SaveRepository(saved.fs, next);
          RepositoryIndex.RepositoryRoundTrip(saved.fs, next);
          if indexed.result.Err? then Step(indexed.fs, Err(SavingFileFailed))
          else Step(indexed.fs, Ok(Unit))
  }

  /** `CommitCommand::execute` with the current time `now` in
      milliseconds: collect the entries from a walk of `.`, then save them
      as revision `NextNumber(fs)`. */
  function CommitExecute(fs: Fs, codec: Codec, tree: PathProducer.Node, work: WorkTree, now: int): (r: Step<Unit>)
    ensures r.fs.outputs == fs.outputs && r.fs.faults == fs.faults
    ensures r.result.Err? ==> r.fs.index == fs.index
    ensures forall s, h | FileExists(fs, Objects, s, h) :: FileExists(r.fs, Objects, s, h)
  {
    var collected := Collect(fs, codec, work, PathProducer.New(".", tree));
    CollectKeepsFiles(fs, codec, work, PathProducer.New(".", tree));
    match collected.result
    case Err(e) => Step(collected.fs, Err(e))
    case Ok(entries) =>
      SaveCommit(collected.fs, RepositoryIndex.LoadOrEmpty(fs), NextNumber(fs), Revision(now, entries, ""))
  }

  /** A failed commit leaves the index as it was; a successful one appends
      the new number to it and keeps the scheme version. */
  lemma CommitAppends(fs: Fs, codec: Codec, tree: PathProducer.Node, work: WorkTree, now: int)
    ensures var r := CommitExecute(fs, codec, tree, work, now);
            var repo := RepositoryIndex.LoadOrEmpty(fs);
            && (r.result.Err? ==> r.fs.index == fs.index)
            && (r.result.Ok? ==> RepositoryIndex.LoadRepository(r.fs)
                                  == Ok(repo.(revisionNumbers := repo.revisionNumbers + [NextNumber(fs)])))
  {
  }

  /** A commit whose walk fails, through an error of `process_file`,
      aborts before anything but objects is written: no revision file is
      saved and, with the index, every area other than the objects is as it
      was. */
  lemma FailedCommitSavesNoRevision(fs: Fs, codec: Codec, tree: PathProducer.Node, work: WorkTree, now: int)
    ensures var r := CommitExecute(fs, codec, tree, work, now);
            Collect(fs, codec, work, PathProducer.New(".", tree)).result.Err? ==>
              && r.result.Err?
              && r.fs.index == fs.index
              && r.fs.areas.Keys == fs.areas.Keys
              && forall a | a in fs.areas && a != Objects :: r.fs.areas[a] == fs.areas[a]
  {
    CollectKeepsRevisions(fs, codec, work, PathProducer.New(".", tree));
  }

  /** A successful commit leaves a loadable revision under the new number,
      committed at `now`, whose entries are the walk's paths in yield
      order, each describing its file, with every regular file's object in
      the store. */
  lemma CommitRecordsRevision(fs: Fs, codec: Codec, tree: PathProducer.Node, work: WorkTree, now: int)
    ensures var r := CommitExecute(fs, codec, tree, work, now);
            var rev := RepositoryIndex.LoadRevision(r.fs, NextNumber(fs));
            r.result.Ok? ==>
              && rev.Ok?
              && rev.value.committed == now && rev.value.description == ""
              && Paths(rev.value.entries) == PathProducer.Drain(PathProducer.New(".", tree))
              && (forall i | 0 <= i < |rev.value.entries| :: Describes(rev.value.entries[i], codec, work))
              && Stored(r.fs, rev.value.entries)
  {
    CollectFollowsWalk(fs, codec, work, PathProducer.New(".", tree));
  }

  /** The two views of the working directory agree: every regular file a
      walk of `.` can reach is readable, with bytes, when `process_file`
      looks at it. */
  ghost predicate Consistent(tree: PathProducer.Node, work: WorkTree) {
    forall path | path in PathProducer.Under(".", tree, 2) :: path in work && work[path].Regular?
  }

  /** When the walk and `process_file` see the same working directory, a
      successful commit records every file under the 40-hex-digit SHA-1 of
      its bytes, and the object named by that hash is in the store. */
  lemma CommitHashesFiles(fs: Fs, codec: Codec, tree: PathProducer.Node, work: WorkTree, now: int)
    requires WellFormedCodec(codec) && Consistent(tree, work)
    ensures var r := CommitExecute(fs, codec, tree, work, now);
            var rev := RepositoryIndex.LoadRevision(r.fs, NextNumber(fs));
            r.result.Ok? ==>
              && rev.Ok?
              && forall i | 0 <= i < |rev.value.entries| ::
                   var e := rev.value.entries[i];
                   && e.path in work && work[e.path].Regular?
                   && e.hash == codec.sha1(work[e.path].bytes)
                   && |e.hash| == 40 && Text.IsHexString(e.hash)
                   && FileExists(r.fs, Objects, Commons.ObjectShard(e.hash), e.hash)
  {
    var r := CommitExecute(fs, codec, tree, work, now);
    if r.result.Ok? {
      CommitRecordsRevision(fs, codec, tree, work, now);
      PathProducer.WalkYieldsTree(".", tree);
      var es := RepositoryIndex.LoadRevision(r.fs, NextNumber(fs)).value.entries;
      var drained := PathProducer.Drain(PathProducer.New(".", tree));
      forall i | 0 <= i < |es|
        ensures es[i].path in work && work[es[i].path].Regular?
      {
        assert es[i].path == Paths(es)[i] == drained[i];
        assert es[i].path in multiset(drained);
        assert es[i].path in multiset(PathProducer.Under(".", tree, |"."| + 1));
      }
    }
  }

  /** Appending the next number keeps a strictly increasing index strictly
      increasing. */
  lemma CommitKeepsIncreasing(fs: Fs)
    requires StrictlyIncreasing(RepositoryIndex.LoadOrEmpty(fs).revisionNumbers)
    ensures StrictlyIncreasing(RepositoryIndex.LoadOrEmpty(fs).revisionNumbers + [NextNumber(fs)])
  {
    var nums := RepositoryIndex.LoadOrEmpty(fs).revisionNumbers;
    var xs := nums + [NextNumber(fs)];
    forall i, j | 0 <= i < j < |xs|
      ensures xs[i] < xs[j]
    {
      if j == |nums| && i < |nums| - 1 {
        assert nums[i] < nums[|nums| - 1];
      }
    }
  }

  /** Commits on a fresh store number their revisions 1, 2, 3, …: an index
      holding 1..k becomes 1..k+1. */
  lemma CommitsCountFromOne(fs: Fs)
    requires forall i | 0 <= i < |RepositoryIndex.LoadOrEmpty(fs).revisionNumbers| ::
               RepositoryIndex.LoadOrEmpty(fs).revisionNumbers[i] == i + 1
    ensures var xs := RepositoryIndex.LoadOrEmpty(fs).revisionNumbers + [NextNumber(fs)];
            forall i | 0 <= i < |xs| :: xs[i] == i + 1
  {
  }
}

=== FILE: commons.dfy ===
/** The object store: content hashes and the sharded, deduplicating put. */
module Commons {

  import opened Types
  import opened Disk
  import Text

  /** Objects live in the shard named by the first two characters of their
      hash, under the hash itself as file name. */
  function ObjectShard(hash: string): string
    requires |hash| >= 2
  {
    hash[..2]
  }

  /** `save_object`: create the shard directory when missing, then write
      the compressed bytes unless a file with that hash already exists. */
  function SaveObject(fs: Fs, codec: Codec, values: seq<byte>, hash: string): (r: Step<Unit>)
    requires |hash| >= 2
    ensures r.result.Err? ==> r.result.error == SavingFileFailed
    ensures r.result.Ok? ==> FileExists(r.fs, Objects, ObjectShard(hash), hash)
    ensures !FileExists(fs, Objects, ObjectShard(hash), hash) && FileExists(r.fs, Objects, ObjectShard(hash), hash) ==>
              r.fs.areas[Objects][ObjectShard(hash)][hash] == Raw(codec.compress(values))
    ensures (&& FileExists(fs, Objects, ObjectShard(hash), hash)
             && ShardLoc(Objects, ObjectShard(hash)) !in fs.faults
             && FileLoc(Objects, ObjectShard(hash), hash) !in fs.faults)
            ==> r == Step(fs, Ok(Unit))
    ensures FileExists(fs, Objects, ObjectShard(hash), hash) ==> r.fs == fs
    ensures SameExcept(fs, r.fs, Objects, ObjectShard(hash), hash)
    ensures ShardExists(fs, Objects, ObjectShard(hash)) ==>
              r.fs.areas[Objects].Keys == fs.areas[Objects].Keys
  {
    var shard := ObjectShard(hash);
    match ShardProbe(fs, Objects, shard)
    case None => Step(fs, Err(SavingFileFailed))
    case Some(present) =>
      var created := if present then Some(fs) else CreateShard(fs, Objects, shard);
      if created.None? then Step(fs, Err(SavingFileFailed))
      else
        var fs1 := created.value;
        match FileProbe(fs1, Objects, shard, hash)
        case None => Step(fs1, Err(SavingFileFailed))
        case Some(true) => Step(fs1, Ok(Unit))
        case Some(false) =>
          match WriteFile(fs1, Objects, shard, hash, Raw(codec.compress(values)))
          case None => Step(fs1, Err(SavingFileFailed))
          case Some(fs2) => Step(fs2, Ok(Unit))
  }

  /** Two puts of the same object leave the store as one put does. */
  lemma SaveObjectIdempotent(fs: Fs, codec: Codec, values: seq<byte>, hash: string)
    requires |hash| >= 2
    ensures var once := SaveObject(fs, codec, values, hash);
            once.result.Ok? ==> SaveObject(once.fs, codec, values, hash) == once
  {
    var once := SaveObject(fs, codec, values, hash);
    if once.result.Ok? {
      assert ShardLoc(Objects, ObjectShard(hash)) !in fs.faults;
      assert FileLoc(Objects, ObjectShard(hash), hash) !in fs.faults;
    }
  }

  /** Saving into a freshly initialised repository succeeds for either
      scheme version. */
  lemma SaveIntoFreshRepository(version: int, codec: Codec, values: seq<byte>, hash: string)
    requires |hash| >= 2
    ensures SaveObject(InitialFs(version), codec, values, hash).result.Ok?
  {
  }

  /** `object_hash`: SHA-1 for scheme versions up to 1, SHA-256 otherwise. */
  function ObjectHash(codec: Codec, values: seq<byte>, version: int): (h: string)
    ensures WellFormedCodec(codec) ==> Text.IsHexString(h) && |h| == (if version <= 1 then 40 else 64)
  {
    if version <= 1 then codec.sha1(values) else codec.sha256(values)
  }

  /** The hash of a version at most 1 (including 0 and negatives) is the
      40-character SHA-1, of any other version the 64-character SHA-256; both
      are hex and long enough to be sharded. */
  lemma ObjectHashScheme(codec: Codec, values: seq<byte>, version: int)
    requires WellFormedCodec(codec)
    ensures var h := ObjectHash(codec, values, version);
            && Text.IsHexString(h)
            && (version <= 1 ==> h == codec.sha1(values) && |h| == 40)
            && (version > 1 ==> h == codec.sha256(values) && |h| == 64)
  {
  }
}

=== FILE: disk.dfy ===
/** The filesystem under `.zatsu` as the tool sees it, and the external
    digest and compression functions.

    Each store area (`objects`, `objects-v1`, `revisions`) is a two-level
    tree: shard directory name -> file name -> content. A set of faulty
    locations makes every access to one of them fail, which is how the model
    reaches the I/O error paths of the source. */
module Disk {

  import opened Types
  import Text

  datatype Area = Objects | ObjectsV1 | Revisions

  /** What a file holds. Structured documents stand for the JSON files;
      Text is a plain-text file (a hash mapping); Raw is bytes. */
  datatype Content =
    | Raw(bytes: seq<byte>)
    | Text(text: string)
    | RevisionDoc(revision: Revision)
    | IndexDoc(repository: Repository)

  type Shards = map<string, map<string, Content>>

  datatype Loc =
    | AreaLoc(area: Area)
    | ShardLoc(area: Area, shard: string)
    | FileLoc(area: Area, shard: string, name: string)
    | IndexLoc
    | OutputLoc(name: string)

  /** areas: the store directories present; index: `repository.json` if
      present; outputs: files written into the working directory;
      faults: locations whose every access fails. */
  datatype Fs = Fs(
    areas: map<Area, Shards>,
    index: Option<Content>,
    outputs: map<string, seq<byte>>,
    faults: set<Loc>)

  /** The state after an operation together with its outcome: the source's
      operations report an error but keep the writes already done. */
  datatype Step<+T> = Step(fs: Fs, result: Result<T>)

  /** `fs'` differs from `fs` at most in file `name` of `shard` of area `a`
      and in new, empty shard directories of that area. */
  ghost predicate SameExcept(fs: Fs, fs': Fs, a: Area, shard: string, name: string) {
    && fs'.index == fs.index
    && fs'.outputs == fs.outputs
    && fs'.faults == fs.faults
    && fs'.areas.Keys == fs.areas.Keys
    && (forall a' | a' in fs.areas && a' != a :: fs'.areas[a'] == fs.areas[a'])
    && (a in fs.areas ==> fs.areas[a].Keys <= fs'.areas[a].Keys)
    && (forall s, n | (s, n) != (shard, name) ::
          FileExists(fs, a, s, n) <==> FileExists(fs', a, s, n))
    && (forall s, n | (s, n) != (shard, name) && FileExists(fs, a, s, n) ::
          fs'.areas[a][s][n] == fs.areas[a][s][n])
  }

  /** The layout `init` leaves behind: empty `objects` and `revisions`
      directories and an empty index of the given version. */
  function InitialFs(version: int): (fs: Fs)
    ensures fs.faults == {} && Objects in fs.areas && Revisions in fs.areas
  {
    Fs(map[Objects := map[], Revisions := map[]],
       Some(IndexDoc(Repository([], version))), map[], {})
  }

  predicate FileExists(fs: Fs, a: Area, shard: string, name: string) {
    a in fs.areas && shard in fs.areas[a] && name in fs.areas[a][shard]
  }

  predicate ShardExists(fs: Fs, a: Area, shard: string) {
    a in fs.areas && shard in fs.areas[a]
  }

  /** `Path::try_exists` on a shard directory. */
  function ShardProbe(fs: Fs, a: Area, shard: string): (r: Option<bool>)
    ensures r.Some? <==> ShardLoc(a, shard) !in fs.faults
    ensures r.Some? ==> (r.value <==> ShardExists(fs, a, shard))
  {
    if ShardLoc(a, shard) in fs.faults then None else Some(ShardExists(fs, a, shard))
  }

  /** `Path::try_exists` on a file. */
  function FileProbe(fs: Fs, a: Area, shard: string, name: string): (r: Option<bool>)
    ensures r.Some? <==> FileLoc(a, shard, name) !in fs.faults
    ensures r.Some? ==> (r.value <==> FileExists(fs, a, shard, name))
  {
    if FileLoc(a, shard, name) in fs.faults then None else Some(FileExists(fs, a, shard, name))
  }

  /** `fs::create_dir` of a shard: fails when faulty, when the area is
      missing, or when the shard already exists. */
  function CreateShard(fs: Fs, a: Area, shard: string): (r: Option<Fs>)
    ensures r.Some? <==> ShardLoc(a, shard) !in fs.faults && a in fs.areas && shard !in fs.areas[a]
    ensures r.Some? ==> ShardExists(r.value, a, shard) && r.value.areas[a][shard] == map[]
  {
    if ShardLoc(a, shard) in fs.faults || a !in fs.areas || shard in fs.areas[a] then None
    else Some(fs.(areas := fs.areas[a := fs.areas[a][shard := map[]]]))
  }

  /** `fs::write` of a file in a shard: fails when faulty or when the shard
      directory does not exist; otherwise creates or replaces the file. */
  function WriteFile(fs: Fs, a: Area, shard: string, name: string, c: Content): (r: Option<Fs>)
    ensures r.Some? <==> FileLoc(a, shard, name) !in fs.faults && ShardExists(fs, a, shard)
    ensures r.Some? ==> FileExists(r.value, a, shard, name) && r.value.areas[a][shard][name] == c
    ensures r.Some? ==> SameExcept(fs, r.value, a, shard, name) && r.value.areas[a].Keys == fs.areas[a].Keys
  {
    if FileLoc(a, shard, name) in fs.faults || !ShardExists(fs, a, shard) then None
    else Some(fs.(areas := fs.areas[a := fs.areas[a][shard := fs.areas[a][shard][name := c]]]))
  }

  /** `fs::read` of a file in a shard. */
  function ReadFile(fs: Fs, a: Area, shard: string, name: string): (r: Option<Content>)
    ensures r.Some? <==> FileLoc(a, shard, name) !in fs.faults && FileExists(fs, a, shard, name)
    ensures r.Some? ==> r.value == fs.areas[a][shard][name]
  {
    if FileLoc(a, shard, name) in fs.faults || !FileExists(fs, a, shard, name) then None
    else Some(fs.areas[a][shard][name])
  }

  /** SHA-1, SHA-256 (rendered as lower-case hex), zlib deflate and zlib
      inflate, whose code is not part of this model. Inflate may fail. */
  datatype Codec = Codec(
    sha1: seq<byte> -> string,
    sha256: seq<byte> -> string,
    compress: seq<byte> -> seq<byte>,
    decompress: seq<byte> -> Option<seq<byte>>)

  /** The assumptions made about the external functions: inflate undoes
      deflate, and digests are 40 (SHA-1) or 64 (SHA-256) hex characters. */
  ghost predicate WellFormedCodec(c: Codec) {
    && (forall b :: c.decompress(c.compress(b)) == Some(b))
    && (forall b :: |c.sha1(b)| == 40 && Text.IsHexString(c.sha1(b)))
    && (forall b :: |c.sha256(b)| == 64 && Text.IsHexString(c.sha256(b)))
  }
}

=== FILE: forget.dfy ===
/** `forget`: keep only the newest revisions in the index. Garbage
    collection of the objects and revision files no longer referenced is
    not part of this model. */
module Forget {

  import opened Types
  import opened Disk
  import RepositoryIndex

  /** The index list after forgetting all but the last `n` numbers: the
      list itself when there is nothing to remove; a panic when `n` is
      negative (the drain would start past the end); otherwise the numbers
      after the first `|nums| - n`. */
  function Retained(nums: seq<int>, n: int): (r: Result<seq<int>>)
    ensures r.Err? <==> n < 0
    ensures r.Err? ==> r.error == Panic
    ensures r.Ok? ==> |r.value| == if n < |nums| then n else |nums|
    ensures r.Ok? ==> r.value == nums[|nums| - |r.value|..]
  {
    var removed := |nums| - n;
    if removed <= 0 then Ok(nums)
    else if removed > |nums| then Err(Panic)
    else Ok(nums[removed..])
  }

  /** `ForgetCommand::execute` up to the garbage collection: nothing is
      saved when nothing is removed; otherwise the shortened index is
      saved, and a failed save is SavingFileFailed. */
  function ForgetExecute(fs: Fs, n: int): (r: Step<Unit>)
    ensures r.result.Err? ==> r.fs == fs
    ensures r.result.Err? ==> r.result.error == Panic || r.result.error == SavingFileFailed
    ensures n >= |RepositoryIndex.LoadOrEmpty(fs).revisionNumbers| ==> r == Step(fs, Ok(Unit))
    ensures var repo := RepositoryIndex.LoadOrEmpty(fs);
            r.result.Ok? && 0 <= n < |repo.revisionNumbers| ==>
              RepositoryIndex.LoadRepository(r.fs) == Ok(repo.(revisionNumbers := Retained(repo.revisionNumbers, n).value))
  {
    var repo := RepositoryIndex.LoadOrEmpty(fs);
    var nums := repo.revisionNumbers;
    if |nums| - n <= 0 then Step(fs, Ok(Unit))
    else
      match Retained(nums, n)
      case Err(e) => Step(fs, Err(e))
      case Ok(kept) =>
        var next := repo.(revisionNumbers := kept);
        RepositoryIndex.RepositoryRoundTrip(fs, next);
        RepositoryIndex.SaveRepository(fs, next)
  }

  /** What is kept stays strictly increasing. */
  lemma RetainedKeepsIncreasing(nums: seq<int>, n: int)
    requires StrictlyIncreasing(nums) && n >= 0
    ensures StrictlyIncreasing(Retained(nums, n).value)
  {
    var kept := Retained(nums, n).value;
    var d := |nums| - |kept|;
    forall i, j | 0 <= i < j < |kept|
      ensures kept[i] < kept[j]
    {
      assert kept[i] == nums[d + i] && kept[j] == nums[d + j];
    }
  }

  /** Forgetting twice with the same count is forgetting once. */
  lemma RetainedIdempotent(nums: seq<int>, n: int)
    requires n >= 0
    ensures Retained(Retained(nums, n).value, n) == Retained(nums, n)
  {
  }

  /** Keeping at least one revision keeps the latest one, so the next
      commit receives the same number as before and, on a strictly
      increasing index, a number larger than every forgotten one. */
  lemma ForgetKeepsLatest(nums: seq<int>, n: int, version: int)
    requires n >= 1 && |nums| > 0
    ensures var kept := Retained(nums, n).value;
            RepositoryIndex.LatestRevision(Repository(kept, version)) == RepositoryIndex.LatestRevision(Repository(nums, version))
    ensures StrictlyIncreasing(nums) ==>
              forall i | 0 <= i < |nums| :: nums[i] < RepositoryIndex.LatestRevision(Repository(Retained(nums, n).value, version)) + 1
  {
    var kept := Retained(nums, n).value;
    assert kept[|kept| - 1] == nums[|nums| - 1];
    if StrictlyIncreasing(nums) {
      RepositoryIndex.LatestIsMaximum(Repository(nums, version));
    }
  }

  /** Keeping no revisions empties the index. */
  lemma ForgetAll(nums: seq<int>)
    ensures Retained(nums, 0) == Ok([])
  {
  }
}

=== FILE: get.dfy ===
/** `get`: copy one file of a recorded revision out of the store into the
    working directory, under a name that carries the revision number. */
module Get {

  import opened Types
  import opened Disk
  import Text
  import Commons
  import RepositoryIndex

  /** The hash of the last entry with exactly this path; later entries
      overwrite earlier ones as the source's loop does. */
  function FindLast(es: seq<Entry>, path: string): Option<string>
    decreases |es|
  {
    if |es| == 0 then None
    else
      var before := FindLast(es[..|es| - 1], path);
      if Text.Last(es).path == path then Some(Text.Last(es).hash) else before
  }

  /** Nothing is found exactly when no entry has the path; otherwise the
      hash found is that of an entry with the path after which no entry has
      it. */
  lemma {:induction false} FindLastIsLast(es: seq<Entry>, path: string)
    ensures FindLast(es, path).None? <==> forall i | 0 <= i < |es| :: es[i].path != path
    ensures FindLast(es, path).Some? ==>
              exists i | 0 <= i < |es| ::
                && es[i].path == path && es[i].hash == FindLast(es, path).value
                && forall j | i < j < |es| :: es[j].path != path
    decreases |es|
  {
    if |es| > 0 {
      var init := es[..|es| - 1];
      FindLastIsLast(init, path);
      if Text.Last(es).path != path {
        var r := FindLast(init, path);
        if r.Some? {
          var i :| 0 <= i < |init| && init[i].path == path && init[i].hash == r.value
                   && forall j | i < j < |init| :: init[j].path != path;
          assert es[i] == init[i];
          forall j | i < j < |es|
            ensures es[j].path != path
          {
            if j < |init| { assert es[j] == init[j]; }
          }
        } else {
          forall i | 0 <= i < |es|
            ensures es[i].path != path
          {
            if i < |init| { assert es[i] == init[i]; }
          }
        }
      }
    }
  }

  /** Lines 73-86 of `execute`: read `objects/<hash[0..2]>/<hash>` and
      inflate it. A hash shorter than two characters is a panic; a missing
      or unreadable object, or one that does not inflate, is
      LoadingFileFailed. */
  function ReadObject(fs: Fs, codec: Codec, hash: string): (r: Result<seq<byte>>)
    ensures |hash| < 2 <==> r == Err(Panic)
    ensures r.Err? ==> r.error == Panic || r.error == LoadingFileFailed
    ensures r.Ok? ==> |hash| >= 2 && FileExists(fs, Objects, Commons.ObjectShard(hash), hash)
    ensures r.Ok? ==> var c := fs.areas[Objects][Commons.ObjectShard(hash)][hash];
                      c.Raw? && codec.decompress(c.bytes) == Some(r.value)
  {
    if |hash| < 2 then Err(Panic)
    else
      match ReadFile(fs, Objects, Commons.ObjectShard(hash), hash)
      case None => Err(LoadingFileFailed)
      case Some(Raw(stored)) =>
        (match codec.decompress(stored)
         case None => Err(LoadingFileFailed)
         case Some(values) => Ok(values))
      case Some(_) => Err(LoadingFileFailed)
  }

  /** What `save_object` stores, reading gives back: get(put(b)) == b. */
  lemma ObjectRoundTrip(fs: Fs, codec: Codec, values: seq<byte>, hash: string)
    requires WellFormedCodec(codec) && |hash| >= 2
    requires !FileExists(fs, Objects, Commons.ObjectShard(hash), hash)
    requires FileLoc(Objects, Commons.ObjectShard(hash), hash) !in fs.faults
    ensures var saved := Commons.SaveObject(fs, codec, values, hash);
            saved.result.Ok? ==> ReadObject(saved.fs, codec, hash) == Ok(values)
  {
    var saved := Commons.SaveObject(fs, codec, values, hash);
    if saved.result.Ok? {
      assert saved.fs.faults == fs.faults;
      assert codec.decompress(codec.compress(values)) == Some(values);
    }
  }

  /** The name the copy is written under: `<stem>-r<revision>.<ext>` from
      the first two dot-separated pieces of the path's last slash-separated
      piece, or `out.dat` when that piece has no dot. */
  function OutputName(path: string, revision: int): string {
    var last := Text.Last(Text.Split(path, '/'));
    var pieces := Text.Split(last, '.');
    if |pieces| > 1 then pieces[0] + "-r" + Text.IntToString(revision) + "." + pieces[1]
    else "out.dat"
  }

  /** `dir/stem.ext` is copied to `stem-r<revision>.ext`. */
  lemma OutputNameOfDotted(dir: string, stem: string, ext: string, revision: int)
    requires '/' !in stem && '/' !in ext && '.' !in stem && '.' !in ext
    ensures OutputName(dir + "/" + stem + "." + ext, revision) == stem + "-r" + Text.IntToString(revision) + "." + ext
  {
    var name := stem + "." + ext;
    assert dir + "/" + stem + "." + ext == dir + "/" + name;
    Text.LastOfChild(dir, name);
    assert name == stem + ['.'] + ext;
    Text.SplitCons(stem, '.', ext);
  }

  /** Only the first two dot-separated pieces count: `dir/stem.ext.more` is
      copied to `stem-r<revision>.ext`, so `a.tar.gz` becomes `a-r<n>.tar`. */
  lemma OutputNameOfMultiDotted(dir: string, stem: string, ext: string, more: string, revision: int)
    requires '/' !in stem && '/' !in ext && '/' !in more && '.' !in stem && '.' !in ext
    ensures OutputName(dir + "/" + stem + "." + ext + "." + more, revision)
         == stem + "-r" + Text.IntToString(revision) + "." + ext
  {
    var name := stem + "." + ext + "." + more;
    assert dir + "/" + stem + "." + ext + "." + more == dir + "/" + name;
    Text.LastOfChild(dir, name);
    assert name == stem + ['.'] + (ext + ['.'] + more);
    Text.SplitCons(stem, '.', ext + ['.'] + more);
    Text.SplitCons(ext, '.', more);
  }

  /** A last piece without a dot is copied to `out.dat`. */
  lemma OutputNameWithoutDot(dir: string, name: string, revision: int)
    requires '/' !in name && '.' !in name
    ensures OutputName(dir + "/" + name, revision) == "out.dat"
  {
    Text.LastOfChild(dir, name);
  }

  /** `GetCommand::execute`: check that the revision is recorded, load it,
      find the last entry for the path, read and inflate its object, and
      write the bytes to the output name. */
  function GetExecute(fs: Fs, codec: Codec, revision: int, path: string): (r: Step<Unit>)
    ensures r.fs.areas == fs.areas && r.fs.index == fs.index && r.fs.faults == fs.faults
    ensures r.result.Err? ==> r.fs == fs
    ensures revision !in RepositoryIndex.LoadOrEmpty(fs).revisionNumbers <==> r.result == Err(RevisionNotFound)
  {
    if revision !in RepositoryIndex.LoadOrEmpty(fs).revisionNumbers then Step(fs, Err(RevisionNotFound))
    else
      match RepositoryIndex.LoadRevision(fs, revision)
      case Err(_) => Step(fs, Err(LoadingRevisionFailed))
      case Ok(rev) =>
        match FindLast(rev.entries, path)
        case None => Step(fs, Err(FileNotFound))
        case Some(hash) =>
          match ReadObject(fs, codec, hash)
          case Err(e) => Step(fs, Err(e))
          case Ok(values) =>
            var name := OutputName(path, revision);
            if OutputLoc(name) in fs.faults then Step(fs, Err(SavingFileFailed))
            else Step(fs.(outputs := fs.outputs[name := values]), Ok(Unit))
  }

  /** The outcome of `get` for a recorded revision: LoadingRevisionFailed
      when it does not load, FileNotFound when no entry has the path, the
      object's errors, SavingFileFailed when the output cannot be written;
      on success the output holds the inflated object of the path's last
      entry. */
  lemma GetOutcome(fs: Fs, codec: Codec, revision: int, path: string)
    requires revision in RepositoryIndex.LoadOrEmpty(fs).revisionNumbers
    ensures var r := GetExecute(fs, codec, revision, path);
            var rev := RepositoryIndex.LoadRevision(fs, revision);
            && (rev.Err? ==> r.result == Err(LoadingRevisionFailed))
            && ((rev.Ok? && forall i | 0 <= i < |rev.value.entries| :: rev.value.entries[i].path != path) <==>
                  r.result == Err(FileNotFound))
            && ((rev.Ok? && FindLast(rev.value.entries, path).Some? &&
                 ReadObject(fs, codec, FindLast(rev.value.entries, path).value).Err?) ==>
                  r.result == Err(ReadObject(fs, codec, FindLast(rev.value.entries, path).value).error))
            && (r.result == Err(SavingFileFailed) ==> OutputLoc(OutputName(path, revision)) in fs.faults)
            && (r.result.Ok? ==>
                  && rev.Ok?
                  && FindLast(rev.value.entries, path).Some?
                  && ReadObject(fs, codec, FindLast(rev.value.entries, path).value).Ok?
                  && r.fs.outputs == fs.outputs[OutputName(path, revision) :=
                                       ReadObject(fs, codec, FindLast(rev.value.entries, path).value).value])
  {
    var rev := RepositoryIndex.LoadRevision(fs, revision);
    if rev.Ok? {
      FindLastIsLast(rev.value.entries, path);
    }
  }
}

=== FILE: log.dfy ===
/** The revision diff engine behind `log`: entries are looked up by path,
    bucketed by the first character of their path, and classified as added,
    modified or deleted against the previous revision; the history is walked
    from the newest revision to the oldest. */
module Log {

  import opened Types
  import opened Disk
  import RepositoryIndex

  /** One line of a revision's change list (`A path`, `M path`, `D path`). */
  datatype Change = Added(path: string) | Modified(path: string) | Deleted(path: string)

  // ---------------------------------------------------------------------
  // Lookup

  ghost predicate HasPath(es: seq<Entry>, path: string) {
    exists i | 0 <= i < |es| :: es[i].path == path
  }

  /** `find_hash`: the hash of the first entry with exactly this path. */
  function FindHash(es: seq<Entry>, path: string): Option<string> {
    if |es| == 0 then None
    else if es[0].path == path then Some(es[0].hash)
    else FindHash(es[1..], path)
  }

  /** `find_hash` finds nothing exactly when no entry has the path, and
      otherwise the hash of the first entry that has it. */
  lemma {:induction false} FindHashFirst(es: seq<Entry>, path: string)
    ensures FindHash(es, path).None? <==> forall i | 0 <= i < |es| :: es[i].path != path
    ensures FindHash(es, path).Some? ==> exists i | 0 <= i < |es| ::
              && es[i].path == path && es[i].hash == FindHash(es, path).value
              && forall j | 0 <= j < i :: es[j].path != path
    decreases |es|
  {
    if |es| > 0 && es[0].path != path {
      var r := FindHash(es[1..], path);
      FindHashFirst(es[1..], path);
      if r.Some? {
        var i :| 0 <= i < |es[1..]| && es[1..][i].path == path && es[1..][i].hash == r.value
                 && forall j | 0 <= j < i :: es[1..][j].path != path;
        assert es[i + 1] == es[1..][i];
        forall j | 0 <= j < i + 1
          ensures es[j].path != path
        {
          if j > 0 { assert es[j] == es[1..][j - 1]; }
        }
      } else {
        forall i | 0 <= i < |es|
          ensures es[i].path != path
        {
          if i > 0 { assert es[i] == es[1..][i - 1]; }
        }
      }
    }
  }

  // ---------------------------------------------------------------------
  // Bucketing

  /** The bucket of a path: its first character, or NUL for the empty path. */
  function BucketKey(path: string): char {
    if |path| > 0 then path[0] else 0 as char
  }

  /** The entries whose bucket key is in `keys`, in their original order. */
  function FilterIn(es: seq<Entry>, keys: set<char>): seq<Entry> {
    if |es| == 0 then []
    else (if BucketKey(es[0].path) in keys then [es[0]] else []) + FilterIn(es[1..], keys)
  }

  /** The entries of one bucket, in their original order. */
  function Bucket(es: seq<Entry>, k: char): seq<Entry> {
    FilterIn(es, {k})
  }

  lemma {:induction false} FilterInAppend(a: seq<Entry>, b: seq<Entry>, keys: set<char>)
    ensures FilterIn(a + b, keys) == FilterIn(a, keys) + FilterIn(b, keys)
    decreases |a|
  {
    if |a| > 0 {
      assert (a + b)[0] == a[0];
      assert (a + b)[1..] == a[1..] + b;
      FilterInAppend(a[1..], b, keys);
    } else {
      assert a + b == b;
    }
  }

  lemma {:induction false} FilterInAll(es: seq<Entry>, keys: set<char>)
    requires forall i | 0 <= i < |es| :: BucketKey(es[i].path) in keys
    ensures FilterIn(es, keys) == es
    decreases |es|
  {
    if |es| > 0 {
      FilterInAll(es[1..], keys);
    }
  }

  lemma {:induction false} BucketEmptyIff(es: seq<Entry>, k: char)
    ensures Bucket(es, k) == [] <==> forall i | 0 <= i < |es| :: BucketKey(es[i].path) != k
    decreases |es|
  {
    if |es| > 0 {
      BucketEmptyIff(es[1..], k);
      if Bucket(es[1..], k) == [] {
        forall i | 1 <= i < |es|
          ensures BucketKey(es[i].path) != k
        {
          assert es[i] == es[1..][i - 1];
        }
      }
    }
  }

  /** The bucket keys occurring in a list. */
  function KeysOf(es: seq<Entry>): set<char> {
    set i | 0 <= i < |es| :: BucketKey(es[i].path)
  }

  /** `divided_entries`: a map from bucket key to the entries of that
      bucket, built by one forward pass. */
  function Divide(es: seq<Entry>): (d: map<char, seq<Entry>>)
    ensures d.Keys == KeysOf(es)
    ensures forall k | k in d :: d[k] == Bucket(es, k)
    decreases |es|
  {
    if |es| == 0 then map[]
    else
      var init := es[..|es| - 1];
      var e := es[|es| - 1];
      var d := Divide(init);
      var k := BucketKey(e.path);
      var r := d[k := (if k in d then d[k] else []) + [e]];
      assert es == init + [e];
      DivideStep(init, e, d, r);
      r
  }

  lemma DivideStep(init: seq<Entry>, e: Entry, d: map<char, seq<Entry>>, r: map<char, seq<Entry>>)
    requires d.Keys == KeysOf(init)
    requires forall k | k in d :: d[k] == Bucket(init, k)
    requires r == d[BucketKey(e.path) := (if BucketKey(e.path) in d then d[BucketKey(e.path)] else []) + [e]]
    ensures r.Keys == KeysOf(init + [e])
    ensures forall k | k in r :: r[k] == Bucket(init + [e], k)
  {
    var es := init + [e];
    var k := BucketKey(e.path);
    assert KeysOf(es) == KeysOf(init) + {k} by {
      forall c | c in KeysOf(es)
        ensures c in KeysOf(init) + {k}
      {
        var i :| 0 <= i < |es| && BucketKey(es[i].path) == c;
        if i < |init| { assert es[i] == init[i]; }
      }
      forall c | c in KeysOf(init)
        ensures c in KeysOf(es)
      {
        var i :| 0 <= i < |init| && BucketKey(init[i].path) == c;
        assert es[i] == init[i];
      }
      assert es[|init|] == e;
    }
    forall k' | k' in r
      ensures r[k'] == Bucket(es, k')
    {
      FilterInAppend(init, [e], {k'});
      assert Bucket([e], k') == (if k' == k then [e] else []) + FilterIn([], {k'});
      if k' == k && k !in d {
        BucketEmptyIff(init, k);
      }
    }
  }

  /** A key outside the map has an empty bucket. */
  lemma DivideMissing(es: seq<Entry>, k: char)
    requires k !in Divide(es)
    ensures Bucket(es, k) == []
  {
    BucketEmptyIff(es, k);
  }

  // ---------------------------------------------------------------------
  // Classification

  /** The line an entry of the newer list contributes (`update_changes`,
      first loop). */
  function NewerLine(e: Entry, older: seq<Entry>): seq<Change> {
    match FindHash(older, e.path)
    case Some(h) => if h != e.hash then [Modified(e.path)] else []
    case None => [Added(e.path)]
  }

  /** The line an entry of the older list contributes (second loop). */
  function OlderLine(e: Entry, newer: seq<Entry>): seq<Change> {
    if FindHash(newer, e.path).None? then [Deleted(e.path)] else []
  }

  datatype Side = NewerSide | OlderSide

  function Line(side: Side, e: Entry, other: seq<Entry>): seq<Change> {
    if side == NewerSide then NewerLine(e, other) else OlderLine(e, other)
  }

  /** The lines of a whole list, in list order. */
  function Lines(side: Side, xs: seq<Entry>, other: seq<Entry>): seq<Change> {
    if |xs| == 0 then [] else Line(side, xs[0], other) + Lines(side, xs[1..], other)
  }

  /** `update_changes`: the change list of `entries` against
      `previous`, newer-side lines first. Applied to two whole lists it is
      the unbucketed diff. */
  function UpdateChanges(entries: seq<Entry>, previous: seq<Entry>): (r: seq<Change>)
    ensures |r| <= |entries| + |previous|
  {
    LinesBound(NewerSide, entries, previous);
    LinesBound(OlderSide, previous, entries);
    Lines(NewerSide, entries, previous) + Lines(OlderSide, previous, entries)
  }

  /** Every entry contributes at most one line. */
  lemma {:induction false} LinesBound(side: Side, xs: seq<Entry>, other: seq<Entry>)
    ensures |Lines(side, xs, other)| <= |xs|
    decreases |xs|
  {
    if |xs| > 0 {
      LinesBound(side, xs[1..], other);
    }
  }

  function AllAdded(es: seq<Entry>): (r: seq<Change>)
    ensures |r| == |es| && forall i | 0 <= i < |es| :: r[i] == Added(es[i].path)
  {
    if |es| == 0 then [] else [Added(es[0].path)] + AllAdded(es[1..])
  }

  function AllDeleted(es: seq<Entry>): (r: seq<Change>)
    ensures |r| == |es| && forall i | 0 <= i < |es| :: r[i] == Deleted(es[i].path)
  {
    if |es| == 0 then [] else [Deleted(es[0].path)] + AllDeleted(es[1..])
  }

  // ---------------------------------------------------------------------
  // What the diff means

  lemma {:induction false} InLines(side: Side, xs: seq<Entry>, other: seq<Entry>, c: Change)
    ensures c in Lines(side, xs, other) <==> exists i | 0 <= i < |xs| :: c in Line(side, xs[i], other)
    decreases |xs|
  {
    if |xs| > 0 {
      InLines(side, xs[1..], other, c);
      if exists i | 0 <= i < |xs| :: c in Line(side, xs[i], other) {
        var i :| 0 <= i < |xs| && c in Line(side, xs[i], other);
        if i > 0 { assert xs[i] == xs[1..][i - 1]; }
      }
    }
  }

  /** `A p` is reported exactly when the newer list has `p` and the older
      does not. */
  lemma AddedIff(newer: seq<Entry>, older: seq<Entry>, p: string)
    ensures Added(p) in UpdateChanges(newer, older) <==> HasPath(newer, p) && !HasPath(older, p)
  {
    assert UpdateChanges(newer, older) == Lines(NewerSide, newer, older) + Lines(OlderSide, older, newer);
    FindHashFirst(older, p);
    InLines(NewerSide, newer, older, Added(p));
    InLines(OlderSide, older, newer, Added(p));
    assert Added(p) !in Lines(OlderSide, older, newer);
    if Added(p) in Lines(NewerSide, newer, older) {
      var i :| 0 <= i < |newer| && Added(p) in Line(NewerSide, newer[i], older);
      assert newer[i].path == p;
    }
    if HasPath(newer, p) && !HasPath(older, p) {
      var i :| 0 <= i < |newer| && newer[i].path == p;
      assert Line(NewerSide, newer[i], older) == [Added(p)];
    }
  }

  /** `M p` is reported exactly when the newer list has an entry for `p`
      whose hash differs from that of the older list's first entry for `p`. */
  lemma ModifiedIff(newer: seq<Entry>, older: seq<Entry>, p: string)
    ensures Modified(p) in UpdateChanges(newer, older) <==>
              exists i | 0 <= i < |newer| ::
                newer[i].path == p && FindHash(older, p).Some? && FindHash(older, p).value != newer[i].hash
  {
    InLines(NewerSide, newer, older, Modified(p));
    InLines(OlderSide, older, newer, Modified(p));
    assert Modified(p) !in Lines(OlderSide, older, newer);
  }

  /** `D p` is reported exactly when the older list has `p` and the newer
      does not. */
  lemma DeletedIff(newer: seq<Entry>, older: seq<Entry>, p: string)
    ensures Deleted(p) in UpdateChanges(newer, older) <==> HasPath(older, p) && !HasPath(newer, p)
  {
    assert UpdateChanges(newer, older) == Lines(NewerSide, newer, older) + Lines(OlderSide, older, newer);
    FindHashFirst(newer, p);
    InLines(NewerSide, newer, older, Deleted(p));
    InLines(OlderSide, older, newer, Deleted(p));
    assert Deleted(p) !in Lines(NewerSide, newer, older);
    if Deleted(p) in Lines(OlderSide, older, newer) {
      var i :| 0 <= i < |older| && Deleted(p) in Line(OlderSide, older[i], newer);
      assert older[i].path == p;
    }
    if HasPath(older, p) && !HasPath(newer, p) {
      var i :| 0 <= i < |older| && older[i].path == p;
      assert Line(OlderSide, older[i], newer) == [Deleted(p)];
    }
  }

  /** Against an empty predecessor every entry is added. */
  lemma {:induction false} DiffAgainstEmpty(es: seq<Entry>)
    ensures UpdateChanges(es, []) == AllAdded(es)
    decreases |es|
  {
    if |es| > 0 {
      DiffAgainstEmpty(es[1..]);
    }
  }

  ghost predicate UniquePaths(es: seq<Entry>) {
    forall i, j | 0 <= i < j < |es| :: es[i].path != es[j].path
  }

  /** A list with unique paths diffed against itself has no changes. */
  lemma DiffAgainstSelf(es: seq<Entry>)
    requires UniquePaths(es)
    ensures UpdateChanges(es, es) == []
  {
    SelfLines(NewerSide, es, es, 0);
    SelfLines(OlderSide, es, es, 0);
  }

  lemma {:induction false} SelfLines(side: Side, xs: seq<Entry>, es: seq<Entry>, offset: nat)
    requires UniquePaths(es)
    requires offset + |xs| <= |es| && xs == es[offset..offset + |xs|]
    ensures Lines(side, xs, es) == []
    decreases |xs|
  {
    if |xs| > 0 {
      var e := xs[0];
      assert e == es[offset];
      var r := FindHash(es, e.path);
      FindHashFirst(es, e.path);
      assert r.Some?;
      var i :| 0 <= i < |es| && es[i].path == e.path && es[i].hash == r.value
               && forall j | 0 <= j < i :: es[j].path != e.path;
      assert i == offset;
      assert xs[1..] == es[offset + 1..offset + 1 + |xs[1..]|];
      SelfLines(side, xs[1..], es, offset + 1);
    }
  }

  // ---------------------------------------------------------------------
  // Bucketing is behaviour-neutral

  /** The bucketed change list of `LogCommand::execute`: for each key of
      the newer revision, all entries added when the older revision has no
      such bucket, else `update_changes` on the two buckets; then, for each
      key of the older revision that the newer one lacks, all entries
      deleted. Keys are visited in the given orders. */
  function NewKeyLines(ks: seq<char>, d: map<char, seq<Entry>>, pd: map<char, seq<Entry>>): seq<Change>
    requires forall k | k in ks :: k in d
  {
    if |ks| == 0 then []
    else
      var k := ks[0];
      (if k !in pd then AllAdded(d[k]) else UpdateChanges(d[k], pd[k]))
        + NewKeyLines(ks[1..], d, pd)
  }

  function OldKeyLines(ks: seq<char>, d: map<char, seq<Entry>>, pd: map<char, seq<Entry>>): seq<Change>
    requires forall k | k in ks :: k in pd
  {
    if |ks| == 0 then []
    else
      var k := ks[0];
      (if k !in d then AllDeleted(pd[k]) else []) + OldKeyLines(ks[1..], d, pd)
  }

  function BucketedChanges(newer: seq<Entry>, older: seq<Entry>, newKeys: seq<char>, oldKeys: seq<char>): seq<Change>
    requires Enumerates(newKeys, Divide(newer).Keys)
    requires Enumerates(oldKeys, Divide(older).Keys)
  {
    var d := Divide(newer);
    var pd := Divide(older);
    NewKeyLines(newKeys, d, pd) + OldKeyLines(oldKeys, d, pd)
  }

  /** Looking a path up in its own bucket finds what looking it up in the
      whole list finds: equal paths share a first character. */
  lemma {:induction false} FindHashInBucket(es: seq<Entry>, p: string)
    ensures FindHash(Bucket(es, BucketKey(p)), p) == FindHash(es, p)
    decreases |es|
  {
    if |es| > 0 {
      var k := BucketKey(p);
      var x := es[0];
      var rest := Bucket(es[1..], k);
      FindHashInBucket(es[1..], p);
      if BucketKey(x.path) == k {
        assert Bucket(es, k) == [x] + rest;
        assert ([x] + rest)[0] == x;
        assert ([x] + rest)[1..] == rest;
      } else {
        assert Bucket(es, k) == rest;
        assert x.path != p;
      }
    }
  }

  lemma {:induction false} LinesInBucket(side: Side, xs: seq<Entry>, other: seq<Entry>, k: char)
    requires forall i | 0 <= i < |xs| :: BucketKey(xs[i].path) == k
    ensures Lines(side, xs, Bucket(other, k)) == Lines(side, xs, other)
    decreases |xs|
  {
    if |xs| > 0 {
      FindHashInBucket(other, xs[0].path);
      LinesInBucket(side, xs[1..], other, k);
    }
  }

  lemma {:induction false} LinesAgainstEmpty(xs: seq<Entry>)
    ensures Lines(NewerSide, xs, []) == AllAdded(xs)
    ensures Lines(OlderSide, xs, []) == AllDeleted(xs)
    decreases |xs|
  {
    if |xs| > 0 {
      LinesAgainstEmpty(xs[1..]);
    }
  }

  lemma {:induction false} LinesAppend(side: Side, a: seq<Entry>, b: seq<Entry>, other: seq<Entry>)
    ensures Lines(side, a + b, other) == Lines(side, a, other) + Lines(side, b, other)
    decreases |a|
  {
    if |a| > 0 {
      assert (a + b)[0] == a[0];
      assert (a + b)[1..] == a[1..] + b;
      LinesAppend(side, a[1..], b, other);
    } else {
      assert a + b == b;
    }
  }

  /** Lines of the entries whose key is in one of two disjoint key sets. */
  lemma {:induction false} LinesSplit(side: Side, xs: seq<Entry>, other: seq<Entry>, s: set<char>, t: set<char>)
    requires s !! t
    ensures multiset(Lines(side, FilterIn(xs, s + t), other))
         == multiset(Lines(side, FilterIn(xs, s), other)) + multiset(Lines(side, FilterIn(xs, t), other))
    decreases |xs|
  {
    if |xs| > 0 {
      var x := xs[0];
      var k := BucketKey(x.path);
      var l := Line(side, x, other);
      var rs := Lines(side, FilterIn(xs[1..], s), other);
      var rt := Lines(side, FilterIn(xs[1..], t), other);
      var rst := Lines(side, FilterIn(xs[1..], s + t), other);
      LinesSplit(side, xs[1..], other, s, t);
      assert multiset(rst) == multiset(rs) + multiset(rt);
      if k in s {
        LinesCons(side, x, FilterIn(xs[1..], s + t), other);
        LinesCons(side, x, FilterIn(xs[1..], s), other);
        assert FilterIn(xs, t) == FilterIn(xs[1..], t);
      } else if k in t {
        LinesCons(side, x, FilterIn(xs[1..], s + t), other);
        LinesCons(side, x, FilterIn(xs[1..], t), other);
        assert FilterIn(xs, s) == FilterIn(xs[1..], s);
      } else {
        assert FilterIn(xs, s + t) == FilterIn(xs[1..], s + t);
        assert FilterIn(xs, s) == FilterIn(xs[1..], s);
        assert FilterIn(xs, t) == FilterIn(xs[1..], t);
      }
    }
  }

  lemma LinesCons(side: Side, x: Entry, xs: seq<Entry>, other: seq<Entry>)
    ensures Lines(side, [x] + xs, other) == Line(side, x, other) + Lines(side, xs, other)
  {
    assert ([x] + xs)[0] == x;
    assert ([x] + xs)[1..] == xs;
  }

  lemma {:induction false} FilterInKeys(es: seq<Entry>, keys: set<char>)
    ensures forall i | 0 <= i < |FilterIn(es, keys)| :: BucketKey(FilterIn(es, keys)[i].path) in keys
    decreases |es|
  {
    if |es| > 0 {
      FilterInKeys(es[1..], keys);
      var h: seq<Entry> := if BucketKey(es[0].path) in keys then [es[0]] else [];
      var r := FilterIn(es[1..], keys);
      assert FilterIn(es, keys) == h + r;
      forall i | 0 <= i < |h + r|
        ensures BucketKey((h + r)[i].path) in keys
      {
        if i >= |h| { assert (h + r)[i] == r[i - |h|]; }
      }
    }
  }

  /** Lines bucket by bucket, keys in the order given. */
  function SumLines(side: Side, ks: seq<char>, xs: seq<Entry>, other: seq<Entry>): seq<Change> {
    if |ks| == 0 then [] else Lines(side, Bucket(xs, ks[0]), other) + SumLines(side, ks[1..], xs, other)
  }

  function KeySet(ks: seq<char>): (r: set<char>)
    ensures forall k :: k in r <==> k in ks
  {
    if |ks| == 0 then {} else {ks[0]} + KeySet(ks[1..])
  }

  lemma {:induction false} SumLinesIsFilter(side: Side, ks: seq<char>, xs: seq<Entry>, other: seq<Entry>)
    requires Distinct(ks)
    ensures multiset(SumLines(side, ks, xs, other)) == multiset(Lines(side, FilterIn(xs, KeySet(ks)), other))
    decreases |ks|
  {
    if |ks| == 0 {
      FilterInNone(xs);
    } else {
      var k := ks[0];
      var rest := ks[1..];
      DistinctTail(ks);
      SumLinesIsFilter(side, rest, xs, other);
      LinesSplit(side, xs, other, {k}, KeySet(rest));
      var a := Lines(side, Bucket(xs, k), other);
      var b := SumLines(side, rest, xs, other);
      assert SumLines(side, ks, xs, other) == a + b;
      assert multiset(a + b) == multiset(a) + multiset(b);
    }
  }

  lemma {:induction false} FilterInNone(xs: seq<Entry>)
    ensures FilterIn(xs, {}) == []
    decreases |xs|
  {
    if |xs| > 0 {
      FilterInNone(xs[1..]);
    }
  }

  /** Each bucket of the newer revision contributes exactly its entries'
      newer-side lines and the older bucket's older-side lines against the
      whole lists. */
  lemma BucketContribution(k: char, newer: seq<Entry>, older: seq<Entry>)
    requires k in Divide(newer)
    ensures var d := Divide(newer);
            var pd := Divide(older);
            (if k !in pd then AllAdded(d[k]) else UpdateChanges(d[k], pd[k]))
              == Lines(NewerSide, Bucket(newer, k), older) + Lines(OlderSide, Bucket(older, k), newer)
  {
    var pd := Divide(older);
    var young := Bucket(newer, k);
    var stale := Bucket(older, k);
    FilterInKeys(newer, {k});
    FilterInKeys(older, {k});
    LinesInBucket(NewerSide, young, older, k);
    LinesInBucket(OlderSide, stale, newer, k);
    if k !in pd {
      DivideMissing(older, k);
      LinesAgainstEmpty(young);
      assert Lines(OlderSide, stale, newer) == [];
    }
  }

  lemma {:induction false} NewKeyLinesArePairs(ks: seq<char>, newer: seq<Entry>, older: seq<Entry>)
    requires forall k | k in ks :: k in Divide(newer)
    ensures NewKeyLines(ks, Divide(newer), Divide(older)) == NewKeyPairs(ks, newer, older)
    decreases |ks|
  {
    if |ks| > 0 {
      BucketContribution(ks[0], newer, older);
      NewKeyLinesArePairs(ks[1..], newer, older);
    }
  }

  lemma {:induction false} NewKeyPairsAreSums(ks: seq<char>, newer: seq<Entry>, older: seq<Entry>)
    ensures multiset(NewKeyPairs(ks, newer, older))
         == multiset(SumLines(NewerSide, ks, newer, older)) + multiset(SumLines(OlderSide, ks, older, newer))
    decreases |ks|
  {
    if |ks| > 0 {
      NewKeyPairsAreSums(ks[1..], newer, older);
      var n := Lines(NewerSide, Bucket(newer, ks[0]), older);
      var o := Lines(OlderSide, Bucket(older, ks[0]), newer);
      var r := NewKeyPairs(ks[1..], newer, older);
      assert NewKeyPairs(ks, newer, older) == n + o + r;
      assert multiset(n + o + r) == multiset(n) + multiset(o) + multiset(r);
      assert SumLines(NewerSide, ks, newer, older) == n + SumLines(NewerSide, ks[1..], newer, older);
      assert SumLines(OlderSide, ks, older, newer) == o + SumLines(OlderSide, ks[1..], older, newer);
    }
  }

  /** The newer-side and older-side lines of each bucket, bucket by bucket. */
  function NewKeyPairs(ks: seq<char>, newer: seq<Entry>, older: seq<Entry>): seq<Change> {
    if |ks| == 0 then []
    else
      Lines(NewerSide, Bucket(newer, ks[0]), older) + Lines(OlderSide, Bucket(older, ks[0]), newer)
        + NewKeyPairs(ks[1..], newer, older)
  }

  /** The keys of `ks` that are not in `s`, in order. */
  function Without(ks: seq<char>, s: set<char>): (r: seq<char>)
    ensures forall k :: k in r <==> k in ks && k !in s
    ensures Distinct(ks) ==> Distinct(r)
  {
    if |ks| == 0 then []
    else
      var rest := Without(ks[1..], s);
      assert forall k :: k in ks <==> k == ks[0] || k in ks[1..];
      (if ks[0] in s then [] else [ks[0]]) + rest
  }

  /** A key of the older revision contributes its older-side lines exactly
      when the newer revision has no such bucket. */
  lemma OldBucketContribution(k: char, newer: seq<Entry>, older: seq<Entry>)
    requires k in Divide(older)
    ensures var d := Divide(newer);
            var pd := Divide(older);
            (if k !in d then AllDeleted(pd[k]) else [])
              == (if k in d then [] else Lines(OlderSide, Bucket(older, k), newer))
  {
    if k !in Divide(newer) {
      DivideMissing(newer, k);
      var stale := Bucket(older, k);
      FilterInKeys(older, {k});
      LinesInBucket(OlderSide, stale, newer, k);
      LinesAgainstEmpty(stale);
    }
  }

  lemma {:induction false} OldKeyLinesAreSums(ks: seq<char>, d: map<char, seq<Entry>>, pd: map<char, seq<Entry>>,
                                               newer: seq<Entry>, older: seq<Entry>)
    requires forall k | k in ks :: k in pd
    requires forall k | k in ks && k !in d :: AllDeleted(pd[k]) == Lines(OlderSide, Bucket(older, k), newer)
    ensures OldKeyLines(ks, d, pd) == SumLines(OlderSide, Without(ks, d.Keys), older, newer)
    decreases |ks|
  {
    if |ks| > 0 {
      var k := ks[0];
      OldKeyLinesAreSums(ks[1..], d, pd, newer, older);
      var tail := Without(ks[1..], d.Keys);
      var rest := OldKeyLines(ks[1..], d, pd);
      assert rest == SumLines(OlderSide, tail, older, newer);
      if k in d {
        assert OldKeyLines(ks, d, pd) == rest;
        assert Without(ks, d.Keys) == tail;
      } else {
        var w := [k] + tail;
        assert Without(ks, d.Keys) == w;
        assert w[0] == k && w[1..] == tail;
        calc {
          OldKeyLines(ks, d, pd);
          AllDeleted(pd[k]) + rest;
          { assert k in ks; }
          Lines(OlderSide, Bucket(older, k), newer) + SumLines(OlderSide, tail, older, newer);
          SumLines(OlderSide, w, older, newer);
        }
      }
    }
  }

  /** Filtering by a set that covers every key of a list keeps all of it. */
  lemma FilterInCovering(es: seq<Entry>, keys: set<char>)
    requires KeysOf(es) <= keys
    ensures FilterIn(es, keys) == es
  {
    forall i | 0 <= i < |es|
      ensures BucketKey(es[i].path) in keys
    {
      assert BucketKey(es[i].path) in KeysOf(es);
    }
    FilterInAll(es, keys);
  }

  /** The lines of the newer revision's buckets: all newer-side lines, and
      the older-side lines of the older entries whose key the newer
      revision also has. */
  lemma NewKeysPart(newer: seq<Entry>, older: seq<Entry>, newKeys: seq<char>)
    requires Enumerates(newKeys, Divide(newer).Keys)
    ensures multiset(NewKeyLines(newKeys, Divide(newer), Divide(older)))
         == multiset(Lines(NewerSide, newer, older))
          + multiset(Lines(OlderSide, FilterIn(older, KeySet(newKeys)), newer))
  {
    NewKeyLinesArePairs(newKeys, newer, older);
    NewKeyPairsAreSums(newKeys, newer, older);
    SumLinesIsFilter(NewerSide, newKeys, newer, older);
    SumLinesIsFilter(OlderSide, newKeys, older, newer);
    assert KeySet(newKeys) == KeysOf(newer);
    FilterInCovering(newer, KeySet(newKeys));
  }

  /** The lines of the older revision's buckets that the newer one lacks. */
  lemma OldKeysPart(newer: seq<Entry>, older: seq<Entry>, oldKeys: seq<char>)
    requires Enumerates(oldKeys, Divide(older).Keys)
    ensures multiset(OldKeyLines(oldKeys, Divide(newer), Divide(older)))
         == multiset(Lines(OlderSide, FilterIn(older, KeySet(Without(oldKeys, Divide(newer).Keys))), newer))
  {
    var d := Divide(newer);
    var pd := Divide(older);
    forall k | k in oldKeys && k !in d
      ensures AllDeleted(pd[k]) == Lines(OlderSide, Bucket(older, k), newer)
    {
      OldBucketContribution(k, newer, older);
    }
    OldKeyLinesAreSums(oldKeys, d, pd, newer, older);
    SumLinesIsFilter(OlderSide, Without(oldKeys, d.Keys), older, newer);
  }

  /** The new keys and the old keys the new ones lack are disjoint and
      together cover every key of the older list. */
  lemma KeysCovered(older: seq<Entry>, newKeys: seq<char>, oldKeys: seq<char>, present: set<char>)
    requires Enumerates(newKeys, present)
    requires Enumerates(oldKeys, Divide(older).Keys)
    ensures KeySet(newKeys) !! KeySet(Without(oldKeys, present))
    ensures KeysOf(older) <= KeySet(newKeys) + KeySet(Without(oldKeys, present))
  {
    var s := KeySet(newKeys);
    var t := KeySet(Without(oldKeys, present));
    forall k | k in KeysOf(older)
      ensures k in s + t
    {
      assert k in Divide(older);
      assert k in oldKeys;
    }
  }

  /** Bucketing does not change the change set: whatever order the buckets
      are visited in, the bucketed change list is a permutation of the
      unbucketed diff of the two whole lists. */
  lemma BucketingIsNeutral(newer: seq<Entry>, older: seq<Entry>, newKeys: seq<char>, oldKeys: seq<char>)
    requires Enumerates(newKeys, Divide(newer).Keys)
    requires Enumerates(oldKeys, Divide(older).Keys)
    ensures multiset(BucketedChanges(newer, older, newKeys, oldKeys)) == multiset(UpdateChanges(newer, older))
  {
    var d := Divide(newer);
    var pd := Divide(older);
    var s := KeySet(newKeys);
    var t := KeySet(Without(oldKeys, d.Keys));
    var a := NewKeyLines(newKeys, d, pd);
    var b := OldKeyLines(oldKeys, d, pd);
    var n := Lines(NewerSide, newer, older);
    var o := Lines(OlderSide, older, newer);
    NewKeysPart(newer, older, newKeys);
    OldKeysPart(newer, older, oldKeys);
    KeysCovered(older, newKeys, oldKeys, d.Keys);
    FilterInCovering(older, s + t);
    LinesSplit(OlderSide, older, newer, s, t);
    assert BucketedChanges(newer, older, newKeys, oldKeys) == a + b;
    assert UpdateChanges(newer, older) == n + o;
    assert multiset(a + b) == multiset(a) + multiset(b);
    assert multiset(n + o) == multiset(n) + multiset(o);
  }

  /** Every entry lands in exactly one bucket: concatenating the buckets in
      any key order is a permutation of the list, so the count is kept. */
  lemma DivideIsPartition(es: seq<Entry>, ks: seq<char>)
    requires Enumerates(ks, Divide(es).Keys)
    ensures multiset(Concat(Divide(es), ks)) == multiset(es)
    ensures |Concat(Divide(es), ks)| == |es|
  {
    ConcatIsFilter(es, ks);
    assert KeySet(ks) == KeysOf(es);
    FilterInCovering(es, KeySet(ks));
    assert |multiset(Concat(Divide(es), ks))| == |multiset(es)|;
  }

  function Concat(d: map<char, seq<Entry>>, ks: seq<char>): seq<Entry>
    requires forall k | k in ks :: k in d
  {
    if |ks| == 0 then [] else d[ks[0]] + Concat(d, ks[1..])
  }

  lemma {:induction false} ConcatIsFilter(es: seq<Entry>, ks: seq<char>)
    requires Distinct(ks)
    requires forall k | k in ks :: k in Divide(es)
    ensures multiset(Concat(Divide(es), ks)) == multiset(FilterIn(es, KeySet(ks)))
    decreases |ks|
  {
    if |ks| == 0 {
      FilterInNone(es);
    } else {
      var k := ks[0];
      var rest := ks[1..];
      DistinctTail(ks);
      ConcatIsFilter(es, rest);
      FilterSplit(es, {k}, KeySet(rest));
      var a := Bucket(es, k);
      var b := Concat(Divide(es), rest);
      assert Concat(Divide(es), ks) == a + b;
      assert multiset(a + b) == multiset(a) + multiset(b);
    }
  }

  lemma {:induction false} FilterSplit(xs: seq<Entry>, s: set<char>, t: set<char>)
    requires s !! t
    ensures multiset(FilterIn(xs, s + t)) == multiset(FilterIn(xs, s)) + multiset(FilterIn(xs, t))
    decreases |xs|
  {
    if |xs| > 0 {
      FilterSplit(xs[1..], s, t);
    }
  }

  // ---------------------------------------------------------------------
  // The history walk

  /** What `log` prints for one revision: its number, its commit time and
      its change list against the revision before it. */
  datatype LogBlock = LogBlock(number: int, committed: int, changes: seq<Change>)

  /** The blocks printed, newest first, and how the walk ended. */
  datatype LogRun = LogRun(blocks: seq<LogBlock>, result: Result<Unit>)

  /** The entries of the revision before position `j`: none for the first
      revision; a revision that cannot be loaded is LoadingFileFailed. */
  function PreviousEntries(fs: Fs, nums: seq<int>, j: nat): (r: Result<seq<Entry>>)
    requires j < |nums|
    ensures j == 0 ==> r == Ok([])
    ensures j > 0 ==> (r.Ok? <==> RepositoryIndex.LoadRevision(fs, nums[j - 1]).Ok?)
    ensures j > 0 && r.Ok? ==> r.value == RepositoryIndex.LoadRevision(fs, nums[j - 1]).value.entries
    ensures r.Err? ==> r.error == LoadingFileFailed
  {
    if j == 0 then Ok([])
    else
      match RepositoryIndex.LoadRevision(fs, nums[j - 1])
      case Ok(prev) => Ok(prev.entries)
      case Err(_) => Err(LoadingFileFailed)
  }

  /** The block of the revision at position `j`, its hash-map keys visited
      in the order `order` gives for each key set. */
  function RevisionBlock(fs: Fs, nums: seq<int>, j: nat, order: set<char> -> seq<char>): Result<LogBlock>
    requires j < |nums|
    requires forall s :: Enumerates(order(s), s)
  {
    match RepositoryIndex.LoadRevision(fs, nums[j])
    case Err(_) => Err(LoadingFileFailed)
    case Ok(rev) =>
      match PreviousEntries(fs, nums, j)
      case Err(e) => Err(e)
      case Ok(prev) =>
        var entries := rev.entries;
        Ok(LogBlock(nums[j], rev.committed,
                    BucketedChanges(entries, prev, order(Divide(entries).Keys), order(Divide(prev).Keys))))
  }

  /** A block exists exactly when the revision and its predecessor load;
      it carries the revision's number and time, and its change list is a
      permutation of the whole-list diff against the predecessor. */
  lemma RevisionBlockMeaning(fs: Fs, nums: seq<int>, j: nat, order: set<char> -> seq<char>)
    requires j < |nums|
    requires forall s :: Enumerates(order(s), s)
    ensures var b := RevisionBlock(fs, nums, j, order);
            var cur := RepositoryIndex.LoadRevision(fs, nums[j]);
            var prev := PreviousEntries(fs, nums, j);
            && (b.Ok? <==> cur.Ok? && prev.Ok?)
            && (b.Err? ==> b.error == LoadingFileFailed)
            && (b.Ok? ==> b.value.number == nums[j] && b.value.committed == cur.value.committed
                          && multiset(b.value.changes) == multiset(UpdateChanges(cur.value.entries, prev.value)))
  {
    var cur := RepositoryIndex.LoadRevision(fs, nums[j]);
    var prev := PreviousEntries(fs, nums, j);
    if cur.Ok? && prev.Ok? {
      var entries := cur.value.entries;
      BucketingIsNeutral(entries, prev.value, order(Divide(entries).Keys), order(Divide(prev.value).Keys));
    }
  }

  /** Every revision at a position below `i` loads. */
  ghost predicate AllLoad(fs: Fs, nums: seq<int>, i: nat)
    requires i <= |nums|
  {
    forall j | 0 <= j < i :: RepositoryIndex.LoadRevision(fs, nums[j]).Ok?
  }

  lemma RevisionBlockOk(fs: Fs, nums: seq<int>, j: nat, order: set<char> -> seq<char>)
    requires j < |nums|
    requires forall s :: Enumerates(order(s), s)
    ensures RevisionBlock(fs, nums, j, order).Ok? <==>
              RepositoryIndex.LoadRevision(fs, nums[j]).Ok?
              && (j > 0 ==> RepositoryIndex.LoadRevision(fs, nums[j - 1]).Ok?)
    ensures RevisionBlock(fs, nums, j, order).Err? ==> RevisionBlock(fs, nums, j, order).error == LoadingFileFailed
  {
  }

  /** The walk over positions `i - 1` down to 0, given the outcome at
      each position; the first failure ends it. */
  function Walk(outcomes: seq<Result<LogBlock>>, i: nat): LogRun
    requires i <= |outcomes|
    decreases i
  {
    if i == 0 then LogRun([], Ok(Unit))
    else
      match outcomes[i - 1]
      case Err(e) => LogRun([], Err(e))
      case Ok(b) =>
        var rest := Walk(outcomes, i - 1);
        LogRun([b] + rest.blocks, rest.result)
  }

  /** The outcome of every position of the index. */
  function Outcomes(fs: Fs, nums: seq<int>, order: set<char> -> seq<char>): (rs: seq<Result<LogBlock>>)
    requires forall s :: Enumerates(order(s), s)
    ensures |rs| == |nums|
    ensures forall j | 0 <= j < |nums| :: rs[j] == RevisionBlock(fs, nums, j, order)
  {
    seq(|nums|, j requires 0 <= j < |nums| => RevisionBlock(fs, nums, j, order))
  }

  /** `LogCommand::execute`: the index (an empty one when it cannot be
      loaded) walked from the newest revision to the oldest. */
  function LogCommand(fs: Fs, order: set<char> -> seq<char>): LogRun
    requires forall s :: Enumerates(order(s), s)
  {
    var nums := RepositoryIndex.LoadOrEmpty(fs).revisionNumbers;
    Walk(Outcomes(fs, nums, order), |nums|)
  }

  /** The walk succeeds exactly when every position below `i` has a block;
      on failure it reports the error of the newest failing position after
      printing the blocks above it; the blocks printed are those of
      positions `i - 1`, `i - 2`, … in that order. */
  lemma {:induction false} WalkNewestFirst(outcomes: seq<Result<LogBlock>>, i: nat)
    requires i <= |outcomes|
    ensures var r := Walk(outcomes, i);
            && (r.result.Ok? <==> forall j | 0 <= j < i :: outcomes[j].Ok?)
            && (r.result.Ok? ==> |r.blocks| == i)
            && (r.result.Err? ==> |r.blocks| < i && outcomes[i - 1 - |r.blocks|] == Err(r.result.error))
            && forall m | 0 <= m < |r.blocks| :: outcomes[i - 1 - m] == Ok(r.blocks[m])
    decreases i
  {
    if i > 0 {
      WalkNewestFirst(outcomes, i - 1);
      var rest := Walk(outcomes, i - 1);
      if outcomes[i - 1].Ok? {
        var r := Walk(outcomes, i);
        assert r.blocks == [outcomes[i - 1].value] + rest.blocks;
        forall m | 0 <= m < |r.blocks|
          ensures outcomes[i - 1 - m] == Ok(r.blocks[m])
        {
          if m > 0 { assert r.blocks[m] == rest.blocks[m - 1]; }
        }
      }
    }
  }

  /** `log` fails, with LoadingFileFailed, exactly when some revision of
      the index cannot be loaded; otherwise it prints one block per
      revision. */
  lemma LogOutcome(fs: Fs, order: set<char> -> seq<char>)
    requires forall s :: Enumerates(order(s), s)
    ensures var nums := RepositoryIndex.LoadOrEmpty(fs).revisionNumbers;
            var r := LogCommand(fs, order);
            && (r.result.Ok? <==> AllLoad(fs, nums, |nums|))
            && (r.result.Err? ==> r.result.error == LoadingFileFailed)
            && (r.result.Ok? ==> |r.blocks| == |nums|)
  {
    var nums := RepositoryIndex.LoadOrEmpty(fs).revisionNumbers;
    var rs := Outcomes(fs, nums, order);
    WalkNewestFirst(rs, |nums|);
    OutcomesOk(fs, nums, order);
  }

  /** The outcome at every position succeeds exactly when every revision
      loads, and a failing one is LoadingFileFailed. */
  lemma OutcomesOk(fs: Fs, nums: seq<int>, order: set<char> -> seq<char>)
    requires forall s :: Enumerates(order(s), s)
    ensures var rs := Outcomes(fs, nums, order);
            && ((forall j | 0 <= j < |nums| :: rs[j].Ok?) <==> AllLoad(fs, nums, |nums|))
            && (forall j | 0 <= j < |nums| && rs[j].Err? :: rs[j].error == LoadingFileFailed)
  {
    var rs := Outcomes(fs, nums, order);
    forall j | 0 <= j < |nums|
      ensures rs[j].Ok? <==> RepositoryIndex.LoadRevision(fs, nums[j]).Ok?
                             && (j > 0 ==> RepositoryIndex.LoadRevision(fs, nums[j - 1]).Ok?)
      ensures rs[j].Err? ==> rs[j].error == LoadingFileFailed
    {
      RevisionBlockOk(fs, nums, j, order);
    }
    if !AllLoad(fs, nums, |nums|) {
      var j :| 0 <= j < |nums| && !RepositoryIndex.LoadRevision(fs, nums[j]).Ok?;
      assert !rs[j].Ok?;
    }
  }

  /** The oldest revision's block, when printed, lists every entry as
      added. */
  lemma OldestAllAdded(fs: Fs, nums: seq<int>, order: set<char> -> seq<char>)
    requires |nums| > 0
    requires forall s :: Enumerates(order(s), s)
    requires RevisionBlock(fs, nums, 0, order).Ok?
    ensures multiset(RevisionBlock(fs, nums, 0, order).value.changes)
         == multiset(AllAdded(RepositoryIndex.LoadRevision(fs, nums[0]).value.entries))
  {
    RevisionBlockMeaning(fs, nums, 0, order);
    DiffAgainstEmpty(RepositoryIndex.LoadRevision(fs, nums[0]).value.entries);
  }
}

=== FILE: producer.dfy ===
/** The working-tree walker behind `commit`: a state machine with a stack
    of file paths still to be yielded and a stack of directories still to
    be scanned. Each call of `Next` yields one file path (relative to the
    root), reports a read error, or reports that the walk is finished.

    The directory tree is a finite snapshot: a pending directory carries
    the subtree found at its path, in the order `read_dir` lists it. */
module PathProducer {

  import opened Types
  import Text

  /** What `fs::metadata` and `fs::read_dir` find at a path: a regular
      file; a directory with its entries and whether it can be listed; some
      other kind of file (a socket, a device), which is not a regular file
      and cannot be listed; or a path whose metadata cannot be read. */
  datatype Node =
    | FileNode
    | DirNode(children: seq<Child>, readable: bool)
    | SpecialNode
    | Unstattable

  datatype Child = Child(name: string, node: Node)

  datatype PendingDir = PendingDir(path: string, node: Node)

  /** `FilePathProducer`: the two stacks (tops at the ends) and the number
      of leading characters removed from every yielded path. */
  datatype Producer = Producer(files: seq<string>, dirs: seq<PendingDir>, prefixLength: nat)

  /** `FilePathProducer::new`: nothing yielded yet, the root the only
      directory, and a prefix of the root plus one separator. */
  function New(root: string, tree: Node): (p: Producer)
    ensures p.files == [] && p.dirs == [PendingDir(root, tree)]
    ensures p.prefixLength == |root| + 1
    ensures Valid(p)
  {
    Producer([], [PendingDir(root, tree)], |root| + 1)
  }

  /** The child path `Path::join` forms for an entry of a directory. */
  function ChildPath(dir: string, name: string): string {
    dir + "/" + name
  }

  /** The directories never scanned: the store itself and the metadata
      directories of two other version-control systems. */
  predicate Skipped(path: string) {
    var last := Text.FinalComponent(path);
    last.Some? && last.value in {".zatsu", ".jj", ".git"}
  }

  // ---------------------------------------------------------------------
  // Sizes: the walk terminates because every step shrinks the unexplored
  // tree.

  function Size(n: Node): nat
    decreases n, 1
  {
    match n
    case DirNode(cs, _) => 1 + SizeAll(cs)
    case _ => 1
  }

  function SizeAll(cs: seq<Child>): nat
    decreases cs, 0
  {
    if |cs| == 0 then 0 else Size(cs[0].node) + SizeAll(cs[1..])
  }

  function PendingSize(ds: seq<PendingDir>): nat {
    if |ds| == 0 then 0 else PendingSize(ds[..|ds| - 1]) + Size(Text.Last(ds).node)
  }

  /** Pending files plus the size of every pending subtree. */
  function Measure(p: Producer): nat {
    |p.files| + PendingSize(p.dirs)
  }

  /** Every pending directory path is at least as long as the root plus its
      separator minus one, so slicing a child's path never goes out of
      range. */
  ghost predicate Valid(p: Producer) {
    forall i | 0 <= i < |p.dirs| :: |p.dirs[i].path| + 1 >= p.prefixLength
  }

  // ---------------------------------------------------------------------
  // One scan and one call of `next`

  /** The entries of one listed directory, in order: a regular file's path
      with the prefix removed goes on the file stack, anything else goes on
      the directory stack with its full path; a child whose metadata cannot
      be read stops the scan with ReadingMetaDataFailed, keeping what was
      pushed before it. Removing a prefix longer than the path is a panic. */
  function Scan(p: Producer, dir: string, cs: seq<Child>): (r: (Producer, Option<Error>))
    ensures r.0.prefixLength == p.prefixLength
    ensures Measure(r.0) <= Measure(p) + SizeAll(cs)
    ensures r.1.Some? ==> r.1.value == ReadingMetaDataFailed || r.1.value == Panic
    decreases |cs|
  {
    if |cs| == 0 then (p, None)
    else
      var path := ChildPath(dir, cs[0].name);
      match cs[0].node
      case Unstattable => (p, Some(ReadingMetaDataFailed))
      case FileNode =>
        if p.prefixLength > |path| then (p, Some(Panic))
        else Scan(p.(files := p.files + [path[p.prefixLength..]]), dir, cs[1..])
      case _ =>
        var q := p.(dirs := p.dirs + [PendingDir(path, cs[0].node)]);
        assert q.dirs[..|q.dirs| - 1] == p.dirs;
        Scan(q, dir, cs[1..])
  }

  /** `FilePathProducer::next`: pop a pending file if there is one;
      otherwise finish when no directory is pending; otherwise pop a
      directory, scan it unless it is skipped, and try again. A directory
      that cannot be listed is ReadingDirectoryFailed after the pop. */
  function Next(p: Producer): (r: (Producer, Result<string>))
    ensures r.0.prefixLength == p.prefixLength
    ensures r.1 != Err(ProducingFinished) ==> Measure(r.0) < Measure(p)
    ensures r.1 == Err(ProducingFinished) ==> r.0.files == [] && r.0.dirs == []
    decreases Measure(p)
  {
    if |p.files| > 0 then
      (p.(files := p.files[..|p.files| - 1]), Ok(Text.Last(p.files)))
    else if |p.dirs| == 0 then
      (p, Err(ProducingFinished))
    else
      var d := Text.Last(p.dirs);
      var popped := p.(dirs := p.dirs[..|p.dirs| - 1]);
      if Skipped(d.path) then Next(popped)
      else
        match d.node
        case DirNode(cs, true) =>
          var (scanned, err) := Scan(popped, d.path, cs);
          if err.Some? then (scanned, Err(err.value)) else Next(scanned)
        case _ => (popped, Err(ReadingDirectoryFailed))
  }

  // ---------------------------------------------------------------------
  // What the walk yields

  /** The paths a walk below `path` yields when nothing goes wrong: none
      below a skipped or unlistable directory; for a listed directory, each
      regular file's path with the first `k` characters removed and the
      yield of every other entry, entries in listing order. */
  function Under(path: string, node: Node, k: nat): seq<string>
    decreases node, 1
  {
    if Skipped(path) then []
    else
      match node
      case DirNode(cs, true) => UnderAll(path, cs, k)
      case _ => []
  }

  function UnderAll(dir: string, cs: seq<Child>, k: nat): seq<string>
    decreases cs, 0
  {
    if |cs| == 0 then []
    else
      var path := ChildPath(dir, cs[0].name);
      (match cs[0].node
       case FileNode => if k > |path| then [] else [path[k..]]
       case Unstattable => []
       case _ => Under(path, cs[0].node, k))
      + UnderAll(dir, cs[1..], k)
  }

  function PendingUnder(ds: seq<PendingDir>, k: nat): seq<string> {
    if |ds| == 0 then [] else PendingUnder(ds[..|ds| - 1], k) + Under(Text.Last(ds).path, Text.Last(ds).node, k)
  }

  /** Everything a producer in state `p` still owes: its pending files and
      the yield of every pending directory. */
  function Expected(p: Producer): seq<string> {
    p.files + PendingUnder(p.dirs, p.prefixLength)
  }

  /** No entry anywhere below `n` has unreadable metadata. */
  predicate Intact(n: Node)
    decreases n, 1
  {
    match n
    case DirNode(cs, _) => IntactAll(cs)
    case _ => true
  }

  predicate IntactAll(cs: seq<Child>)
    decreases cs, 0
  {
    |cs| == 0 || (!cs[0].node.Unstattable? && Intact(cs[0].node) && IntactAll(cs[1..]))
  }

  ghost predicate PendingIntact(ds: seq<PendingDir>) {
    forall i | 0 <= i < |ds| :: Intact(ds[i].node)
  }

  /** Scanning keeps the state valid, and never panics, when the
      directory path is at least as long as the prefix minus one; it stops
      early only at an entry with unreadable metadata. */
  lemma {:induction false} ScanValid(p: Producer, dir: string, cs: seq<Child>)
    requires Valid(p) && |dir| + 1 >= p.prefixLength
    ensures Valid(Scan(p, dir, cs).0)
    ensures Scan(p, dir, cs).1.Some? ==> Scan(p, dir, cs).1.value == ReadingMetaDataFailed && !IntactAll(cs)
    decreases |cs|
  {
    if |cs| > 0 {
      var k := p.prefixLength;
      var path := ChildPath(dir, cs[0].name);
      match cs[0].node
      case Unstattable =>
      case FileNode =>
        ScanValid(p.(files := p.files + [path[k..]]), dir, cs[1..]);
      case _ =>
        var q := p.(dirs := p.dirs + [PendingDir(path, cs[0].node)]);
        assert Valid(q) by {
          forall i | 0 <= i < |q.dirs|
            ensures |q.dirs[i].path| + 1 >= k
          {
            if i < |p.dirs| { assert q.dirs[i] == p.dirs[i]; }
          }
        }
        ScanValid(q, dir, cs[1..]);
    }
  }

  /** Scanning a directory moves the yield of its entries onto the stacks:
      all of it when the scan completes, part of it when an entry's
      metadata cannot be read. */
  lemma {:induction false} ScanKeepsExpected(p: Producer, dir: string, cs: seq<Child>)
    requires |dir| + 1 >= p.prefixLength
    ensures Scan(p, dir, cs).1.None? ==>
              multiset(Expected(Scan(p, dir, cs).0)) == multiset(Expected(p)) + multiset(UnderAll(dir, cs, p.prefixLength))
    ensures multiset(Expected(Scan(p, dir, cs).0)) <= multiset(Expected(p)) + multiset(UnderAll(dir, cs, p.prefixLength))
    decreases |cs|
  {
    if |cs| > 0 {
      var k := p.prefixLength;
      var path := ChildPath(dir, cs[0].name);
      var later := UnderAll(dir, cs[1..], k);
      var node := cs[0].node;
      if node.Unstattable? {
        assert Scan(p, dir, cs).0 == p;
      } else {
        var q, first := PushChild(p, path, node);
        assert Scan(p, dir, cs) == Scan(q, dir, cs[1..]);
        assert UnderAll(dir, cs, k) == first + later;
        ScanKeepsExpected(q, dir, cs[1..]);
      }
    }
  }

  /** The state after one entry is pushed, and the yield the entry adds. */
  lemma PushChild(p: Producer, path: string, node: Node) returns (q: Producer, first: seq<string>)
    requires |path| >= p.prefixLength && !node.Unstattable?
    ensures q == (if node.FileNode? then p.(files := p.files + [path[p.prefixLength..]])
                  else p.(dirs := p.dirs + [PendingDir(path, node)]))
    ensures first == (if node.FileNode? then [path[p.prefixLength..]] else Under(path, node, p.prefixLength))
    ensures multiset(Expected(q)) == multiset(Expected(p)) + multiset(first)
  {
    var k := p.prefixLength;
    if node.FileNode? {
      q := p.(files := p.files + [path[k..]]);
      first := [path[k..]];
      assert Expected(q) == Expected(p)[..|p.files|] + first + PendingUnder(p.dirs, k);
    } else {
      q := p.(dirs := p.dirs + [PendingDir(path, node)]);
      first := Under(path, node, k);
      assert q.dirs[..|q.dirs| - 1] == p.dirs;
      assert PendingUnder(q.dirs, k) == PendingUnder(p.dirs, k) + first;
      assert Expected(q) == Expected(p) + first;
    }
  }

  /** Scanning an intact directory pushes only intact subtrees. */
  lemma {:induction false} ScanIntact(p: Producer, dir: string, cs: seq<Child>)
    requires PendingIntact(p.dirs) && IntactAll(cs)
    ensures PendingIntact(Scan(p, dir, cs).0.dirs)
    decreases |cs|
  {
    if |cs| > 0 {
      var k := p.prefixLength;
      var path := ChildPath(dir, cs[0].name);
      match cs[0].node
      case Unstattable =>
      case FileNode =>
        if k <= |path| {
          ScanIntact(p.(files := p.files + [path[k..]]), dir, cs[1..]);
        }
      case _ =>
        var q := p.(dirs := p.dirs + [PendingDir(path, cs[0].node)]);
        assert PendingIntact(q.dirs) by {
          forall i | 0 <= i < |q.dirs|
            ensures Intact(q.dirs[i].node)
          {
            if i < |p.dirs| { assert q.dirs[i] == p.dirs[i]; }
          }
        }
        ScanIntact(q, dir, cs[1..]);
    }
  }

  /** With both stacks empty `next` reports the end of the walk and
      changes nothing. */
  lemma FinishedWhenEmpty(p: Producer)
    requires p.files == [] && p.dirs == []
    ensures Next(p) == (p, Err(ProducingFinished))
  {
  }

  /** Popping a directory keeps the state valid and moves its yield off the
      directory stack. */
  lemma PopDir(p: Producer)
    requires Valid(p) && |p.dirs| > 0
    ensures var d := Text.Last(p.dirs);
            var popped := p.(dirs := p.dirs[..|p.dirs| - 1]);
            && Valid(popped)
            && |d.path| + 1 >= p.prefixLength
            && Expected(p) == Expected(popped) + Under(d.path, d.node, p.prefixLength)
            && (PendingIntact(p.dirs) ==> PendingIntact(popped.dirs) && Intact(d.node))
  {
    var popped := p.(dirs := p.dirs[..|p.dirs| - 1]);
    assert Valid(popped) by {
      forall i | 0 <= i < |popped.dirs|
        ensures |popped.dirs[i].path| + 1 >= p.prefixLength
      {
        assert popped.dirs[i] == p.dirs[i];
      }
    }
    if PendingIntact(p.dirs) {
      forall i | 0 <= i < |popped.dirs|
        ensures Intact(popped.dirs[i].node)
      {
        assert popped.dirs[i] == p.dirs[i];
      }
    }
  }

  /** One call of `next` from a valid state keeps it valid and never
      panics. */
  lemma {:induction false} NextValid(p: Producer)
    requires Valid(p)
    ensures Valid(Next(p).0) && Next(p).1 != Err(Panic)
    decreases Measure(p)
  {
    if |p.files| == 0 && |p.dirs| > 0 {
      var d := Text.Last(p.dirs);
      var popped := p.(dirs := p.dirs[..|p.dirs| - 1]);
      PopDir(p);
      if Skipped(d.path) {
        NextValid(popped);
      } else if d.node.DirNode? && d.node.readable {
        var r := Scan(popped, d.path, d.node.children);
        ScanValid(popped, d.path, d.node.children);
        if r.1.None? {
          NextValid(r.0);
        }
      }
    }
  }

  /** What `next` yields is taken from what the state owes; an error loses
      part of what is owed; a finished walk owed nothing. */
  lemma {:induction false} NextKeepsExpected(p: Producer)
    requires Valid(p)
    ensures var r := Next(p);
            && (r.1.Ok? ==> multiset(Expected(p)) == multiset(Expected(r.0)) + multiset{r.1.value})
            && (r.1 == Err(ProducingFinished) ==> Expected(p) == [])
            && (r.1.Err? ==> multiset(Expected(r.0)) <= multiset(Expected(p)))
    decreases Measure(p)
  {
    if |p.files| > 0 {
      PopFile(p);
    } else if |p.dirs| > 0 {
      var d := Text.Last(p.dirs);
      var popped := p.(dirs := p.dirs[..|p.dirs| - 1]);
      PopDir(p);
      if Skipped(d.path) {
        assert Next(p) == Next(popped);
        assert Expected(p) == Expected(popped) + [];
        NextKeepsExpected(popped);
      } else if d.node.DirNode? && d.node.readable {
        var cs := d.node.children;
        var r := Scan(popped, d.path, cs);
        ScanValid(popped, d.path, cs);
        ScanKeepsExpected(popped, d.path, cs);
        assert Under(d.path, d.node, p.prefixLength) == UnderAll(d.path, cs, p.prefixLength);
        assert multiset(Expected(p)) == multiset(Expected(popped)) + multiset(UnderAll(d.path, cs, p.prefixLength));
        if r.1.None? {
          assert Next(p) == Next(r.0);
          NextKeepsExpected(r.0);
        } else {
          assert Next(p) == (r.0, Err(r.1.value));
        }
      } else {
        assert Next(p) == (popped, Err(ReadingDirectoryFailed));
      }
    }
  }

  /** A pending file is yielded, last pushed first, before any directory
      is scanned. */
  lemma PopFile(p: Producer)
    requires |p.files| > 0
    ensures var r := Next(p);
            && r.1 == Ok(Text.Last(p.files))
            && r.0.files == p.files[..|p.files| - 1] && r.0.dirs == p.dirs
            && multiset(Expected(p)) == multiset(Expected(r.0)) + multiset{r.1.value}
  {
    var q := p.(files := p.files[..|p.files| - 1]);
    assert p.files == q.files + [Text.Last(p.files)];
    assert Expected(p) == q.files + [Text.Last(p.files)] + PendingUnder(p.dirs, p.prefixLength);
  }

  /** When every pending subtree is intact, `next` keeps them intact, its
      only errors are the end of the walk and an unlistable directory, and
      an error loses nothing that is owed. */
  lemma {:induction false} NextIntact(p: Producer)
    requires Valid(p) && PendingIntact(p.dirs)
    ensures var r := Next(p);
            && PendingIntact(r.0.dirs)
            && (r.1.Err? ==> r.1.error == ProducingFinished || r.1.error == ReadingDirectoryFailed)
            && (r.1.Err? ==> multiset(Expected(r.0)) == multiset(Expected(p)))
    decreases Measure(p)
  {
    if |p.files| == 0 && |p.dirs| > 0 {
      var d := Text.Last(p.dirs);
      var popped := p.(dirs := p.dirs[..|p.dirs| - 1]);
      PopDir(p);
      if Skipped(d.path) {
        NextIntact(popped);
      } else if d.node.DirNode? && d.node.readable {
        var r := Scan(popped, d.path, d.node.children);
        ScanValid(popped, d.path, d.node.children);
        ScanKeepsExpected(popped, d.path, d.node.children);
        ScanIntact(popped, d.path, d.node.children);
        NextIntact(r.0);
      }
    }
  }

  // ---------------------------------------------------------------------
  // The whole walk

  /** The paths yielded by calling `next` until it reports the end of the
      walk, passing over every other error as the commit loop does. */
  function Drain(p: Producer): seq<string>
    decreases Measure(p)
  {
    var r := Next(p);
    if r.1 == Err(ProducingFinished) then []
    else (if r.1.Ok? then [r.1.value] else []) + Drain(r.0)
  }

  /** The walk yields only what is owed, each path at most as often as it
      is owed; when every pending subtree is intact it yields all of it. */
  lemma {:induction false} DrainYieldsExpected(p: Producer)
    requires Valid(p)
    ensures multiset(Drain(p)) <= multiset(Expected(p))
    ensures PendingIntact(p.dirs) ==> multiset(Drain(p)) == multiset(Expected(p))
    decreases Measure(p)
  {
    var r := Next(p);
    NextValid(p);
    NextKeepsExpected(p);
    if PendingIntact(p.dirs) {
      NextIntact(p);
    }
    if r.1 != Err(ProducingFinished) {
      DrainYieldsExpected(r.0);
      var head: seq<string> := if r.1.Ok? then [r.1.value] else [];
      assert Drain(p) == head + Drain(r.0);
      assert multiset(Drain(p)) == multiset(head) + multiset(Drain(r.0));
    }
  }

  /** Walking from the root yields the regular files of the tree below
      it, relative to the root, outside skipped directories: never more,
      and every one of them when no entry's metadata is unreadable. */
  lemma WalkYieldsTree(root: string, tree: Node)
    ensures multiset(Drain(New(root, tree))) <= multiset(Under(root, tree, |root| + 1))
    ensures Intact(tree) ==> multiset(Drain(New(root, tree))) == multiset(Under(root, tree, |root| + 1))
  {
    var p := New(root, tree);
    assert p.dirs[..0] == [];
    assert PendingUnder(p.dirs, |root| + 1) == PendingUnder([], |root| + 1) + Under(root, tree, |root| + 1);
    DrainYieldsExpected(p);
  }

  /** An entry named `.zatsu`, `.jj` or `.git` is never scanned. */
  lemma ChildSkipped(dir: string, name: string)
    requires name in {".zatsu", ".jj", ".git"}
    ensures Skipped(ChildPath(dir, name))
  {
    assert '/' !in name && name != "" && name != "." && name != "..";
    Text.FinalComponentOfChild(dir, name);
  }

  /** A yielded path is the file's path below the root: removing the root
      and its separator from `root/rel/name` leaves `rel/name`. */
  lemma YieldIsRelative(root: string, rel: string, name: string)
    ensures ChildPath(root + "/" + rel, name)[|root| + 1..] == rel + "/" + name
    ensures ChildPath(root, name)[|root| + 1..] == name
  {
    assert ChildPath(root + "/" + rel, name) == root + "/" + (rel + "/" + name);
  }
}

=== FILE: repository.dfy ===
/** The repository index (`repository.json`) and the revision files
    (`revisions/<xx>/<n>.json`): where they live, how they are loaded and
    saved, and the latest revision number. */
module RepositoryIndex {

  import opened Types
  import opened Disk
  import Text

  /** `latest_revision`: the last recorded number, or 0 for an empty index. */
  function LatestRevision(repo: Repository): (r: int)
    ensures |repo.revisionNumbers| == 0 ==> r == 0
    ensures |repo.revisionNumbers| > 0 ==> r == Text.Last(repo.revisionNumbers)
  {
    var count := |repo.revisionNumbers|;
    if count == 0 then 0 else repo.revisionNumbers[count - 1]
  }

  /** On a strictly increasing, non-empty index the latest revision is the
      largest recorded number. */
  lemma LatestIsMaximum(repo: Repository)
    requires StrictlyIncreasing(repo.revisionNumbers)
    requires |repo.revisionNumbers| > 0
    ensures LatestRevision(repo) in repo.revisionNumbers
    ensures forall i | 0 <= i < |repo.revisionNumbers| :: repo.revisionNumbers[i] <= LatestRevision(repo)
  {
    var xs := repo.revisionNumbers;
    forall i | 0 <= i < |xs|
      ensures xs[i] <= LatestRevision(repo)
    {
      if i < |xs| - 1 {
        assert xs[i] < xs[|xs| - 1];
      }
    }
  }

  /** `Repository::load`: a missing or unreadable file is LoadingFileFailed,
      a file that does not hold an index is DeserializationFailed. */
  function LoadRepository(fs: Fs): (r: Result<Repository>)
    ensures r.Err? ==> r.error == LoadingFileFailed || r.error == DeserializationFailed
    ensures (IndexLoc in fs.faults || fs.index.None?) <==> r == Err(LoadingFileFailed)
    ensures r.Ok? ==> IndexLoc !in fs.faults && fs.index == Some(IndexDoc(r.value))
    ensures IndexLoc !in fs.faults && fs.index.Some? && fs.index.value.IndexDoc? ==>
              r == Ok(fs.index.value.repository)
  {
    if IndexLoc in fs.faults || fs.index.None? then Err(LoadingFileFailed)
    else match fs.index.value
      case IndexDoc(repo) => Ok(repo)
      case _ => Err(DeserializationFailed)
  }

  /** The index the commands fall back to when loading fails: no revisions,
      scheme version 1. */
  function LoadOrEmpty(fs: Fs): (repo: Repository)
    ensures LoadRepository(fs).Ok? ==> repo == LoadRepository(fs).value
    ensures LoadRepository(fs).Err? ==> repo.revisionNumbers == [] && repo.version == 1
  {
    match LoadRepository(fs)
    case Ok(repo) => repo
    case Err(_) => Repository([], 1)
  }

  /** `Repository::save`: replaces the index; a write failure is
      SavingFileFailed. */
  function SaveRepository(fs: Fs, repo: Repository): (r: Step<Unit>)
    ensures r.result.Err? ==> r.result.error == SavingFileFailed && r.fs == fs
    ensures r.fs.areas == fs.areas && r.fs.outputs == fs.outputs && r.fs.faults == fs.faults
  {
    if IndexLoc in fs.faults then Step(fs, Err(SavingFileFailed))
    else Step(fs.(index := Some(IndexDoc(repo))), Ok(Unit))
  }

  /** Saving then loading the index gives back what was saved. */
  lemma RepositoryRoundTrip(fs: Fs, repo: Repository)
    ensures var saved := SaveRepository(fs, repo);
            saved.result.Ok? ==> LoadRepository(saved.fs) == Ok(repo)
    ensures SaveRepository(fs, repo).result.Ok? <==> IndexLoc !in fs.faults
  {
  }

  /** `revisions/<n & 0xFF as {:02x}>`: the shard of a revision number. The
      low byte of a two's-complement integer is its Euclidean remainder
      modulo 256. */
  function RevisionShard(n: int): (s: string)
    ensures |s| == 2 && Text.IsHexString(s)
  {
    Text.HexByte(n % 256)
  }

  /** The shard's two hex digits read back as the revision number's low
      byte, most significant digit first. */
  lemma RevisionShardValue(n: int)
    ensures var s := RevisionShard(n);
            Text.HexValue(s[0]) * 16 + Text.HexValue(s[1]) == n % 256
  {
    Text.HexByteRoundTrip(n % 256);
  }

  function RevisionFileName(n: int): string {
    Text.IntToString(n) + ".json"
  }

  /** Distinct revision numbers never share a revision file. */
  lemma RevisionLocationInjective(a: int, b: int)
    requires RevisionShard(a) == RevisionShard(b) && RevisionFileName(a) == RevisionFileName(b)
    ensures a == b
  {
    var sa := Text.IntToString(a);
    var sb := Text.IntToString(b);
    assert |sa| == |sb|;
    assert sa == RevisionFileName(a)[..|sa|];
    assert sb == RevisionFileName(b)[..|sb|];
    Text.IntToStringInjective(a, b);
  }

  /** `Revision::load` at the revision's sharded path. */
  function LoadRevision(fs: Fs, n: int): (r: Result<Revision>)
    ensures var file := ReadFile(fs, Revisions, RevisionShard(n), RevisionFileName(n));
            && (r.Ok? ==> file == Some(RevisionDoc(r.value)))
            && (file.Some? && file.value.RevisionDoc? ==> r == Ok(file.value.revision))
            && (file.None? ==> r == Err(RevisionLoadingFailed))
    ensures r.Err? ==> r.error == RevisionLoadingFailed || r.error == RevisionDeserializationFailed
  {
    match ReadFile(fs, Revisions, RevisionShard(n), RevisionFileName(n))
    case None => Err(RevisionLoadingFailed)
    case Some(RevisionDoc(rev)) => Ok(rev)
    case Some(_) => Err(RevisionDeserializationFailed)
  }

  /** `Revision::save` at the revision's sharded path. */
  function SaveRevision(fs: Fs, n: int, rev: Revision): (r: Step<Unit>)
    ensures r.result.Err? ==> r.result.error == RevisionSavingFailed && r.fs == fs
    ensures r.result.Ok? ==> SameExcept(fs, r.fs, Revisions, RevisionShard(n), RevisionFileName(n))
    ensures r.result.Ok? ==> LoadRevision(r.fs, n) == Ok(rev)
  {
    match WriteFile(fs, Revisions, RevisionShard(n), RevisionFileName(n), RevisionDoc(rev))
    case None => Step(fs, Err(RevisionSavingFailed))
    case Some(fs') => Step(fs', Ok(Unit))
  }
}

=== FILE: text.dfy ===
/** String formatting and splitting used to build the store's file names:
    two-digit lower-case hex (`{:02x}`), decimal integers (`{}`), splitting
    at a separator (`str::split`) and the final component of a path. */
module Text {

  import opened Types

  // ---------------------------------------------------------------------
  // Hexadecimal

  const HexDigits: string := "0123456789abcdef"

  predicate IsHexChar(c: char) {
    c in HexDigits
  }

  predicate IsHexString(s: string) {
    forall i | 0 <= i < |s| :: IsHexChar(s[i])
  }

  function HexValue(c: char): (v: nat)
    requires IsHexChar(c)
    ensures v < 16 && HexDigits[v] == c
  {
    if '0' <= c <= '9' then (c - '0') as nat else (c - 'a') as nat + 10
  }

  /** `format!("{:02x}", b)` for a value of one byte. */
  function HexByte(b: nat): (s: string)
    requires b < 256
    ensures |s| == 2 && IsHexString(s)
  {
    [HexDigits[b / 16], HexDigits[b % 16]]
  }

  /** Parsing two hex digits back gives the byte: the shard name determines
      the low byte it was made from. */
  lemma HexByteRoundTrip(b: nat)
    requires b < 256
    ensures HexValue(HexByte(b)[0]) * 16 + HexValue(HexByte(b)[1]) == b
  {
    var s := HexByte(b);
    assert HexValue(s[0]) == b / 16 by {
      assert HexDigits[HexValue(s[0])] == HexDigits[b / 16];
      HexDigitsDistinct(HexValue(s[0]), b / 16);
    }
    assert HexValue(s[1]) == b % 16 by {
      assert HexDigits[HexValue(s[1])] == HexDigits[b % 16];
      HexDigitsDistinct(HexValue(s[1]), b % 16);
    }
  }

  lemma HexDigitsDistinct(i: nat, j: nat)
    requires i < 16 && j < 16 && HexDigits[i] == HexDigits[j]
    ensures i == j
  {
  }

  // ---------------------------------------------------------------------
  // Decimal

  predicate IsDigit(c: char) {
    '0' as int <= c as int <= '9' as int
  }

  function DigitChar(d: nat): (c: char)
    requires d < 10
    ensures IsDigit(c) && c as int - '0' as int == d
  {
    ('0' as int + d) as char
  }

  /** Decimal digits of a natural number, without leading zeros. */
  function NatToString(n: nat): (s: string)
    ensures |s| >= 1
    ensures forall i | 0 <= i < |s| :: IsDigit(s[i])
    decreases n
  {
    if n < 10 then [DigitChar(n)] else NatToString(n / 10) + [DigitChar(n % 10)]
  }

  /** `format!("{}", n)` for an integer: a minus sign before negatives. */
  function IntToString(n: int): (s: string)
    ensures |s| >= 1
  {
    if n < 0 then "-" + NatToString(-n) else NatToString(n)
  }

  function DigitsValue(s: string): nat
    requires forall i | 0 <= i < |s| :: IsDigit(s[i])
  {
    if |s| == 0 then 0
    else
      assert IsDigit(s[|s| - 1]);
      DigitsValue(s[..|s| - 1]) * 10 + (s[|s| - 1] as int - '0' as int)
  }

  lemma {:induction false} NatToStringRoundTrip(n: nat)
    ensures DigitsValue(NatToString(n)) == n
    decreases n
  {
    var s := NatToString(n);
    if n >= 10 {
      NatToStringRoundTrip(n / 10);
      assert s[..|s| - 1] == NatToString(n / 10);
    }
  }

  /** Different integers are printed differently, so revision file names
      never collide. */
  lemma IntToStringInjective(a: int, b: int)
    requires IntToString(a) == IntToString(b)
    ensures a == b
  {
    assert IntToString(a)[0] == '-' <==> a < 0 by {
      if a >= 0 { assert IsDigit(NatToString(a)[0]); }
    }
    assert IntToString(b)[0] == '-' <==> b < 0 by {
      if b >= 0 { assert IsDigit(NatToString(b)[0]); }
    }
    if a < 0 {
      assert NatToString(-a) == IntToString(a)[1..] == IntToString(b)[1..] == NatToString(-b);
      NatToStringRoundTrip(-a);
      NatToStringRoundTrip(-b);
    } else {
      NatToStringRoundTrip(a);
      NatToStringRoundTrip(b);
    }
  }

  // ---------------------------------------------------------------------
  // Splitting

  function FirstIndex(s: string, c: char): (i: nat)
    requires c in s
    ensures i < |s| && s[i] == c && c !in s[..i]
  {
    if s[0] == c then 0
    else
      assert c in s[1..] by {
        var k :| 0 <= k < |s| && s[k] == c;
        assert s[1..][k - 1] == c;
      }
      var j := FirstIndex(s[1..], c);
      assert s[..j + 1] == [s[0]] + s[1..][..j];
      j + 1
  }

  /** `str::split(c)`: the pieces between separators; always at least one. */
  function Split(s: string, c: char): (parts: seq<string>)
    ensures |parts| >= 1
    ensures forall k | 0 <= k < |parts| :: c !in parts[k]
    decreases |s|
  {
    if c !in s then [s]
    else
      var i := FirstIndex(s, c);
      [s[..i]] + Split(s[i + 1..], c)
  }

  /** Pieces glued back with the separator between them. */
  function Join(parts: seq<string>, c: char): string
    requires |parts| >= 1
  {
    if |parts| == 1 then parts[0] else parts[0] + [c] + Join(parts[1..], c)
  }

  lemma {:induction false} JoinSplit(s: string, c: char)
    ensures Join(Split(s, c), c) == s
    decreases |s|
  {
    if c in s {
      var i := FirstIndex(s, c);
      JoinSplit(s[i + 1..], c);
      assert s == s[..i] + [c] + s[i + 1..];
    }
  }

  /** Splitting is the inverse of joining separator-free pieces. */
  lemma {:induction false} SplitJoin(parts: seq<string>, c: char)
    requires |parts| >= 1
    requires forall k | 0 <= k < |parts| :: c !in parts[k]
    ensures Split(Join(parts, c), c) == parts
    decreases |parts|
  {
    var s := Join(parts, c);
    if |parts| == 1 {
    } else {
      var p := parts[0];
      var rest := Join(parts[1..], c);
      assert s == p + [c] + rest;
      assert s[|p|] == c;
      assert c in s;
      var i := FirstIndex(s, c);
      assert s[..|p|] == p;
      assert i == |p| by {
        assert i <= |p| by { assert s[|p|] == c; }
        assert i >= |p| by { assert s[i] == c; }
      }
      assert s[..i] == p;
      assert s[i + 1..] == rest;
      SplitJoin(parts[1..], c);
    }
  }

  /** Splitting a string that starts with a separator-free piece and a
      separator gives that piece, then the split of the rest. */
  lemma SplitCons(piece: string, c: char, rest: string)
    requires c !in piece
    ensures Split(piece + [c] + rest, c) == [piece] + Split(rest, c)
  {
    var s := piece + [c] + rest;
    assert s[|piece|] == c;
    var i := FirstIndex(s, c);
    assert s[..|piece|] == piece;
    assert i == |piece| by {
      assert i <= |piece| by { assert s[|piece|] == c; }
      assert i >= |piece| by { assert s[i] == c; }
    }
    assert s[..i] == piece;
    assert s[i + 1..] == rest;
  }

  /** The last piece of `dir/name` split at slashes is `name`. */
  lemma LastOfChild(dir: string, name: string)
    requires '/' !in name
    ensures Last(Split(dir + "/" + name, '/')) == name
  {
    var parts := Split(dir, '/');
    JoinSplit(dir, '/');
    var whole := parts + [name];
    JoinAppend(parts, name, '/');
    assert Join(whole, '/') == dir + "/" + name;
    assert forall k | 0 <= k < |whole| :: '/' !in whole[k] by {
      forall k | 0 <= k < |whole|
        ensures '/' !in whole[k]
      {
        if k < |parts| { assert whole[k] == parts[k]; }
      }
    }
    SplitJoin(whole, '/');
  }

  function Last<T>(xs: seq<T>): T
    requires |xs| >= 1
  {
    xs[|xs| - 1]
  }

  /** The final component of a slash-separated path as `Path::file_name`
      sees it: absent when the path ends in "", "." or "..". */
  function FinalComponent(path: string): (r: Option<string>)
    ensures r.Some? ==> '/' !in r.value && r.value != "" && r.value != "." && r.value != ".."
  {
    var name := Last(Split(path, '/'));
    if name == "" || name == "." || name == ".." then None else Some(name)
  }

  /** The final component of `dir/name` is `name` for an ordinary entry name. */
  lemma FinalComponentOfChild(dir: string, name: string)
    requires '/' !in name && name != "" && name != "." && name != ".."
    ensures FinalComponent(dir + "/" + name) == Some(name)
  {
    LastOfChild(dir, name);
  }

  lemma {:induction false} JoinAppend(parts: seq<string>, last: string, c: char)
    requires |parts| >= 1
    ensures Join(parts + [last], c) == Join(parts, c) + [c] + last
    decreases |parts|
  {
    if |parts| > 1 {
      assert (parts + [last])[1..] == parts[1..] + [last];
      JoinAppend(parts[1..], last, c);
    }
  }
}

=== FILE: types.dfy ===
/** Shared vocabulary of the snapshot store: optional values, results, the
    error codes of the tool, and the three persisted records (Entry, Revision,
    Repository). */
module Types {

  newtype byte = x: int | 0 <= x < 256

  datatype Option<+T> = None | Some(value: T)

  datatype Unit = Unit

  /** Error codes. The first group mirrors the numeric constants of
      src/error.rs; SerializationFailed and DeserializationFailed are used by
      the repository index although src/error.rs does not define them; the Revision* codes belong to the revision file's own error
      domain; Panic stands for a Rust panic (an out-of-range slice or drain). */
  datatype Error =
    | General
    | ReadingMetaDataFailed
    | ReadingDirectoryFailed
    | CreatingRepositoryFailed
    | LoadingRepositoryFailed
    | RevisionNotFound
    | LoadingRevisionFailed
    | FileNotFound
    | LoadingFileFailed
    | SavingFileFailed
    | ProducingFinished
    | CreatingDirectoryFailed
    | SerializationFailed
    | DeserializationFailed
    | RevisionLoadingFailed
    | RevisionSavingFailed
    | RevisionDeserializationFailed
    | Panic

  datatype Result<+T> = Ok(value: T) | Err(error: Error) {
    predicate IsFailure() { Err? }
    function PropagateFailure<U>(): Result<U>
      requires Err?
    {
      Err(error)
    }
    function Extract(): T
      requires Ok?
    {
      value
    }
  }

  /** One file of a snapshot: its path relative to the working directory,
      the hash of its content, and its mode bits. */
  datatype Entry = Entry(path: string, hash: string, permission: int)

  /** One whole-tree snapshot: commit time in milliseconds, the entries in
      the order they were produced, and a reserved description. */
  datatype Revision = Revision(committed: int, entries: seq<Entry>, description: string)

  /** The repository index: revision numbers in commit order and the
      hash-scheme version (1 = SHA-1, otherwise SHA-256). */
  datatype Repository = Repository(revisionNumbers: seq<int>, version: int)

  /** The mode every committed entry receives (octal 644). */
  const DefaultPermission: int := 0x1A4

  ghost predicate StrictlyIncreasing(xs: seq<int>) {
    forall i, j | 0 <= i < j < |xs| :: xs[i] < xs[j]
  }

  ghost predicate Distinct<T>(xs: seq<T>) {
    forall i, j | 0 <= i < j < |xs| :: xs[i] != xs[j]
  }

  /** `xs` lists every element of `s` exactly once: one possible iteration
      order of a hash map's keys or of a directory listing. */
  ghost predicate Enumerates<T(!new)>(xs: seq<T>, s: set<T>) {
    Distinct(xs) && forall x :: x in xs <==> x in s
  }

  /** Dropping the head of a list without repeats leaves a list without
      repeats that no longer holds the head. */
  lemma DistinctTail<T>(xs: seq<T>)
    requires Distinct(xs) && |xs| > 0
    ensures Distinct(xs[1..]) && xs[0] !in xs[1..]
  {
    var rest := xs[1..];
    forall i, j | 0 <= i < j < |rest|
      ensures rest[i] != rest[j]
    {
      assert rest[i] == xs[i + 1] && rest[j] == xs[j + 1];
    }
    forall j | 0 <= j < |rest|
      ensures rest[j] != xs[0]
    {
      assert rest[j] == xs[j + 1];
    }
  }
}

=== FILE: upgrade.dfy ===
/** `upgrade`: convert a repository of scheme version 1 (objects named by
    their SHA-1) to the layout of scheme version 2 (objects named by their
    SHA-256). The old store is moved to `objects-v1`; every old object is
    inflated, re-hashed and put into a fresh `objects`, and a text file
    `<old name>.new` next to the old object records its new name; finally
    the entries of every recorded revision are rewritten through those
    records. */
module Upgrade {

  import opened Types
  import opened Disk
  import Text
  import Commons
  import RepositoryIndex

  // ---------------------------------------------------------------------
  // Moving the old store aside

  /** `fs::rename` of `objects` to `objects-v1`: fails when `objects` is
      faulty or missing, or when `objects-v1` exists and is not empty (an
      empty destination directory is replaced). */
  function MoveStore(fs: Fs): (r: Option<Fs>)
    ensures r.Some? <==> && AreaLoc(Objects) !in fs.faults && Objects in fs.areas
                         && (ObjectsV1 in fs.areas ==> fs.areas[ObjectsV1] == map[])
    ensures r.Some? ==> && Objects !in r.value.areas && ObjectsV1 in r.value.areas
                        && r.value.areas[ObjectsV1] == fs.areas[Objects]
                        && (Revisions in r.value.areas <==> Revisions in fs.areas)
                        && (Revisions in fs.areas ==> r.value.areas[Revisions] == fs.areas[Revisions])
                        && r.value.index == fs.index && r.value.outputs == fs.outputs
                        && r.value.faults == fs.faults
  {
    if || AreaLoc(Objects) in fs.faults || Objects !in fs.areas
       || (ObjectsV1 in fs.areas && fs.areas[ObjectsV1] != map[])
    then None
    else Some(fs.(areas := (fs.areas - {Objects})[ObjectsV1 := fs.areas[Objects]]))
  }

  /** `fs::create_dir` of `objects`: fails when it is faulty or exists. */
  function CreateStore(fs: Fs): (r: Option<Fs>)
    ensures r.Some? <==> AreaLoc(Objects) !in fs.faults && Objects !in fs.areas
    ensures r.Some? ==> && Objects in r.value.areas && r.value.areas[Objects] == map[]
                        && (forall a | a != Objects :: a in r.value.areas <==> a in fs.areas)
                        && (forall a | a != Objects && a in fs.areas :: r.value.areas[a] == fs.areas[a])
                        && r.value.index == fs.index && r.value.outputs == fs.outputs
                        && r.value.faults == fs.faults
  {
    if AreaLoc(Objects) in fs.faults || Objects in fs.areas then None
    else Some(fs.(areas := fs.areas[Objects := map[]]))
  }

  /** Lines 40-62 of `execute`: load the index (LoadingRepositoryFailed
      when it cannot be loaded), refuse any scheme version but 1 (General),
      then move the store aside and create an empty one
      (CreatingDirectoryFailed). The loaded index is the result. */
  function Prepare(fs: Fs): (r: Step<Repository>)
    ensures RepositoryIndex.LoadRepository(fs).Err? <==> r.result == Err(LoadingRepositoryFailed)
    ensures (RepositoryIndex.LoadRepository(fs).Ok? && RepositoryIndex.LoadRepository(fs).value.version != 1)
              <==> r.result == Err(General)
    ensures r.result.Err? ==> r.result.error in {LoadingRepositoryFailed, General, CreatingDirectoryFailed}
    ensures r.result.Err? && r.result.error != CreatingDirectoryFailed ==> r.fs == fs
    ensures r.result.Ok? ==>
              && RepositoryIndex.LoadRepository(fs) == Ok(r.result.value)
              && r.result.value.version == 1
              && Objects in fs.areas && Objects in r.fs.areas && ObjectsV1 in r.fs.areas
              && r.fs.areas[ObjectsV1] == fs.areas[Objects]
              && r.fs.areas[Objects] == map[]
              && (Revisions in r.fs.areas <==> Revisions in fs.areas)
              && (Revisions in fs.areas ==> r.fs.areas[Revisions] == fs.areas[Revisions])
              && r.fs.index == fs.index && r.fs.outputs == fs.outputs && r.fs.faults == fs.faults
  {
    match RepositoryIndex.LoadRepository(fs)
    case Err(_) => Step(fs, Err(LoadingRepositoryFailed))
    case Ok(repo) =>
      if repo.version != 1 then Step(fs, Err(General))
      else
        match MoveStore(fs)
        case None => Step(fs, Err(CreatingDirectoryFailed))
        case Some(moved) =>
          match CreateStore(moved)
          case None => Step(moved, Err(CreatingDirectoryFailed))
          case Some(created) => Step(created, Ok(repo))
  }

  // ---------------------------------------------------------------------
  // Copying the objects

  /** The bytes of old object `name` in shard `shard` of `objects-v1`: the
      file read and inflated; None when it is missing or unreadable, holds
      no raw bytes, or does not inflate. */
  function Inflated(fs: Fs, codec: Codec, shard: string, name: string): (r: Option<seq<byte>>)
    ensures r.Some? <==> && FileLoc(ObjectsV1, shard, name) !in fs.faults
                         && FileExists(fs, ObjectsV1, shard, name)
                         && fs.areas[ObjectsV1][shard][name].Raw?
                         && codec.decompress(fs.areas[ObjectsV1][shard][name].bytes).Some?
    ensures r.Some? ==> codec.decompress(fs.areas[ObjectsV1][shard][name].bytes) == r
  {
    match ReadFile(fs, ObjectsV1, shard, name)
    case Some(Raw(bytes)) => codec.decompress(bytes)
    case _ => None
  }

  /** The name of the file recording the new name of old object `name`. */
  function RecordName(name: string): string {
    name + ".new"
  }

  /** A record name always carries a dot, and distinct objects have
      distinct record names. */
  lemma RecordNameShape(name: string, other: string)
    ensures '.' in RecordName(name)
    ensures RecordName(name) == RecordName(other) ==> name == other
  {
    assert RecordName(name)[|name|] == '.';
    if RecordName(name) == RecordName(other) {
      assert |name| == |other|;
      assert name == RecordName(name)[..|name|];
      assert other == RecordName(other)[..|other|];
    }
  }

  /** `fs'` differs from `fs` only by new objects in `objects` and by files
      of `objects-v1` whose name has a dot: the old objects, the
      revisions, the index and every existing object stay as they are. */
  ghost predicate Confined(fs: Fs, fs': Fs) {
    && fs'.index == fs.index && fs'.outputs == fs.outputs && fs'.faults == fs.faults
    && fs'.areas.Keys == fs.areas.Keys
    && (Revisions in fs.areas ==> fs'.areas[Revisions] == fs.areas[Revisions])
    && (ObjectsV1 in fs.areas ==> fs'.areas[ObjectsV1].Keys == fs.areas[ObjectsV1].Keys)
    && (forall s, n | FileExists(fs, Objects, s, n) ::
          FileExists(fs', Objects, s, n) && fs'.areas[Objects][s][n] == fs.areas[Objects][s][n])
    && (forall s, n | '.' !in n ::
          FileExists(fs, ObjectsV1, s, n) <==> FileExists(fs', ObjectsV1, s, n))
    && (forall s, n | '.' !in n && FileExists(fs, ObjectsV1, s, n) ::
          fs'.areas[ObjectsV1][s][n] == fs.areas[ObjectsV1][s][n])
  }

  lemma ConfinedTransitive(a: Fs, b: Fs, c: Fs)
    requires Confined(a, b) && Confined(b, c)
    ensures Confined(a, c)
  {
  }

  /** The object stored under `h` in shard `s` is raw bytes that inflate
      to a value whose scheme-2 hash is `h`, and `s` is the shard of `h`. */
  ghost predicate Addressed(fs: Fs, codec: Codec, s: string, h: string)
    requires FileExists(fs, Objects, s, h)
  {
    var c := fs.areas[Objects][s][h];
    && |h| >= 2 && s == Commons.ObjectShard(h)
    && c.Raw? && codec.decompress(c.bytes).Some?
    && Commons.ObjectHash(codec, codec.decompress(c.bytes).value, 2) == h
  }

  /** Every object of the new store is named by the hash of its content. */
  ghost predicate ContentAddressed(fs: Fs, codec: Codec) {
    forall s, h | FileExists(fs, Objects, s, h) :: Addressed(fs, codec, s, h)
  }

  /** After old object `name` of shard `shard` was copied from `fs` to
      `fs'`: it inflates in `fs`, its record in `fs'` is readable and holds
      the scheme-2 hash of its bytes, and the new store has that object. */
  ghost predicate Recorded(fs: Fs, fs': Fs, codec: Codec, shard: string, name: string) {
    Inflated(fs, codec, shard, name).Some? &&
    var h := Commons.ObjectHash(codec, Inflated(fs, codec, shard, name).value, 2);
    && |h| >= 2
    && FileLoc(ObjectsV1, shard, RecordName(name)) !in fs'.faults
    && FileExists(fs', ObjectsV1, shard, RecordName(name))
    && fs'.areas[ObjectsV1][shard][RecordName(name)] == Content.Text(h)
    && FileExists(fs', Objects, Commons.ObjectShard(h), h)
  }

  /** Lines 128-142 of `copy_objects`: hash the inflated bytes of old
      object `name` with SHA-256 (a panic when the digest is too short to
      shard), put them into the new store under that hash, and write the
      hash into the object's record file (SavingFileFailed). */
  function StoreAndRecord(fs: Fs, codec: Codec, shard: string, name: string, values: seq<byte>): (r: Step<Unit>)
    ensures r.result.Err? ==> r.result.error == Panic || r.result.error == SavingFileFailed
    ensures r.result.Ok? ==>
              var h := Commons.ObjectHash(codec, values, 2);
              && |h| >= 2
              && FileLoc(ObjectsV1, shard, RecordName(name)) !in r.fs.faults
              && FileExists(r.fs, ObjectsV1, shard, RecordName(name))
              && r.fs.areas[ObjectsV1][shard][RecordName(name)] == Content.Text(h)
              && FileExists(r.fs, Objects, Commons.ObjectShard(h), h)
    ensures Confined(fs, r.fs)
    ensures forall s, n | (s, n) != (shard, RecordName(name)) && FileExists(fs, ObjectsV1, s, n) ::
              FileExists(r.fs, ObjectsV1, s, n) && r.fs.areas[ObjectsV1][s][n] == fs.areas[ObjectsV1][s][n]
  {
    RecordNameShape(name, name);
    var hash := Commons.ObjectHash(codec, values, 2);
    if |hash| < 2 then Step(fs, Err(Panic))
    else
      var saved := Commons.SaveObject(fs, codec, values, hash);
      if saved.result.Err? then saved
      else
        match WriteFile(saved.fs, ObjectsV1, shard, RecordName(name), Content.Text(hash))
        case None => Step(saved.fs, Err(SavingFileFailed))
        case Some(written) => Step(written, Ok(Unit))
  }

  /** Lines 114-142 of `copy_objects`, for one old object: read and inflate
      it (LoadingFileFailed), then store it under its new name and record
      that name. */
  function CopyObject(fs: Fs, codec: Codec, shard: string, name: string): (r: Step<Unit>)
    ensures r.result == Err(LoadingFileFailed) <==> Inflated(fs, codec, shard, name).None?
    ensures r.result.Err? ==> r.result.error in {LoadingFileFailed, Panic, SavingFileFailed}
    ensures r.result.Ok? ==> Recorded(fs, r.fs, codec, shard, name)
    ensures Confined(fs, r.fs)
    ensures forall s, n | (s, n) != (shard, RecordName(name)) && FileExists(fs, ObjectsV1, s, n) ::
              FileExists(r.fs, ObjectsV1, s, n) && r.fs.areas[ObjectsV1][s][n] == fs.areas[ObjectsV1][s][n]
  {
    match Inflated(fs, codec, shard, name)
    case None => Step(fs, Err(LoadingFileFailed))
    case Some(values) => StoreAndRecord(fs, codec, shard, name, values)
  }

  /** The inner loop of `copy_objects`: copy the listed objects of one
      shard in listing order, stopping at the first error. */
  function CopyFiles(fs: Fs, codec: Codec, shard: string, names: seq<string>): (r: Step<Unit>)
    ensures r.result.Err? ==> r.result.error in {LoadingFileFailed, Panic, SavingFileFailed}
    ensures Confined(fs, r.fs)
    ensures forall s, n | s != shard && FileExists(fs, ObjectsV1, s, n) ::
              FileExists(r.fs, ObjectsV1, s, n) && r.fs.areas[ObjectsV1][s][n] == fs.areas[ObjectsV1][s][n]
    decreases |names|
  {
    if |names| == 0 then Step(fs, Ok(Unit))
    else
      var first := CopyObject(fs, codec, shard, names[0]);
      if first.result.Err? then first
      else
        var rest := CopyFiles(first.fs, codec, shard, names[1..]);
        ConfinedTransitive(fs, first.fs, rest.fs);
        rest
  }

  /** The outer loop of `copy_objects`: for each listed shard directory,
      list it (ReadingDirectoryFailed when that fails) and copy its objects. */
  function CopyShards(fs: Fs, codec: Codec, shards: seq<string>, order: set<string> -> seq<string>): (r: Step<Unit>)
    ensures r.result.Err? ==> r.result.error in {ReadingDirectoryFailed, LoadingFileFailed, Panic, SavingFileFailed}
    ensures Confined(fs, r.fs)
    decreases |shards|
  {
    if |shards| == 0 then Step(fs, Ok(Unit))
    else
      var shard := shards[0];
      if ShardLoc(ObjectsV1, shard) in fs.faults || !ShardExists(fs, ObjectsV1, shard) then
        Step(fs, Err(ReadingDirectoryFailed))
      else
        var copied := CopyFiles(fs, codec, shard, order(fs.areas[ObjectsV1][shard].Keys));
        if copied.result.Err? then copied
        else
          var rest := CopyShards(copied.fs, codec, shards[1..], order);
          ConfinedTransitive(fs, copied.fs, rest.fs);
          rest
  }

  /** `copy_objects`: list the shard directories of `objects-v1` once
      (ReadingDirectoryFailed when that fails), then copy them in listing
      order; `order` is the order in which a directory lists its entries. */
  function CopyObjects(fs: Fs, codec: Codec, order: set<string> -> seq<string>): (r: Step<Unit>)
    ensures AreaLoc(ObjectsV1) in fs.faults || ObjectsV1 !in fs.areas ==>
              r == Step(fs, Err(ReadingDirectoryFailed))
    ensures r.result.Err? ==> r.result.error in {ReadingDirectoryFailed, LoadingFileFailed, Panic, SavingFileFailed}
    ensures Confined(fs, r.fs)
  {
    if AreaLoc(ObjectsV1) in fs.faults || ObjectsV1 !in fs.areas then Step(fs, Err(ReadingDirectoryFailed))
    else CopyShards(fs, codec, order(fs.areas[ObjectsV1].Keys), order)
  }

  // What the copy achieves: every old object is recorded

  /** Old objects without a dot in their name read the same in two states
      one of which is confined to the other. */
  lemma InflatedConfined(a: Fs, b: Fs, codec: Codec, s: string, n: string)
    requires Confined(a, b) && '.' !in n
    ensures Inflated(a, codec, s, n) == Inflated(b, codec, s, n)
  {
  }

  /** A record made from `b` is one made from `a` when `b` is confined to
      `a`. */
  lemma RecordedRebase(a: Fs, b: Fs, c: Fs, codec: Codec, s: string, n: string)
    requires Confined(a, b) && '.' !in n
    requires Recorded(b, c, codec, s, n)
    ensures Recorded(a, c, codec, s, n)
  {
    InflatedConfined(a, b, codec, s, n);
  }

  /** Copying one object keeps the record of every other object. */
  lemma CopyObjectKeepsRecorded(fs: Fs, codec: Codec, shard: string, name: string,
                                orig: Fs, s: string, n: string)
    requires (s, n) != (shard, name)
    requires Recorded(orig, fs, codec, s, n)
    ensures Recorded(orig, CopyObject(fs, codec, shard, name).fs, codec, s, n)
  {
    RecordNameShape(n, name);
  }

  lemma {:induction false} CopyFilesKeepsRecorded(fs: Fs, codec: Codec, shard: string, names: seq<string>,
                                                  orig: Fs, s: string, n: string)
    requires s != shard || n !in names
    requires Recorded(orig, fs, codec, s, n)
    ensures Recorded(orig, CopyFiles(fs, codec, shard, names).fs, codec, s, n)
    decreases |names|
  {
    if |names| > 0 {
      var first := CopyObject(fs, codec, shard, names[0]);
      CopyObjectKeepsRecorded(fs, codec, shard, names[0], orig, s, n);
      if first.result.Ok? {
        assert n in names[1..] ==> n in names;
        CopyFilesKeepsRecorded(first.fs, codec, shard, names[1..], orig, s, n);
      }
    }
  }

  /** When a shard's objects are all copied, every listed object whose name
      has no dot is recorded. */
  lemma {:induction false} CopyFilesRecords(fs: Fs, codec: Codec, shard: string, names: seq<string>)
    requires Distinct(names)
    ensures var r := CopyFiles(fs, codec, shard, names);
            r.result.Ok? ==> forall i | 0 <= i < |names| && '.' !in names[i] :: Recorded(fs, r.fs, codec, shard, names[i])
    decreases |names|
  {
    if |names| > 0 {
      var first := CopyObject(fs, codec, shard, names[0]);
      if first.result.Ok? {
        var tail := names[1..];
        DistinctTail(names);
        CopyFilesRecords(first.fs, codec, shard, tail);
        var r := CopyFiles(first.fs, codec, shard, tail);
        if r.result.Ok? {
          CopyFilesKeepsRecorded(first.fs, codec, shard, tail, fs, shard, names[0]);
          forall i | 1 <= i < |names| && '.' !in names[i]
            ensures Recorded(fs, r.fs, codec, shard, names[i])
          {
            assert names[i] == tail[i - 1];
            RecordedRebase(fs, first.fs, r.fs, codec, shard, names[i]);
          }
        }
      }
    }
  }

  lemma {:induction false} CopyShardsKeepsRecorded(fs: Fs, codec: Codec, shards: seq<string>,
                                                   order: set<string> -> seq<string>,
                                                   orig: Fs, s: string, n: string)
    requires s !in shards
    requires Recorded(orig, fs, codec, s, n)
    ensures Recorded(orig, CopyShards(fs, codec, shards, order).fs, codec, s, n)
    decreases |shards|
  {
    if |shards| > 0 {
      var shard := shards[0];
      if ShardLoc(ObjectsV1, shard) !in fs.faults && ShardExists(fs, ObjectsV1, shard) {
        var names := order(fs.areas[ObjectsV1][shard].Keys);
        var copied := CopyFiles(fs, codec, shard, names);
        CopyFilesKeepsRecorded(fs, codec, shard, names, orig, s, n);
        if copied.result.Ok? {
          assert s !in shards[1..] by {
            forall j | 0 <= j < |shards[1..]| ensures shards[1..][j] != s {
              assert shards[1..][j] == shards[j + 1];
            }
          }
          CopyShardsKeepsRecorded(copied.fs, codec, shards[1..], order, orig, s, n);
        }
      }
    }
  }

  /** When the listed shards are all copied, every object without a dot
      in its name in any of them is recorded. */
  lemma {:induction false} CopyShardsRecords(fs: Fs, codec: Codec, shards: seq<string>, order: set<string> -> seq<string>)
    requires Distinct(shards)
    requires forall ss :: Enumerates(order(ss), ss)
    ensures var r := CopyShards(fs, codec, shards, order);
            r.result.Ok? ==>
              forall j, n | 0 <= j < |shards| && '.' !in n && FileExists(fs, ObjectsV1, shards[j], n) ::
                Recorded(fs, r.fs, codec, shards[j], n)
    decreases |shards|
  {
    var r := CopyShards(fs, codec, shards, order);
    if |shards| > 0 && r.result.Ok? {
      var shard := shards[0];
      var names := order(fs.areas[ObjectsV1][shard].Keys);
      var copied := CopyFiles(fs, codec, shard, names);
      var tail := shards[1..];
      assert r == CopyShards(copied.fs, codec, tail, order);
      DistinctTail(shards);
      CopyFilesRecords(fs, codec, shard, names);
      CopyShardsRecords(copied.fs, codec, tail, order);
      forall j, n | 0 <= j < |shards| && '.' !in n && FileExists(fs, ObjectsV1, shards[j], n)
        ensures Recorded(fs, r.fs, codec, shards[j], n)
      {
        if j == 0 {
          assert n in names;
          var i :| 0 <= i < |names| && names[i] == n;
          CopyShardsKeepsRecorded(copied.fs, codec, tail, order, fs, shard, n);
        } else {
          assert shards[j] == tail[j - 1];
          assert FileExists(copied.fs, ObjectsV1, tail[j - 1], n);
          RecordedRebase(fs, copied.fs, r.fs, codec, shards[j], n);
        }
      }
    }
  }

  /** When `copy_objects` succeeds, every old object without a dot in its
      name is recorded: its record names the scheme-2 hash of its bytes, and
      the new store holds that object. */
  lemma CopyObjectsRecords(fs: Fs, codec: Codec, order: set<string> -> seq<string>)
    requires forall ss :: Enumerates(order(ss), ss)
    ensures var r := CopyObjects(fs, codec, order);
            r.result.Ok? ==>
              forall s, n | '.' !in n && FileExists(fs, ObjectsV1, s, n) :: Recorded(fs, r.fs, codec, s, n)
  {
    var r := CopyObjects(fs, codec, order);
    if r.result.Ok? {
      var shards := order(fs.areas[ObjectsV1].Keys);
      CopyShardsRecords(fs, codec, shards, order);
      forall s, n | '.' !in n && FileExists(fs, ObjectsV1, s, n)
        ensures Recorded(fs, r.fs, codec, s, n)
      {
        assert s in shards;
        var j :| 0 <= j < |shards| && shards[j] == s;
      }
    }
  }

  // What the copy keeps: the new store stays content-addressed

  /** Objects stay content-addressed when the new store is left alone. */
  lemma StoreUntouched(a: Fs, b: Fs, codec: Codec)
    requires ContentAddressed(a, codec)
    requires Objects in a.areas <==> Objects in b.areas
    requires Objects in a.areas ==> b.areas[Objects] == a.areas[Objects]
    ensures ContentAddressed(b, codec)
  {
    forall s, h | FileExists(b, Objects, s, h)
      ensures Addressed(b, codec, s, h)
    {
      assert FileExists(a, Objects, s, h);
    }
  }

  /** Saving an object under its scheme-2 hash keeps the store
      content-addressed. */
  lemma SaveObjectAddressed(fs: Fs, codec: Codec, values: seq<byte>, hash: string)
    requires WellFormedCodec(codec) && ContentAddressed(fs, codec)
    requires hash == Commons.ObjectHash(codec, values, 2) && |hash| >= 2
    ensures ContentAddressed(Commons.SaveObject(fs, codec, values, hash).fs, codec)
  {
    var saved := Commons.SaveObject(fs, codec, values, hash);
    var shard := Commons.ObjectShard(hash);
    if !FileExists(fs, Objects, shard, hash) {
      forall s, h | FileExists(saved.fs, Objects, s, h)
        ensures Addressed(saved.fs, codec, s, h)
      {
        if (s, h) == (shard, hash) {
          assert saved.fs.areas[Objects][s][h] == Raw(codec.compress(values));
          assert codec.decompress(codec.compress(values)) == Some(values);
        } else {
          assert FileExists(fs, Objects, s, h);
          assert saved.fs.areas[Objects][s][h] == fs.areas[Objects][s][h];
          assert Addressed(fs, codec, s, h);
        }
      }
    }
  }

  lemma StoreAndRecordAddressed(fs: Fs, codec: Codec, shard: string, name: string, values: seq<byte>)
    requires WellFormedCodec(codec) && ContentAddressed(fs, codec)
    ensures ContentAddressed(StoreAndRecord(fs, codec, shard, name, values).fs, codec)
  {
    var hash := Commons.ObjectHash(codec, values, 2);
    if |hash| >= 2 {
      var saved := Commons.SaveObject(fs, codec, values, hash);
      SaveObjectAddressed(fs, codec, values, hash);
      if saved.result.Ok? {
        var written := WriteFile(saved.fs, ObjectsV1, shard, RecordName(name), Content.Text(hash));
        if written.Some? {
          StoreUntouched(saved.fs, written.value, codec);
        }
      }
    }
  }

  lemma CopyObjectAddressed(fs: Fs, codec: Codec, shard: string, name: string)
    requires WellFormedCodec(codec) && ContentAddressed(fs, codec)
    ensures ContentAddressed(CopyObject(fs, codec, shard, name).fs, codec)
  {
    var values := Inflated(fs, codec, shard, name);
    if values.Some? {
      StoreAndRecordAddressed(fs, codec, shard, name, values.value);
    }
  }

  lemma {:induction false} CopyFilesAddressed(fs: Fs, codec: Codec, shard: string, names: seq<string>)
    requires WellFormedCodec(codec) && ContentAddressed(fs, codec)
    ensures ContentAddressed(CopyFiles(fs, codec, shard, names).fs, codec)
    decreases |names|
  {
    if |names| > 0 {
      var first := CopyObject(fs, codec, shard, names[0]);
      CopyObjectAddressed(fs, codec, shard, names[0]);
      if first.result.Ok? {
        CopyFilesAddressed(first.fs, codec, shard, names[1..]);
      }
    }
  }

  lemma {:induction false} CopyShardsAddressed(fs: Fs, codec: Codec, shards: seq<string>, order: set<string> -> seq<string>)
    requires WellFormedCodec(codec) && ContentAddressed(fs, codec)
    ensures ContentAddressed(CopyShards(fs, codec, shards, order).fs, codec)
    decreases |shards|
  {
    if |shards| > 0 {
      var shard := shards[0];
      if ShardLoc(ObjectsV1, shard) !in fs.faults && ShardExists(fs, ObjectsV1, shard) {
        var copied := CopyFiles(fs, codec, shard, order(fs.areas[ObjectsV1][shard].Keys));
        CopyFilesAddressed(fs, codec, shard, order(fs.areas[ObjectsV1][shard].Keys));
        if copied.result.Ok? {
          CopyShardsAddressed(copied.fs, codec, shards[1..], order);
        }
      }
    }
  }

  // ---------------------------------------------------------------------
  // Rewriting the revisions

  /** Lines 177-182 of `update_entries`: the new name recorded for old hash
      `hash`, read from `<area>/<hash[0..2]>/<hash>.new`. A hash too short to
      shard is a panic; a missing, unreadable or non-text record is
      LoadingFileFailed. */
  function RecordedName(fs: Fs, area: Area, hash: string): (r: Result<string>)
    ensures r == Err(Panic) <==> |hash| < 2
    ensures r.Err? ==> r.error == Panic || r.error == LoadingFileFailed
    ensures |hash| >= 2 ==>
              (r.Ok? <==> && ReadFile(fs, area, hash[..2], RecordName(hash)).Some?
                          && ReadFile(fs, area, hash[..2], RecordName(hash)).value.Text?)
    ensures r.Ok? ==> ReadFile(fs, area, hash[..2], RecordName(hash)) == Some(Content.Text(r.value))
  {
    if |hash| < 2 then Err(Panic)
    else
      match ReadFile(fs, area, hash[..2], RecordName(hash))
      case Some(Text(name)) => Ok(name)
      case _ => Err(LoadingFileFailed)
  }

  /** Lines 175-190: every entry with its hash replaced by the recorded new
      name, path and permission kept, in the same order; the first entry
      whose record fails decides the error. */
  function RemapEntries(fs: Fs, area: Area, es: seq<Entry>): (r: Result<seq<Entry>>)
    ensures r.Ok? <==> forall i | 0 <= i < |es| :: RecordedName(fs, area, es[i].hash).Ok?
    ensures r.Ok? ==> |r.value| == |es|
    ensures r.Ok? ==> forall i | 0 <= i < |es| ::
              r.value[i] == Entry(es[i].path, RecordedName(fs, area, es[i].hash).value, es[i].permission)
    ensures r.Err? ==> r.error == Panic || r.error == LoadingFileFailed
    ensures |es| > 0 && RecordedName(fs, area, es[0].hash).Err? ==> r == Err(RecordedName(fs, area, es[0].hash).error)
    decreases |es|
  {
    if |es| == 0 then Ok([])
    else
      match RecordedName(fs, area, es[0].hash)
      case Err(e) => Err(e)
      case Ok(name) =>
        match RemapEntries(fs, area, es[1..])
        case Err(e) => Err(e)
        case Ok(rest) =>
          assert forall i | 1 <= i < |es| :: es[i] == es[1..][i - 1];
          Ok([Entry(es[0].path, name, es[0].permission)] + rest)
  }

  /** A loaded revision with its entries remapped; its time and
      description are kept. */
  function RemappedRevision(fs: Fs, area: Area, n: int): (r: Result<Revision>)
    ensures RepositoryIndex.LoadRevision(fs, n).Err? ==> r == Err(RepositoryIndex.LoadRevision(fs, n).error)
    ensures r.Ok? ==>
              && RepositoryIndex.LoadRevision(fs, n).Ok?
              && var rev := RepositoryIndex.LoadRevision(fs, n).value;
              && RemapEntries(fs, area, rev.entries).Ok?
              && r.value == Revision(rev.committed, RemapEntries(fs, area, rev.entries).value, rev.description)
    ensures RepositoryIndex.LoadRevision(fs, n).Ok? ==>
              (r.Ok? <==> RemapEntries(fs, area, RepositoryIndex.LoadRevision(fs, n).value.entries).Ok?)
  {
    match RepositoryIndex.LoadRevision(fs, n)
    case Err(e) => Err(e)
    case Ok(rev) =>
      match RemapEntries(fs, area, rev.entries)
      case Err(e) => Err(e)
      case Ok(es) => Ok(rev.(entries := es))
  }

  /** One pass of the loop of `update_entries`: load the revision, remap its
      entries, and save it back in place. */
  function UpdateRevision(fs: Fs, area: Area, n: int): (r: Step<Unit>)
    ensures RemappedRevision(fs, area, n).Err? ==> r == Step(fs, Err(RemappedRevision(fs, area, n).error))
    ensures RemappedRevision(fs, area, n).Ok? && r.result.Err? ==> r.result.error == RevisionSavingFailed
    ensures r.result.Err? ==> r.fs == fs
    ensures r.result.Ok? ==>
              && RemappedRevision(fs, area, n).Ok?
              && RepositoryIndex.LoadRevision(r.fs, n) == Ok(RemappedRevision(fs, area, n).value)
              && SameExcept(fs, r.fs, Revisions, RepositoryIndex.RevisionShard(n), RepositoryIndex.RevisionFileName(n))
  {
    match RemappedRevision(fs, area, n)
    case Err(e) => Step(fs, Err(e))
    case Ok(rev) => RepositoryIndex.SaveRevision(fs, n, rev)
  }

  /** Only revision files change. */
  ghost predicate OnlyRevisions(fs: Fs, fs': Fs) {
    && fs'.index == fs.index && fs'.outputs == fs.outputs && fs'.faults == fs.faults
    && fs'.areas.Keys == fs.areas.Keys
    && forall a | a in fs.areas && a != Revisions :: fs'.areas[a] == fs.areas[a]
  }

  /** `update_entries`: rewrite the revisions of the index in index order,
      stopping at the first error; the revisions already rewritten stay
      rewritten. */
  function UpdateEntries(fs: Fs, area: Area, nums: seq<int>): (r: Step<Unit>)
    ensures OnlyRevisions(fs, r.fs)
    ensures r.result.Err? ==>
              r.result.error in {RevisionLoadingFailed, RevisionDeserializationFailed, Panic,
                                 LoadingFileFailed, RevisionSavingFailed}
    ensures |nums| > 0 && RemappedRevision(fs, area, nums[0]).Err? ==>
              r == Step(fs, Err(RemappedRevision(fs, area, nums[0]).error))
    decreases |nums|
  {
    if |nums| == 0 then Step(fs, Ok(Unit))
    else
      var first := UpdateRevision(fs, area, nums[0]);
      if first.result.Err? then first
      else UpdateEntries(first.fs, area, nums[1..])
  }

  // What the rewrite achieves

  /** Remapping reads only the record area and the faults. */
  lemma {:induction false} RemapUnaffected(fs: Fs, fs': Fs, area: Area, es: seq<Entry>)
    requires fs'.faults == fs.faults
    requires area in fs.areas <==> area in fs'.areas
    requires area in fs.areas ==> fs'.areas[area] == fs.areas[area]
    ensures RemapEntries(fs', area, es) == RemapEntries(fs, area, es)
    decreases |es|
  {
    if |es| > 0 {
      assert RecordedName(fs', area, es[0].hash) == RecordedName(fs, area, es[0].hash);
      RemapUnaffected(fs, fs', area, es[1..]);
    }
  }

  /** Saving one revision leaves every other revision as it was. */
  lemma UpdateRevisionKeepsOthers(fs: Fs, area: Area, n: int, m: int)
    requires m != n
    ensures RepositoryIndex.LoadRevision(UpdateRevision(fs, area, n).fs, m) == RepositoryIndex.LoadRevision(fs, m)
  {
    if RepositoryIndex.RevisionShard(m) == RepositoryIndex.RevisionShard(n)
       && RepositoryIndex.RevisionFileName(m) == RepositoryIndex.RevisionFileName(n) {
      RepositoryIndex.RevisionLocationInjective(m, n);
    }
  }

  /** Saving one revision leaves every other revision, and every remapping
      through another area, as it was. */
  lemma UpdateRevisionFrame(fs: Fs, area: Area, n: int, m: int)
    requires area != Revisions && m != n
    ensures var r := UpdateRevision(fs, area, n);
            && RepositoryIndex.LoadRevision(r.fs, m) == RepositoryIndex.LoadRevision(fs, m)
            && RemappedRevision(r.fs, area, m) == RemappedRevision(fs, area, m)
  {
    var r := UpdateRevision(fs, area, n);
    UpdateRevisionKeepsOthers(fs, area, n, m);
    if r.result.Ok? && RepositoryIndex.LoadRevision(fs, m).Ok? {
      RemapUnaffected(fs, r.fs, area, RepositoryIndex.LoadRevision(fs, m).value.entries);
    }
  }

  /** Revisions not in the list are left alone. */
  lemma {:induction false} UpdateEntriesKeeps(fs: Fs, area: Area, nums: seq<int>, m: int)
    requires area != Revisions && m !in nums
    ensures RepositoryIndex.LoadRevision(UpdateEntries(fs, area, nums).fs, m) == RepositoryIndex.LoadRevision(fs, m)
    decreases |nums|
  {
    if |nums| > 0 {
      UpdateRevisionFrame(fs, area, nums[0], m);
      var first := UpdateRevision(fs, area, nums[0]);
      if first.result.Ok? {
        assert m !in nums[1..] by {
          forall j | 0 <= j < |nums| - 1 ensures nums[1..][j] != m {
            assert nums[1..][j] == nums[j + 1];
          }
        }
        UpdateEntriesKeeps(first.fs, area, nums[1..], m);
      }
    }
  }

  /** When `update_entries` succeeds over distinct revision numbers, each of
      them loads as its old self with every entry remapped. */
  lemma {:induction false} UpdateEntriesMeaning(fs: Fs, area: Area, nums: seq<int>)
    requires area != Revisions && Distinct(nums)
    ensures var r := UpdateEntries(fs, area, nums);
            r.result.Ok? ==>
              forall k | 0 <= k < |nums| ::
                && RemappedRevision(fs, area, nums[k]).Ok?
                && RepositoryIndex.LoadRevision(r.fs, nums[k]) == Ok(RemappedRevision(fs, area, nums[k]).value)
    decreases |nums|
  {
    var r := UpdateEntries(fs, area, nums);
    if |nums| > 0 && r.result.Ok? {
      var first := UpdateRevision(fs, area, nums[0]);
      var tail := nums[1..];
      assert r == UpdateEntries(first.fs, area, tail);
      DistinctTail(nums);
      UpdateEntriesMeaning(first.fs, area, tail);
      forall k | 0 <= k < |nums|
        ensures RemappedRevision(fs, area, nums[k]).Ok?
        ensures RepositoryIndex.LoadRevision(r.fs, nums[k]) == Ok(RemappedRevision(fs, area, nums[k]).value)
      {
        if k == 0 {
          UpdateEntriesKeeps(first.fs, area, tail, nums[0]);
        } else {
          assert nums[k] == tail[k - 1];
          UpdateRevisionFrame(fs, area, nums[0], nums[k]);
        }
      }
    }
  }

  /** Where `update_entries` stops: the revisions before position `k` are
      rewritten, those from `k` on are as they were, and the error is that
      of remapping revision `k`, or RevisionSavingFailed when only saving
      it failed. */
  ghost predicate StoppedAt(fs: Fs, fs': Fs, area: Area, nums: seq<int>, k: int, e: Error)
    requires 0 <= k < |nums|
  {
    && (forall j | 0 <= j < k ::
          RemappedRevision(fs, area, nums[j]).Ok?
          && RepositoryIndex.LoadRevision(fs', nums[j]) == Ok(RemappedRevision(fs, area, nums[j]).value))
    && (forall j | k <= j < |nums| :: RepositoryIndex.LoadRevision(fs', nums[j]) == RepositoryIndex.LoadRevision(fs, nums[j]))
    && (RemappedRevision(fs, area, nums[k]).Err? ==> e == RemappedRevision(fs, area, nums[k]).error)
    && (RemappedRevision(fs, area, nums[k]).Ok? ==> e == RevisionSavingFailed)
  }

  /** A failed `update_entries` over distinct revision numbers stopped at
      one of them: the revisions before it stay rewritten, it and the rest
      are not saved. */
  lemma {:induction false} UpdateEntriesStops(fs: Fs, area: Area, nums: seq<int>)
    requires area != Revisions && Distinct(nums)
    ensures var r := UpdateEntries(fs, area, nums);
            r.result.Err? ==> exists k | 0 <= k < |nums| :: StoppedAt(fs, r.fs, area, nums, k, r.result.error)
    decreases |nums|
  {
    var r := UpdateEntries(fs, area, nums);
    if |nums| > 0 && r.result.Err? {
      var first := UpdateRevision(fs, area, nums[0]);
      if first.result.Err? {
        assert StoppedAt(fs, r.fs, area, nums, 0, r.result.error);
      } else {
        var tail := nums[1..];
        DistinctTail(nums);
        assert r == UpdateEntries(first.fs, area, tail);
        UpdateEntriesStops(first.fs, area, tail);
        var k :| 0 <= k < |tail| && StoppedAt(first.fs, r.fs, area, tail, k, r.result.error);
        UpdateEntriesKeeps(first.fs, area, tail, nums[0]);
        forall j | 1 <= j < |nums|
          ensures RemappedRevision(first.fs, area, nums[j]) == RemappedRevision(fs, area, nums[j])
          ensures RepositoryIndex.LoadRevision(first.fs, nums[j]) == RepositoryIndex.LoadRevision(fs, nums[j])
        {
          UpdateRevisionFrame(fs, area, nums[0], nums[j]);
        }
        StoppedAtShift(fs, first.fs, r.fs, area, nums, k, r.result.error);
      }
    }
  }

  lemma StoppedAtShift(fs: Fs, mid: Fs, fs': Fs, area: Area, nums: seq<int>, k: int, e: Error)
    requires 0 <= k < |nums| - 1
    requires RemappedRevision(fs, area, nums[0]).Ok?
    requires RepositoryIndex.LoadRevision(fs', nums[0]) == Ok(RemappedRevision(fs, area, nums[0]).value)
    requires forall j | 1 <= j < |nums| ::
               && RemappedRevision(mid, area, nums[j]) == RemappedRevision(fs, area, nums[j])
               && RepositoryIndex.LoadRevision(mid, nums[j]) == RepositoryIndex.LoadRevision(fs, nums[j])
    requires StoppedAt(mid, fs', area, nums[1..], k, e)
    ensures StoppedAt(fs, fs', area, nums, k + 1, e)
  {
    assert forall j | 1 <= j < |nums| :: nums[1..][j - 1] == nums[j];
  }

  /** `update_entries` succeeds over distinct revision numbers when every
      revision loads and every entry's record can be read. */
  lemma {:induction false} UpdateEntriesSucceeds(fs: Fs, area: Area, nums: seq<int>)
    requires area != Revisions && Distinct(nums)
    requires forall k | 0 <= k < |nums| :: RemappedRevision(fs, area, nums[k]).Ok?
    ensures UpdateEntries(fs, area, nums).result.Ok?
    decreases |nums|
  {
    if |nums| > 0 {
      var n := nums[0];
      assert RemappedRevision(fs, area, n).Ok?;
      assert FileExists(fs, Revisions, RepositoryIndex.RevisionShard(n), RepositoryIndex.RevisionFileName(n));
      var first := UpdateRevision(fs, area, n);
      var tail := nums[1..];
      DistinctTail(nums);
      forall k | 0 <= k < |tail|
        ensures RemappedRevision(first.fs, area, tail[k]).Ok?
      {
        assert tail[k] == nums[k + 1];
        UpdateRevisionFrame(fs, area, n, tail[k]);
      }
      UpdateEntriesSucceeds(first.fs, area, tail);
    }
  }

  // ---------------------------------------------------------------------
  // The whole command

  /** Lines 40-65 of `execute`: prepare, then copy the objects. The
      loaded index is the result. */
  function Migrate(fs: Fs, codec: Codec, order: set<string> -> seq<string>): (r: Step<Repository>)
    ensures RepositoryIndex.LoadRepository(fs).Err? <==> r.result == Err(LoadingRepositoryFailed)
    ensures r.result.Ok? ==>
              && RepositoryIndex.LoadRepository(fs) == Ok(r.result.value)
              && r.result.value.version == 1
              && MoveStore(fs).Some?
              && r.fs.index == fs.index && r.fs.faults == fs.faults
              && (Revisions in r.fs.areas <==> Revisions in fs.areas)
              && (Revisions in fs.areas ==> r.fs.areas[Revisions] == fs.areas[Revisions])
  {
    var prepared := Prepare(fs);
    if prepared.result.Err? then prepared
    else
      var copied := CopyObjects(prepared.fs, codec, order);
      if copied.result.Err? then Step(copied.fs, Err(copied.result.error))
      else Step(copied.fs, prepared.result)
  }

  /** `UpgradeCommand::execute` with the records read from `recordArea`. */
  function UpgradeWith(fs: Fs, codec: Codec, order: set<string> -> seq<string>, recordArea: Area): (r: Step<Unit>)
    ensures RepositoryIndex.LoadRepository(fs).Err? <==> r.result == Err(LoadingRepositoryFailed)
    ensures RepositoryIndex.LoadRepository(fs).Ok? && RepositoryIndex.LoadRepository(fs).value.version != 1 ==>
              r == Step(fs, Err(General))
    ensures r.fs.index == fs.index && r.fs.outputs == fs.outputs
  {
    var migrated := Migrate(fs, codec, order);
    if migrated.result.Err? then Step(migrated.fs, Err(migrated.result.error))
    else UpdateEntries(migrated.fs, recordArea, migrated.result.value.revisionNumbers)
  }

  /** The command as written: the records are looked up in `objects`
      (line 178), although `copy_objects` writes them next to the old
      objects in `objects-v1` (lines 132-139). */
  function UpgradeAsWritten(fs: Fs, codec: Codec, order: set<string> -> seq<string>): (r: Step<Unit>)
    ensures RepositoryIndex.LoadRepository(fs).Err? <==> r.result == Err(LoadingRepositoryFailed)
    ensures RepositoryIndex.LoadRepository(fs).Ok? && RepositoryIndex.LoadRepository(fs).value.version != 1 ==>
              r == Step(fs, Err(General))
    ensures r.fs.index == fs.index && r.fs.outputs == fs.outputs
  {
    UpgradeWith(fs, codec, order, Objects)
  }

  /** The command as evidently intended: the records are looked up where
      they were written. */
  function UpgradeExecute(fs: Fs, codec: Codec, order: set<string> -> seq<string>): (r: Step<Unit>)
    ensures RepositoryIndex.LoadRepository(fs).Err? <==> r.result == Err(LoadingRepositoryFailed)
    ensures RepositoryIndex.LoadRepository(fs).Ok? && RepositoryIndex.LoadRepository(fs).value.version != 1 ==>
              r == Step(fs, Err(General))
    ensures r.fs.index == fs.index && r.fs.outputs == fs.outputs
  {
    UpgradeWith(fs, codec, order, ObjectsV1)
  }

  /** After a successful migration the new store is content-addressed. */
  lemma MigrateAddressed(fs: Fs, codec: Codec, order: set<string> -> seq<string>)
    requires WellFormedCodec(codec)
    ensures var m := Migrate(fs, codec, order);
            m.result.Ok? ==> ContentAddressed(m.fs, codec)
  {
    var prepared := Prepare(fs);
    if prepared.result.Ok? {
      assert ContentAddressed(prepared.fs, codec);
      var order' := order;
      if AreaLoc(ObjectsV1) !in prepared.fs.faults && ObjectsV1 in prepared.fs.areas {
        CopyShardsAddressed(prepared.fs, codec, order(prepared.fs.areas[ObjectsV1].Keys), order');
      }
    }
  }

  /** An old object of the repository: a name without a dot stored in the
      shard its first two characters name. */
  ghost predicate OldObject(fs: Fs, hash: string) {
    |hash| >= 2 && '.' !in hash && FileExists(fs, Objects, hash[..2], hash)
  }

  /** After a successful migration every old object is recorded. */
  lemma MigrateRecords(fs: Fs, codec: Codec, order: set<string> -> seq<string>, hash: string)
    requires forall ss :: Enumerates(order(ss), ss)
    requires OldObject(fs, hash)
    ensures var m := Migrate(fs, codec, order);
            m.result.Ok? ==> Recorded(MoveStore(fs).value, m.fs, codec, hash[..2], hash)
  {
    var prepared := Prepare(fs);
    if prepared.result.Ok? {
      CopyObjectsRecords(prepared.fs, codec, order);
      var m := Migrate(fs, codec, order);
      if m.result.Ok? {
        assert FileExists(prepared.fs, ObjectsV1, hash[..2], hash);
        assert Recorded(prepared.fs, m.fs, codec, hash[..2], hash);
        assert Inflated(prepared.fs, codec, hash[..2], hash) == Inflated(MoveStore(fs).value, codec, hash[..2], hash);
      }
    }
  }

  /** A content-addressed store holds no record file: every name in it is
      a hex digest, and every record name has a dot. */
  lemma NoRecordInStore(fs: Fs, codec: Codec, hash: string)
    requires WellFormedCodec(codec) && ContentAddressed(fs, codec) && |hash| >= 2
    ensures RecordedName(fs, Objects, hash) == Err(LoadingFileFailed)
  {
    RecordNameShape(hash, hash);
    if FileExists(fs, Objects, hash[..2], RecordName(hash)) {
      assert Addressed(fs, codec, hash[..2], RecordName(hash));
      var c := fs.areas[Objects][hash[..2]][RecordName(hash)];
      Commons.ObjectHashScheme(codec, codec.decompress(c.bytes).value, 2);
      assert false;
    }
  }

  /** The as-written command fails, with LoadingFileFailed, on every
      repository whose first revision has an entry: its record is sought
      in the new store, where every name is a hex digest and so has no
      dot, while every record name has one. */
  lemma AsWrittenFindsNoRecord(fs: Fs, codec: Codec, order: set<string> -> seq<string>)
    requires WellFormedCodec(codec)
    requires Migrate(fs, codec, order).result.Ok?
    requires var nums := Migrate(fs, codec, order).result.value.revisionNumbers;
             && |nums| > 0
             && RepositoryIndex.LoadRevision(fs, nums[0]).Ok?
             && |RepositoryIndex.LoadRevision(fs, nums[0]).value.entries| > 0
             && |RepositoryIndex.LoadRevision(fs, nums[0]).value.entries[0].hash| >= 2
    ensures UpgradeAsWritten(fs, codec, order).result == Err(LoadingFileFailed)
  {
    var m := Migrate(fs, codec, order);
    var nums := m.result.value.revisionNumbers;
    MigrateAddressed(fs, codec, order);
    assert RepositoryIndex.LoadRevision(m.fs, nums[0]) == RepositoryIndex.LoadRevision(fs, nums[0]);
    var hash := RepositoryIndex.LoadRevision(fs, nums[0]).value.entries[0].hash;
    NoRecordInStore(m.fs, codec, hash);
    assert RemappedRevision(m.fs, Objects, nums[0]) == Err(LoadingFileFailed);
  }

  /** What a successful upgrade of revision `n` leaves behind: the revision
      keeps its time, description, and each entry's path and permission,
      and an entry whose hash named an old object now names the scheme-2
      hash of that object's bytes, which the new store holds. */
  ghost predicate Upgraded(fs: Fs, fs': Fs, codec: Codec, n: int) {
    && RepositoryIndex.LoadRevision(fs, n).Ok?
    && RepositoryIndex.LoadRevision(fs', n).Ok?
    && var before := RepositoryIndex.LoadRevision(fs, n).value;
       var after := RepositoryIndex.LoadRevision(fs', n).value;
       && after.committed == before.committed && after.description == before.description
       && |after.entries| == |before.entries|
       && forall i | 0 <= i < |after.entries| :: Carried(fs, fs', codec, before.entries[i], after.entries[i])
  }

  ghost predicate Carried(fs: Fs, fs': Fs, codec: Codec, e: Entry, e': Entry) {
    && e'.path == e.path && e'.permission == e.permission
    && (OldObject(fs, e.hash) ==>
          var c := fs.areas[Objects][e.hash[..2]][e.hash];
          && c.Raw? && codec.decompress(c.bytes).Some?
          && e'.hash == Commons.ObjectHash(codec, codec.decompress(c.bytes).value, 2)
          && |e'.hash| >= 2
          && FileExists(fs', Objects, Commons.ObjectShard(e'.hash), e'.hash))
  }

  /** The remapping of one entry after a successful migration. */
  lemma CarriedEntry(fs: Fs, codec: Codec, order: set<string> -> seq<string>, e: Entry, fs': Fs)
    requires forall ss :: Enumerates(order(ss), ss)
    requires Migrate(fs, codec, order).result.Ok?
    requires RecordedName(Migrate(fs, codec, order).fs, ObjectsV1, e.hash).Ok?
    requires OnlyRevisions(Migrate(fs, codec, order).fs, fs')
    ensures Carried(fs, fs', codec, e,
                    Entry(e.path, RecordedName(Migrate(fs, codec, order).fs, ObjectsV1, e.hash).value, e.permission))
  {
    var m := Migrate(fs, codec, order);
    if OldObject(fs, e.hash) {
      MigrateRecords(fs, codec, order, e.hash);
      var moved := MoveStore(fs).value;
      assert moved.areas[ObjectsV1][e.hash[..2]][e.hash] == fs.areas[Objects][e.hash[..2]][e.hash];
    }
  }

  /** One revision rewritten after a successful migration is upgraded. */
  lemma RevisionUpgraded(fs: Fs, codec: Codec, order: set<string> -> seq<string>, fs': Fs, n: int)
    requires forall ss :: Enumerates(order(ss), ss)
    requires Migrate(fs, codec, order).result.Ok?
    requires OnlyRevisions(Migrate(fs, codec, order).fs, fs')
    requires RemappedRevision(Migrate(fs, codec, order).fs, ObjectsV1, n).Ok?
    requires RepositoryIndex.LoadRevision(fs', n) == Ok(RemappedRevision(Migrate(fs, codec, order).fs, ObjectsV1, n).value)
    ensures Upgraded(fs, fs', codec, n)
  {
    var m := Migrate(fs, codec, order);
    assert RepositoryIndex.LoadRevision(m.fs, n) == RepositoryIndex.LoadRevision(fs, n);
    var before := RepositoryIndex.LoadRevision(fs, n).value;
    var after := RepositoryIndex.LoadRevision(fs', n).value;
    forall i | 0 <= i < |after.entries|
      ensures Carried(fs, fs', codec, before.entries[i], after.entries[i])
    {
      CarriedEntry(fs, codec, order, before.entries[i], fs');
    }
  }

  /** A successful upgrade remaps every revision of a strictly increasing
      index: each entry that named an old object now names the SHA-256
      object of the same bytes, and the new store is content-addressed. */
  lemma UpgradeRemapsEntries(fs: Fs, codec: Codec, order: set<string> -> seq<string>)
    requires WellFormedCodec(codec)
    requires forall ss :: Enumerates(order(ss), ss)
    requires RepositoryIndex.LoadRepository(fs).Ok? ==>
               StrictlyIncreasing(RepositoryIndex.LoadRepository(fs).value.revisionNumbers)
    ensures var r := UpgradeExecute(fs, codec, order);
            r.result.Ok? ==>
              && RepositoryIndex.LoadRepository(fs).Ok?
              && ContentAddressed(r.fs, codec)
              && forall k | 0 <= k < |RepositoryIndex.LoadRepository(fs).value.revisionNumbers| ::
                   Upgraded(fs, r.fs, codec, RepositoryIndex.LoadRepository(fs).value.revisionNumbers[k])
  {
    var r := UpgradeExecute(fs, codec, order);
    var m := Migrate(fs, codec, order);
    if r.result.Ok? {
      var nums := m.result.value.revisionNumbers;
      assert r == UpdateEntries(m.fs, ObjectsV1, nums);
      MigrateAddressed(fs, codec, order);
      StoreUntouched(m.fs, r.fs, codec);
      UpdateEntriesMeaning(m.fs, ObjectsV1, nums);
      forall k | 0 <= k < |nums|
        ensures Upgraded(fs, r.fs, codec, nums[k])
      {
        RevisionUpgraded(fs, codec, order, r.fs, nums[k]);
      }
    }
  }

  /** Where the as-written command fails, the corrected one succeeds: on a
      repository whose revisions all load and whose entries all name old
      objects, a successful migration is followed by a successful rewrite. */
  lemma UpgradeSucceeds(fs: Fs, codec: Codec, order: set<string> -> seq<string>)
    requires forall ss :: Enumerates(order(ss), ss)
    requires Migrate(fs, codec, order).result.Ok?
    requires var nums := Migrate(fs, codec, order).result.value.revisionNumbers;
             && StrictlyIncreasing(nums)
             && forall k | 0 <= k < |nums| ::
                  && RepositoryIndex.LoadRevision(fs, nums[k]).Ok?
                  && forall i | 0 <= i < |RepositoryIndex.LoadRevision(fs, nums[k]).value.entries| ::
                       OldObject(fs, RepositoryIndex.LoadRevision(fs, nums[k]).value.entries[i].hash)
    ensures UpgradeExecute(fs, codec, order).result.Ok?
  {
    var m := Migrate(fs, codec, order);
    var nums := m.result.value.revisionNumbers;
    forall k | 0 <= k < |nums|
      ensures RemappedRevision(m.fs, ObjectsV1, nums[k]).Ok?
    {
      assert RepositoryIndex.LoadRevision(m.fs, nums[k]) == RepositoryIndex.LoadRevision(fs, nums[k]);
      var es := RepositoryIndex.LoadRevision(fs, nums[k]).value.entries;
      forall i | 0 <= i < |es|
        ensures RecordedName(m.fs, ObjectsV1, es[i].hash).Ok?
      {
        MigrateRecords(fs, codec, order, es[i].hash);
      }
    }
    UpdateEntriesSucceeds(m.fs, ObjectsV1, nums);
  }
}
